=== FILE: README.md ===
# Naturalisation question bank: maintenance scripts and question actions

This project models the logic of the question bank of the Naturalisation
study app in Dafny. The bank is a `public.questions` table of
multiple-choice quizzes and open interview questions.

The centre of the model is the near-duplicate detector of
`scripts/detect_duplicates.ts`. It does four things:

- It normalises each question text: lower-case, strip punctuation,
  collapse runs of whitespace, trim.
- It sorts the rows so that quizzes come first and, within a kind, the
  oldest row comes first.
- It clusters greedily with a `visited` set. Two texts are duplicates when
  they are equal, or when the first is longer than 10 characters, the
  lengths differ by less than 5 and the Levenshtein distance is at most 3.
- It writes a `DELETE … WHERE id IN (…)` migration.

Around the detector the project models seven other parts:

- the difficulty classifier (`evaluate_difficulty.ts`);
- the knowledge-base conversion of interview questions into quizzes
  (`convert_interview_smart.ts`);
- the recycling of placeholder rows into spare quizzes (`recycle_junk.ts`);
- the forced data migration with its two lookup tables
  (`force_migration.ts`);
- the id renumbering with remapping of user progress
  (`reformat_ids_v2.ts`);
- the repair of quizzes that have fewer than two options
  (`fix_question_types_v2.ts`);
- the pure parts of the server actions in `lib/actions/questions.ts`:
  - the pagination window and page count;
  - the stable situation-first sort of interview questions;
  - the id slice;
  - the valid-quiz filter.

Modules, one per file:

- Shared modules:
  - `Seqs`: flatten, batching, filter;
  - `Text`: lower-case, JavaScript whitespace, trim, `includes`, decimal
    numerals;
  - `Sql`: quote escaping and reading quoted values back;
  - `Statements`: the `UPDATE` statements the scripts write;
  - `QuestionTypes`: the question kinds.
- The detector:
  - `Levenshtein`;
  - `Normalizer`;
  - `Dedup`: the duplicate test and the priority sort;
  - `Clustering`: the greedy pass;
  - `DuplicateDetector`: the whole run.
- The other scripts, in the order listed above: `Difficulty`,
  `InterviewConversion`, `JunkRecycling`, `ForceMigration`, `IdReformat`,
  `QuizTypeFix` and `QuestionActions`.

The greedy pass of the detector is modelled twice:

- `Clustering.PassUpTo` is a reference definition, one outer turn at a
  time.
- `Clustering.Cluster` is the nested loop, and it is proved to compute that
  reference definition.

The guarantees are proved about the reference pass:

- each duplicate passes the test against its own original;
- the deletion list has no repeats;
- with unique ids (the `id TEXT PRIMARY KEY` of
  scripts/force_migration.ts:40), no original is deleted;
- with unique ids, no two kept rows pass the test against each other in
  sorted order.

Both guarantees need unique ids. When two rows share an id, the pass can
delete an original (it marks only the duplicate's id as visited), and a row
skipped as visited can hide a match between two kept rows.

The duplicate test follows the code. Two empty normalised texts are
duplicates, because the exact comparison accepts them. The test is not
symmetric, because the length gate looks at the first text only.
`Dedup.NotSymmetric` exhibits a pair where the test holds one way and
fails the other way.

## Model

| member | source | states |
|---|---|---|
| Levenshtein.Levenshtein | scripts/detect_duplicates.ts:14-35 | The table-filling loop returns the recursive edit distance `Distance(a, b)`. |
| Levenshtein.NextRow | scripts/detect_duplicates.ts:19-33 | One pass of the inner loop turns the row for `b[..i-1]` into the row for `b[..i]`. |
| Levenshtein.TableCell | scripts/detect_duplicates.ts:21-30 | A cell is the diagonal when the characters agree. Otherwise it is one more than the least of its three neighbours. |
| Levenshtein.DistanceToEmpty | scripts/detect_duplicates.ts:16-17 | The first row and the first column hold the lengths: the distance to the empty string is the length. |
| Levenshtein.Symmetric | scripts/detect_duplicates.ts:14-35 | The distance does not depend on the order of its arguments. |
| Levenshtein.ZeroIffEqual | scripts/detect_duplicates.ts:14-35 | The distance is zero exactly for equal strings. |
| Levenshtein.LengthBounds | scripts/detect_duplicates.ts:14-35 | The distance is at least the length difference and at most the longer length. |
| Levenshtein.OptimalScript | scripts/detect_duplicates.ts:24-29 | Some script of substitutions, insertions and deletions turns `a` into `b` at a cost equal to the distance. |
| Levenshtein.DistanceIsMinimal | scripts/detect_duplicates.ts:24-29 | No edit script from `a` to `b` costs less than the distance. |
| Levenshtein.DistanceIsLeastEditCost | scripts/detect_duplicates.ts:14-35 | The distance is the least cost of an edit script, shown in both directions. |
| Text.LowerIsLower | scripts/evaluate_difficulty.ts:36 | Lower-casing gives a lower-case text and is idempotent. |
| Text.Trim | scripts/detect_duplicates.ts:40 | `trim` returns an infix of the text that neither starts nor ends with whitespace. Only whitespace is cut off on either side. |
| Text.TrimKeepsVisible | scripts/detect_duplicates.ts:40 | Trimming keeps every non-whitespace character of the text, in order. |
| Text.TrimNoop | scripts/convert_interview_smart.ts:13 | Trimming a text with no whitespace at its ends changes nothing. |
| Text.ContainsIff | scripts/evaluate_difficulty.ts:39 | The recursive `includes` holds exactly when the keyword occurs at some position. |
| Text.DecimalRoundTrip | scripts/reformat_ids_v2.ts:19 | `toString` of a number reads back as that number. |
| Text.DecimalInjective | scripts/reformat_ids_v2.ts:19 | Different numbers get different numerals. |
| Text.DecimalLength | scripts/reformat_ids_v2.ts:19 | A number of `k + 1` digits has a numeral of `k + 1` characters. |
| Normalizer.StripPunctuation | scripts/detect_duplicates.ts:38 | The result has no character of the class, draws its characters from the text, and leaves a text that has none of them unchanged. |
| Normalizer.StripPunctuationIsCharwise | scripts/detect_duplicates.ts:38 | The deletion distributes over concatenation. A character of the class is removed and any other character is kept. |
| Normalizer.CollapseWhitespace | scripts/detect_duplicates.ts:39 | No two adjacent whitespace characters remain. The whitespace status of the first and last characters is kept. |
| Normalizer.CollapseRun | scripts/detect_duplicates.ts:39 | A whitespace run on its own becomes one space when it has two or more characters and stays when it has one. |
| Normalizer.CollapseAppend | scripts/detect_duplicates.ts:39 | The collapse of a concatenation is the concatenation of the collapses when the cut is not inside a whitespace run. |
| Normalizer.CollapseRunBetween | scripts/detect_duplicates.ts:39 | A whitespace run between non-whitespace characters (or the ends of the text) becomes one space when it has two or more characters and stays when it has one. The text on either side is collapsed on its own. |
| Normalizer.CollapseKeepsVisible | scripts/detect_duplicates.ts:39 | The collapse keeps every non-whitespace character of the text, in order. |
| Normalizer.CollapseNoop | scripts/detect_duplicates.ts:39 | A text without adjacent whitespace is left unchanged. |
| Normalizer.Normalize | scripts/detect_duplicates.ts:37-40 | The result is lower-case, free of the stripped characters and of double whitespace, has no whitespace at its ends, and is no longer than the input. Its non-whitespace characters are exactly those of the lower-cased text with the class removed, in order. |
| Normalizer.NormalizeIdempotent | scripts/detect_duplicates.ts:37-40 | Normalising a normalised text changes nothing. |
| Dedup.DuplicateTest | scripts/detect_duplicates.ts:81-91 | The exact-then-fuzzy test decides `IsDuplicate`. Equal texts are duplicates. When the first text has at most 10 characters, only equal texts are. |
| Dedup.EqualTextsAreDuplicates | scripts/detect_duplicates.ts:82 | Records whose normalised texts are equal are duplicates. |
| Dedup.EmptyTextsAreDuplicates | scripts/detect_duplicates.ts:82 | Two empty normalised texts are duplicates. |
| Dedup.ShortTextsMatchOnlyExactly | scripts/detect_duplicates.ts:85 | With a first text of at most 10 characters, the test is plain equality. |
| Dedup.FuzzyMatchIsThreeEdits | scripts/detect_duplicates.ts:85-91 | Different texts are duplicates exactly when the gate passes and at most three single-character edits turn one into the other. |
| Dedup.NotSymmetric | scripts/detect_duplicates.ts:85 | A pair of lengths 11 and 8 passes in one order and fails in the other. |
| Dedup.CompareMatchesKey | scripts/detect_duplicates.ts:61-65 | The comparator orders by the key (quiz first, then time stamp). It returns 0 exactly on equal keys and is total. |
| Dedup.SortByPriority | scripts/detect_duplicates.ts:61-65 | The sort returns a permutation of the rows that is ordered by the comparator. |
| Dedup.SortedOrderPolicy | scripts/detect_duplicates.ts:59-65 | After sorting, every quiz precedes every non-quiz, and within a kind the older row comes first. |
| Dedup.SortIsStable | scripts/detect_duplicates.ts:61-65 | Rows with equal keys keep their input order. |
| Dedup.SortKeepsUniqueIds | scripts/detect_duplicates.ts:61-65 | Sorting keeps the ids unique. |
| Clustering.ScanFromSpec | scripts/detect_duplicates.ts:74-98 | After the inner loop has looked at each later record, it has done four things. It collected every unvisited later record that passes the test, in order. It recorded their ids as visited. It added nothing else to `visited`. It passed over every record it did not collect. |
| Clustering.ScanAnchor | scripts/detect_duplicates.ts:74-98 | The inner loop computes the reference scan. Every later record that passes the test ends up visited, and the new visited ids are exactly the collected ones. |
| Clustering.PassStep | scripts/detect_duplicates.ts:67-106 | One outer turn keeps the pass's invariant. A visited record is skipped. Otherwise a group is opened only when duplicates were found, and the original's id is marked visited. |
| Clustering.PassUpToSpec | scripts/detect_duplicates.ts:67-106 | The invariant of the outer loop (groups, deletion list, visited set, kept records apart) holds after every record. |
| Clustering.PassResult | scripts/detect_duplicates.ts:67-106 | Every group has a duplicate found after its original that passes the test against it. The deletion list is the groups' duplicate ids without repeats. With unique ids no original is deleted, and no two kept records pass the test in sorted order. |
| Clustering.Cluster | scripts/detect_duplicates.ts:67-106 | The nested loop computes the reference pass and therefore carries all of its guarantees. |
| DuplicateDetector.DeleteEmittedIffNonEmpty | scripts/detect_duplicates.ts:112-117 | The migration is the comment line alone exactly when no id is to be deleted. |
| DuplicateDetector.GroupsMatchOnNormalisedTexts | scripts/detect_duplicates.ts:78-96 | Each duplicate is a fetched row that passes the test against its original on the normalised texts. |
| DuplicateDetector.KeptApartOnNormalisedTexts | scripts/detect_duplicates.ts:67-106 | No two kept rows pass the test against each other on their normalised texts. |
| DuplicateDetector.DetectDuplicates | scripts/detect_duplicates.ts:42-117 | The whole run from the fetched rows to the SQL text. It makes the sorted order, then the groups and deletion list of the greedy pass over it (`Clustering.PassUpTo`). Each duplicate comes after its original in sorted order, and the deletion list is repeat-free. With unique ids (the primary key of scripts/force_migration.ts:40) the list spares every original and no two kept rows match. It writes the `DELETE` only when the list is non-empty. |
| Sql.Escape | scripts/convert_interview_smart.ts:230 | Doubling the quotes adds one character per quote and leaves no lone quote. |
| Sql.UnescapeEscape | scripts/convert_interview_smart.ts:230 | Collapsing doubled quotes undoes the escape. |
| Sql.EscapeUnescape | scripts/convert_interview_smart.ts:230 | On texts without a lone quote, escaping undoes the collapse, so the escape is a bijection. |
| Sql.ReadLiteralOfEscape | scripts/convert_interview_smart.ts:238 | A quoted escaped value is read back as the value, and reading stops after its closing quote. |
| Sql.LiteralInjective | scripts/convert_interview_smart.ts:238 | Different values give different quoted literals. |
| Sql.ReadArrayOfArrayLiteral | scripts/convert_interview_smart.ts:232-239 | `ARRAY['…','…']` of escaped options is read back as the same options. |
| Sql.InListReadsBack | scripts/detect_duplicates.ts:115 | When no id contains a quote, the raw id list is the escaped list and reads back as the ids. |
| Sql.InStatementReadsBack | scripts/detect_duplicates.ts:115-116 | For a non-empty list of ids that contain no quote, the id list of a `… IN (…);` statement reads back as the ids, whatever the text in front of it. |
| Statements.ValueRoundTrip | scripts/convert_interview_smart.ts:234-241 | A value of the SET list (text or array of texts) reads back as itself. |
| Statements.RenderValueInjective | scripts/recycle_junk.ts:139-148 | Different values render differently. |
| Statements.LookupFinds | scripts/recycle_junk.ts:139-148 | A column's value is found exactly when some assignment names the column, and what is found is the first such assignment. |
| QuestionTypes.TypeNameRoundTrip | lib/data/types.ts:4 | The stored `type` name of a kind parses back as that kind. |
| Difficulty.LabelInjective | scripts/evaluate_difficulty.ts:35 | The three level names are pairwise different. |
| Difficulty.Evaluate | scripts/evaluate_difficulty.ts:35-47 | A text longer than 120 characters is hard. A text shorter than 50 characters is never medium. |
| Difficulty.HardKeywordWins | scripts/evaluate_difficulty.ts:39 | A hard keyword in the lower-cased text makes the question hard, whatever the rest. |
| Difficulty.LevelCharacterisation | scripts/evaluate_difficulty.ts:35-47 | Each of the three levels as an iff on the keywords and the length. |
| Difficulty.NoKeywordMeansByLength | scripts/evaluate_difficulty.ts:40-46 | Without any keyword, the thresholds 50 and 120 alone decide the level. |
| Difficulty.CaseInsensitive | scripts/evaluate_difficulty.ts:36 | Texts that lower-case alike get the same level. |
| Difficulty.CollectUpdates | scripts/evaluate_difficulty.ts:64-75 | The loop puts each changed row's id into the bucket of its new level, in row order. |
| Difficulty.BucketMembership | scripts/evaluate_difficulty.ts:70-75 | An id is in a level's bucket exactly when some row with that id evaluates to the level and stores a different one. |
| Difficulty.ChangedRowsOnly | scripts/evaluate_difficulty.ts:72 | With unique ids, a row is in a bucket exactly when it needs that update. |
| Difficulty.BucketsCountChanges | scripts/evaluate_difficulty.ts:70-75 | Every changed row lands in exactly one bucket. |
| Difficulty.NothingToUpdate | scripts/evaluate_difficulty.ts:82-100 | The file is the comment line alone exactly when all three buckets are empty. |
| Difficulty.EvaluateAll | scripts/evaluate_difficulty.ts:64-100 | The run writes the statements of the three buckets, and writes only the comment line exactly when no row changes. |
| InterviewConversion.KnowledgeBaseWellFormed | scripts/convert_interview_smart.ts:16-153 | The 27 entries each have keywords and three options, the first of which is the answer. |
| InterviewConversion.ScoreCounts | scripts/convert_interview_smart.ts:163-166 | The score is zero exactly when no keyword occurs, and full exactly when every keyword occurs. |
| InterviewConversion.BestUpTo | scripts/convert_interview_smart.ts:155-175 | The chosen entry scores at least 1 and at least as much as every entry, and strictly more than every earlier entry, so the first best wins. There is no match exactly when all scores are zero. |
| InterviewConversion.FindBestMatch | scripts/convert_interview_smart.ts:155-175 | The loop computes `BestUpTo` over the whole knowledge base on the cleaned text. |
| InterviewConversion.CountKeywords | scripts/convert_interview_smart.ts:163-166 | The inner loop counts the keywords the text contains. |
| InterviewConversion.Fallback | scripts/convert_interview_smart.ts:206-221 | The generic choice offers three options, and its answer is the first. |
| InterviewConversion.QuizStatementReads | scripts/convert_interview_smart.ts:234-241 | The statement sets the type to quiz, the answer and the options. |
| InterviewConversion.ChosenAnswerOffered | scripts/convert_interview_smart.ts:196-223 | Whether matched or generic, the answer is among the options. The question counts as matched exactly when some entry scores. |
| InterviewConversion.ConvertOne | scripts/convert_interview_smart.ts:196-241 | The statement is for the question's id and makes a quiz whose answer is offered. |
| InterviewConversion.ConvertAll | scripts/convert_interview_smart.ts:186-244 | Placeholders are skipped. The two counters sum to the number of statements, and every statement makes a quiz with an offered answer. |
| InterviewConversion.Run | scripts/convert_interview_smart.ts:186-244 | The run over the script's knowledge base writes the header followed by the joined statements. |
| InterviewConversion.UpdatesFollowQuestions | scripts/convert_interview_smart.ts:192-196 | There is one statement per non-placeholder question, in order, each for that question's id. |
| JunkRecycling.SpareQuestionsWellFormed | scripts/recycle_junk.ts:10-101 | The 15 spares each offer their answer first among three options. |
| JunkRecycling.JunkQuery | scripts/recycle_junk.ts:111-115 | The query returns exactly the interview rows whose text is one of the three placeholders. |
| JunkRecycling.SpareStatementReads | scripts/recycle_junk.ts:139-148 | The statement keeps the row's id and writes the spare's type, question, answer, options and theme. |
| JunkRecycling.CounterWraps | scripts/recycle_junk.ts:125-150 | After `i` rows, resetting the counter at the end of the list leaves it at `i % n`. |
| JunkRecycling.Recycle | scripts/recycle_junk.ts:124-151 | The loop gives the `k`-th junk row the spare number `k % |spares|`. |
| JunkRecycling.CycleRepeats | scripts/recycle_junk.ts:128-132 | Rows `k` and `k + |spares|` get the same spare. |
| JunkRecycling.EverySpareUsed | scripts/recycle_junk.ts:124-151 | With at least as many junk rows as spares, every spare is used. |
| JunkRecycling.RecycledMakeQuizzes | scripts/recycle_junk.ts:139-148 | Every statement makes a quiz whose answer is among its options. |
| JunkRecycling.Run | scripts/recycle_junk.ts:107-158 | There is one statement per junk row, for its id, each making a quiz, and the SQL is the header followed by the statements. |
| ForceMigration.LookupOr | scripts/force_migration.ts:129 | `mapping[key] \|\| 'Autre'` returns the table's value for a key it holds and the fallback exactly for any other key. |
| ForceMigration.ChapterTable | scripts/force_migration.ts:121-130 | Four themes keep their name, geography maps to "La France dans le monde", and every other theme maps to "Autre". |
| ForceMigration.CategoryTable | scripts/force_migration.ts:132-140 | The four lower-case categories map to their themes and everything else maps to "Autre", including "Histoire" with a capital. |
| ForceMigration.BuildRows | scripts/force_migration.ts:62-99 | All quiz rows come first and then all interview rows, each in list order. |
| ForceMigration.RowsLayout | scripts/force_migration.ts:64-99 | Quiz rows keep their content and get their chapter. Interview rows get an empty answer, options and explanation, no chapter, and an empty situation list by default. |
| ForceMigration.Migrate | scripts/force_migration.ts:61-111 | The batches of at most 50 rows, concatenated, are the rows. |
| Seqs.Batches | scripts/fix_question_types_v2.ts:45-47 | The batches concatenate to the input. Each is non-empty and at most `size` long, all but the last are full, and there are `ceil(n / size)` of them. |
| Seqs.FilterSplit | scripts/fix_question_types_v2.ts:32-35 | A filter and the filter by the opposite test split the input as a multiset. |
| QuizTypeFix.InvalidIsComplement | scripts/fix_question_types_v2.ts:34 | The repair's test is exactly the negation of the quiz page's validity test. |
| QuizTypeFix.InvalidQuestions | scripts/fix_question_types_v2.ts:32-35 | The result holds exactly the fetched quizzes with fewer than two options, missing options or non-array options. |
| QuizTypeFix.ValidAndInvalidPartition | scripts/fix_question_types_v2.ts:32-35 | Every fetched quiz is in exactly one of the valid and invalid lists. |
| QuizTypeFix.FetchQuizzes | scripts/fix_question_types_v2.ts:22-25 | The fetch returns exactly the quiz rows. |
| QuizTypeFix.FixTypes | scripts/fix_question_types_v2.ts:39-67 | The ids of the invalid quizzes are sent in batches of at most 50, and nothing is sent exactly when every quiz is valid. |
| QuizTypeFix.ApplyAllConverts | scripts/fix_question_types_v2.ts:50-53 | Applying the batches converts exactly the rows whose id is in some batch. |
| QuizTypeFix.NoInvalidQuizLeft | scripts/fix_question_types_v2.ts:39-64 | After the run no invalid quiz remains. Rows outside the id list are unchanged, and ids and options never change. |
| QuizTypeFix.ValidQuizzesStay | scripts/fix_question_types_v2.ts:39-64 | With unique ids, a valid quiz stays as it was. |
| QuestionActions.WindowsTile | lib/actions/questions.ts:37-38 | A page window spans `limit` rows, and the next page starts right after it. |
| QuestionActions.PositionOnOnePage | lib/actions/questions.ts:37-38 | Every row position lies in exactly one page window. |
| QuestionActions.TotalPagesIsCeiling | lib/actions/questions.ts:53 | The page count is zero exactly without rows, and otherwise the least number of pages that hold them. |
| QuestionActions.LastPageHoldsLastRow | lib/actions/questions.ts:37-53 | The window of the last page holds the last row. |
| QuestionActions.NoSituationKeepsOrder | lib/actions/questions.ts:70-72 | Without a situation the questions are returned as fetched. |
| QuestionActions.SortIsStablePartition | lib/actions/questions.ts:79-89 | The stable sort by the comparator is the keyed elements in order followed by the others in order. |
| QuestionActions.PrioritizeIsStablePartition | lib/actions/questions.ts:79-89 | The questions naming the lower-cased situation come first and the rest after, both in fetched order, as a permutation of the input. |
| QuestionActions.SelectIdsBound | lib/actions/questions.ts:110 | At most `limit` ids are selected, as a prefix of the shuffled ids, and exactly `limit` when enough ids exist. |
| QuestionActions.ValidQuestions | lib/actions/questions.ts:120-122 | A NULL result gives the empty list. The list keeps exactly the rows with an array of at least two options, drawn from the data. |
| IdReformat.IdNumber | scripts/reformat_ids_v2.ts:19 | A drawn number lies in [10000000, 100000000). |
| IdReformat.GeneratedIdShape | scripts/reformat_ids_v2.ts:18-20 | A generated id is eight digits with a non-zero first digit and denotes the drawn number. |
| IdReformat.IdRangeEnds | scripts/reformat_ids_v2.ts:19 | The smallest draw gives 10000000 and the largest gives 99999999. |
| IdReformat.DrawUnused | scripts/reformat_ids_v2.ts:39-42 | The redraw loop returns an unused generated id. Every draw it passed over was in use, and it reports when the draws run out. |
| IdReformat.Step | scripts/reformat_ids_v2.ts:38-51 | One outer turn keeps the invariant. The new ids are distinct and generated, and the map is injective with the last occurrence of an old id winning. |
| IdReformat.Renumber | scripts/reformat_ids_v2.ts:38-51 | Every row is copied under a fresh distinct eight-digit id with the new time stamp. The map's keys are exactly the old ids, its values are new ids, it is injective, and the last occurrence of a repeated old id wins. |
| IdReformat.RemappedIsRelabelledFilter | scripts/reformat_ids_v2.ts:87-98 | The remapped progress is exactly the entries whose module id was an old id, in order, each with only its module id replaced by the new one. |
| IdReformat.ProgressAfter | scripts/reformat_ids_v2.ts:87 | The progress table is left alone exactly when nothing or an empty list was saved. |
| IdReformat.Reformat | scripts/reformat_ids_v2.ts:22-116 | The run inserts the new rows in batches of at most 100 and rewrites progress as the relabelled filter. When the draws run out it inserts and rewrites nothing. |

## Left out

- Supabase, file and console I/O are outside the model. The fetched rows and the supplied lists are parameters, the generated SQL is a value, and the database's own result order is taken as given. Error returns of the client (fetch, delete, insert, update) are not modelled.
- The schema rebuild at scripts/force_migration.ts:20-59 is not modelled: the DDL run through `postgres`, and the policy creation.
- The queries of `getQuestions` (theme, chapter and `ilike` search filters, `range`, ordering by `created_at`) are not modelled. Only the window arithmetic and the page count are.
- The shuffle in `getRandomQuizQuestions` is not modelled: it is random and not a fair shuffle anyway. Its order is a parameter. The follow-up fetch `.in('id', …)` is not modelled either.
- Text.Lower: `toLowerCase` is modelled for ASCII and for the Latin-1 capitals U+00C0–U+00DE except U+00D7. Other characters are left unchanged, and full Unicode case mapping is left out.
- Text: a string is a sequence of Unicode scalar values. A character outside the Basic Multilingual Plane counts as one character here, while JavaScript counts it as two UTF-16 code units. This affects the length gates of scripts/detect_duplicates.ts:85, the `charAt`-based Levenshtein distance, the length tests of scripts/evaluate_difficulty.ts:40 and 44, and the length test of scripts/convert_interview_smart.ts:194.
- Dedup.SortByPriority: `created_at` is an integer time stamp in milliseconds. Date parsing and the NaN of an unparsable date are left out.
- IdReformat.Renumber: `Math.random()` is a supplied sequence of draws `k / 2^53` with `k < 2^53`, so float rounding in `10000000 + r * 90000000` is left out. A finite draw list can run out, which gives `OutOfDraws`; the script would keep drawing.
- IdReformat.Reformat: `new Date().toISOString()`, read once per row, is a parameter `stamps` holding one reading per question. IdReformat.Renumber takes the same list.
- The example printout of scripts/detect_duplicates.ts:119-126 and all console counters are left out. The counters of the interview conversion are modelled.
- IdReformat.ProgressAfter: the table after the run is taken to hold exactly the remapped entries. The script deletes with `.neq('id', '00000000-0000-0000-0000-000000000000')` (scripts/reformat_ids_v2.ts:106), so a saved entry whose id is the all-zero UUID would survive beside them. If its module id was remapped, re-inserting it would clash with the survivor at scripts/reformat_ids_v2.ts:109. That sentinel row is not modelled.
- Sql.InListReadsBack: the ids written raw between quotes read back only when they contain no quote. Quote-free ids are assumed, as the table's ids are numerals or UUIDs.
- Sql.InStatementReadsBack: requires a non-empty list of quote-free ids, as Sql.InListReadsBack does. The script only writes the statement when there is something to delete.
- ForceMigration.LookupOr: a JavaScript object literal also answers keys inherited from `Object.prototype`, such as "constructor", "toString" or "__proto__". For those `mapping[key] || 'Autre'` returns a truthy non-string value. The model treats them as absent keys and returns the fallback.
- InterviewConversion.Run and JunkRecycling.Run use the scripts' own knowledge base and spare list. The general methods take them as parameters.
- JunkRecycling.Recycle: requires a non-empty spare list, which the script's constant list is.
- QuestionActions.TotalPagesIsCeiling: requires a positive limit. With limit 0 the script would divide by zero and return `Infinity`.
- QuestionActions.Prioritize: the `|| []` default is modelled only for a missing `required_for`. Other falsy or non-array values are left out.
- lib/actions/user-progress.ts, the app pages, the middleware and the other context scripts are not part of this model.

=== FILE: cluster.dfy ===
/**
  The greedy clustering pass of the duplicate detector
  (scripts/detect_duplicates.ts), run over the records in priority order.
  For each record not yet visited, every later record not yet visited that
  passes the duplicate test against it joins its group and is marked
  visited; a group is kept only when it has a duplicate, and its duplicates'
  ids are appended to the deletion list.

  `ScanFrom` and `PassUpTo` are the two loops written as functions of how
  far they have got; `ScanAnchor` and `Cluster` are the loops themselves and
  are proved to compute them. The positions the loops pass over (which
  record opened which group, which record was removed into which group)
  are carried along for the proofs only.
 */
module Clustering {
  import opened Seqs
  import opened Dedup

  predicate Increasing(ps: seq<nat>)
  {
    forall i, j :: 0 <= i < j < |ps| ==> ps[i] < ps[j]
  }

  function IdsOf(rs: seq<Record>): (ids: seq<string>)
    ensures |ids| == |rs|
    ensures forall k :: 0 <= k < |rs| ==> ids[k] == rs[k].id
  {
    seq(|rs|, k requires 0 <= k < |rs| => rs[k].id)
  }

  /** The ids of all duplicates, group after group (`toDelete.push(...)`). */
  function DuplicateIds(groups: seq<Group>): seq<string>
  {
    if |groups| == 0 then []
    else DuplicateIds(groups[..|groups| - 1]) + IdsOf(groups[|groups| - 1].duplicates)
  }

  lemma DuplicateIdsAppend(groups: seq<Group>, g: Group, ids: seq<string>)
    requires |ids| == |g.duplicates|
    requires forall k :: 0 <= k < |ids| ==> ids[k] == g.duplicates[k].id
    ensures DuplicateIds(groups + [g]) == DuplicateIds(groups) + ids
  {
    assert (groups + [g])[..|groups|] == groups;
    assert IdsOf(g.duplicates) == ids;
  }

  lemma DistinctAppend(xs: seq<string>, ys: seq<string>)
    requires Distinct(xs) && Distinct(ys)
    requires forall k, x :: 0 <= k < |ys| && 0 <= x < |xs| ==> ys[k] != xs[x]
    ensures Distinct(xs + ys)
  {
  }

  /** `groupOf` with the positions `pos` sent to group `g`. */
  function Assign(groupOf: seq<int>, pos: seq<nat>, g: int): (r: seq<int>)
    ensures |r| == |groupOf|
    ensures forall p :: 0 <= p < |r| ==> r[p] == if p in pos then g else groupOf[p]
  {
    seq(|groupOf|, p requires 0 <= p < |groupOf| => if p in pos then g else groupOf[p])
  }

  // ---------------------------------------------------------------------
  // The inner loop
  // ---------------------------------------------------------------------

  /** State of the inner loop: the duplicates found, their ids, the visited
      ids, and (for the proofs) the positions of the duplicates. */
  datatype Scan = Scan(dups: seq<Record>, ids: seq<string>, visited: set<string>, pos: seq<nat>)

  /** The inner loop for the original at position `i` (`norms[p]` is the
      normalised text of `recs[p]`), once it has looked at the records
      before position `j`. */
  function ScanFrom(recs: seq<Record>, norms: seq<string>, i: nat, j: nat, visited0: set<string>): Scan
    requires |norms| == |recs| && i < j <= |recs|
    decreases j
  {
    if j == i + 1 then Scan([], [], visited0, [])
    else ScanNext(recs, norms, i, j - 1, ScanFrom(recs, norms, i, j - 1, visited0))
  }

  /** One turn of the inner loop: the record at position `j` is collected
      when its id is not visited and it passes the test against record `i`. */
  function ScanNext(recs: seq<Record>, norms: seq<string>, i: nat, j: nat, s: Scan): Scan
    requires |norms| == |recs| && i < j < |recs|
  {
    var q := recs[j];
    if q.id !in s.visited && IsDuplicate(norms[i], norms[j]) then
      Scan(s.dups + [q], s.ids + [q.id], s.visited + {q.id}, s.pos + [j])
    else s
  }

  /** What the inner loop has established once it has looked at the records
      before position `j`: the duplicates sit at increasing positions after
      `i`, each passes the test against record `i`, their ids are distinct,
      were not visited before and are visited now, nothing else became
      visited, and every record before `j` that passes the test is visited. */
  ghost predicate Scanned(recs: seq<Record>, norms: seq<string>, i: nat, j: nat, visited0: set<string>, s: Scan)
  {
    |norms| == |recs| && i < j <= |recs| &&
    |s.dups| == |s.pos| == |s.ids| && Increasing(s.pos) &&
    (forall k :: 0 <= k < |s.pos| ==>
      i < s.pos[k] < j && s.dups[k] == recs[s.pos[k]] && s.ids[k] == s.dups[k].id) &&
    (forall k :: 0 <= k < |s.pos| ==> IsDuplicate(norms[i], norms[s.pos[k]])) &&
    (forall k :: 0 <= k < |s.ids| ==> s.ids[k] !in visited0 && s.ids[k] in s.visited) &&
    Distinct(s.ids) && visited0 <= s.visited &&
    (forall x :: x in s.visited && x !in visited0 ==> x in s.ids) &&
    (forall b :: i < b < j && IsDuplicate(norms[i], norms[b]) ==> recs[b].id in s.visited)
  }

  /** Before the first turn nothing is found and nothing else is visited. */
  lemma ScanStart(recs: seq<Record>, norms: seq<string>, i: nat, visited0: set<string>)
    requires |norms| == |recs| && i < |recs|
    ensures Scanned(recs, norms, i, i + 1, visited0, ScanFrom(recs, norms, i, i + 1, visited0))
  {
    assert ScanFrom(recs, norms, i, i + 1, visited0) == Scan([], [], visited0, []);
  }

  /** One turn of the inner loop keeps its description true. */
  lemma ScanStep(recs: seq<Record>, norms: seq<string>, i: nat, j: nat, visited0: set<string>, s: Scan)
    requires i + 1 < j <= |recs| && Scanned(recs, norms, i, j - 1, visited0, s)
    ensures Scanned(recs, norms, i, j, visited0, ScanNext(recs, norms, i, j - 1, s))
  {
    var q := recs[j - 1];
    if q.id !in s.visited && IsDuplicate(norms[i], norms[j - 1]) {
      ScanTake(recs, norms, i, j - 1, visited0, s);
    } else {
      ScanSkip(recs, norms, i, j - 1, visited0, s);
    }
  }

  /** The record at position `j` is collected. */
  lemma ScanTake(recs: seq<Record>, norms: seq<string>, i: nat, j: nat, visited0: set<string>, s: Scan)
    requires Scanned(recs, norms, i, j, visited0, s)
    requires j < |recs| && recs[j].id !in s.visited && IsDuplicate(norms[i], norms[j])
    ensures Scanned(recs, norms, i, j + 1, visited0,
                    Scan(s.dups + [recs[j]], s.ids + [recs[j].id], s.visited + {recs[j].id}, s.pos + [j]))
  {
    var q := recs[j];
    assert Increasing(s.pos + [j]) by {
      forall k | 0 <= k < |s.pos| ensures (s.pos + [j])[k] < j {
        assert (s.pos + [j])[k] == s.pos[k];
      }
    }
    assert Distinct(s.ids + [q.id]) by {
      forall k | 0 <= k < |s.ids| ensures s.ids[k] != q.id {
        assert s.ids[k] in s.visited;
      }
      DistinctAppend(s.ids, [q.id]);
    }
  }

  /** The record at position `j` is passed over. */
  lemma ScanSkip(recs: seq<Record>, norms: seq<string>, i: nat, j: nat, visited0: set<string>, s: Scan)
    requires Scanned(recs, norms, i, j, visited0, s)
    requires j < |recs| && (recs[j].id in s.visited || !IsDuplicate(norms[i], norms[j]))
    ensures Scanned(recs, norms, i, j + 1, visited0, s)
  {
  }

  /** The inner loop establishes its description at every stage. */
  lemma {:induction false} ScanFromSpec(recs: seq<Record>, norms: seq<string>, i: nat, j: nat,
                                        visited0: set<string>)
    requires |norms| == |recs| && i < j <= |recs|
    ensures Scanned(recs, norms, i, j, visited0, ScanFrom(recs, norms, i, j, visited0))
    decreases j
  {
    if j == i + 1 {
      ScanStart(recs, norms, i, visited0);
    } else {
      var prev := ScanFrom(recs, norms, i, j - 1, visited0);
      assert ScanFrom(recs, norms, i, j, visited0) == ScanNext(recs, norms, i, j - 1, prev);
      ScanFromSpec(recs, norms, i, j - 1, visited0);
      ScanStep(recs, norms, i, j, visited0, prev);
    }
  }

  /** The inner loop for the record at position `i`: it computes the
      reference scan, so every later record whose id is not yet visited and
      that passes the test against record `i` is collected, in order, and
      every later record that passes the test ends up visited. */
  method ScanAnchor(recs: seq<Record>, norms: seq<string>, i: nat, visited0: set<string>)
    returns (dups: seq<Record>, ids: seq<string>, visited: set<string>)
    requires |norms| == |recs| && i < |recs|
    ensures var s := ScanFrom(recs, norms, i, |recs|, visited0);
      dups == s.dups && ids == s.ids && visited == s.visited
    ensures |ids| == |dups|
    ensures forall k :: 0 <= k < |ids| ==> ids[k] == dups[k].id && ids[k] !in visited0 && ids[k] in visited
    ensures forall b :: i < b < |recs| && IsDuplicate(norms[i], norms[b]) ==> recs[b].id in visited
    ensures forall x :: x in visited && x !in visited0 ==> x in ids
  {
    dups, ids, visited := [], [], visited0;
    var j := i + 1;
    while j < |recs|
      invariant i < j <= |recs|
      invariant var s := ScanFrom(recs, norms, i, j, visited0);
        dups == s.dups && ids == s.ids && visited == s.visited
    {
      var q2 := recs[j];
      if q2.id !in visited {
        var isDuplicate := DuplicateTest(norms[i], norms[j]);
        if isDuplicate {
          dups := dups + [q2];
          ids := ids + [q2.id];
          visited := visited + {q2.id};
        }
      }
      j := j + 1;
    }
    ScanFromSpec(recs, norms, i, |recs|, visited0);
  }

  // ---------------------------------------------------------------------
  // The outer loop
  // ---------------------------------------------------------------------

  /** State of the outer loop: the groups, the deletion list and the visited
      ids, and (for the proofs) the positions of each group's original and
      duplicates, the group each position was removed into (-1 for none) and
      the position of each deleted id. */
  datatype Pass = Pass(groups: seq<Group>, toDelete: seq<string>, visited: set<string>,
                       anchors: seq<nat>, members: seq<seq<nat>>, groupOf: seq<int>, delPos: seq<nat>)

  /** The outer loop once it has handled the records before position `i`. */
  function PassUpTo(recs: seq<Record>, norms: seq<string>, i: nat): Pass
    requires |norms| == |recs| && i <= |recs|
    decreases i
  {
    if i == 0 then Pass([], [], {}, [], [], seq(|recs|, p => -1), [])
    else PassNext(recs, norms, i - 1, PassUpTo(recs, norms, i - 1))
  }

  /** One turn of the outer loop, for the record at position `i`: a visited
      record is passed over; otherwise the inner loop runs, a group is kept
      when it found a duplicate, and the record is marked visited. */
  function PassNext(recs: seq<Record>, norms: seq<string>, i: nat, st: Pass): Pass
    requires |norms| == |recs| && i < |recs|
  {
    var q := recs[i];
    if q.id in st.visited then st
    else
      var sc := ScanFrom(recs, norms, i, |recs|, st.visited);
      if |sc.dups| > 0 then
        Pass(st.groups + [Group(q, sc.dups)], st.toDelete + sc.ids, sc.visited + {q.id},
             st.anchors + [i], st.members + [sc.pos], Assign(st.groupOf, sc.pos, |st.groups|),
             st.delPos + sc.pos)
      else st.(visited := sc.visited + {q.id})
  }

  /** The groups found so far, read against the positions of the sorted
      records: `anchors[g]` is the position of group `g`'s original (before
      `bound`), `members[g]` the increasing positions of its duplicates, all
      after the original and all passing the test against it, and
      `groupOf[p]` the group position `p` was removed into, or -1. */
  ghost predicate Grouped(recs: seq<Record>, norms: seq<string>, bound: nat, groups: seq<Group>,
                          anchors: seq<nat>, members: seq<seq<nat>>, groupOf: seq<int>)
  {
    |norms| == |recs| && bound <= |recs| &&
    |anchors| == |members| == |groups| && |groupOf| == |recs| && Increasing(anchors) &&
    (forall g :: 0 <= g < |groups| ==>
      anchors[g] < bound && groups[g].original == recs[anchors[g]] && groupOf[anchors[g]] == -1 &&
      |members[g]| == |groups[g].duplicates| > 0 && Increasing(members[g])) &&
    (forall g, k :: 0 <= g < |groups| && 0 <= k < |members[g]| ==>
      anchors[g] < members[g][k] < |recs| && groups[g].duplicates[k] == recs[members[g][k]] &&
      groupOf[members[g][k]] == g && IsDuplicate(norms[anchors[g]], norms[members[g][k]])) &&
    (forall p :: 0 <= p < |recs| ==> -1 <= groupOf[p] < |groups|) &&
    (forall p :: 0 <= p < |recs| && groupOf[p] >= 0 ==> p in members[groupOf[p]])
  }

  /** `toDelete` is the id list of the groups, without repeats, the id of a
      removed position each (`delPos`), and every removed position's id is in
      it. */
  ghost predicate DeleteListed(recs: seq<Record>, groups: seq<Group>, toDelete: seq<string>,
                               delPos: seq<nat>, groupOf: seq<int>)
  {
    |groupOf| == |recs| &&
    toDelete == DuplicateIds(groups) && Distinct(toDelete) && |delPos| == |toDelete| &&
    (forall x :: 0 <= x < |toDelete| ==>
      delPos[x] < |recs| && toDelete[x] == recs[delPos[x]].id && groupOf[delPos[x]] >= 0) &&
    (forall p :: 0 <= p < |recs| && groupOf[p] >= 0 ==> recs[p].id in toDelete)
  }

  /** What the outer loop knows about the visited ids after the records
      before position `i`: the deleted ids and the ids up to `i` and of every
      removed record are visited, and with unique ids nothing else is. */
  ghost predicate Visits(recs: seq<Record>, i: nat, groupOf: seq<int>, toDelete: seq<string>,
                         visited: set<string>)
  {
    |groupOf| == |recs| && i <= |recs| &&
    (forall x :: 0 <= x < |toDelete| ==> toDelete[x] in visited) &&
    (forall p :: 0 <= p < i ==> recs[p].id in visited) &&
    (forall p :: 0 <= p < |recs| && groupOf[p] >= 0 ==> recs[p].id in visited) &&
    (UniqueIds(recs) ==>
      forall p :: 0 <= p < |recs| && recs[p].id in visited ==> p < i || groupOf[p] >= 0)
  }

  /** With unique ids, no kept record before position `i` passes the test
      against a later kept record. */
  ghost predicate KeptApart(recs: seq<Record>, norms: seq<string>, i: nat, groupOf: seq<int>)
  {
    |norms| == |recs| == |groupOf| && i <= |recs| &&
    (UniqueIds(recs) ==> forall a, b ::
      0 <= a < i && a < b < |recs| && groupOf[a] == -1 && groupOf[b] == -1 ==>
      !IsDuplicate(norms[a], norms[b]))
  }

  /** All four descriptions of the outer loop's state after position `i`. */
  ghost predicate PassInv(recs: seq<Record>, norms: seq<string>, i: nat, st: Pass)
  {
    Grouped(recs, norms, i, st.groups, st.anchors, st.members, st.groupOf) &&
    DeleteListed(recs, st.groups, st.toDelete, st.delPos, st.groupOf) &&
    Visits(recs, i, st.groupOf, st.toDelete, st.visited) &&
    KeptApart(recs, norms, i, st.groupOf)
  }

  /** The scanned original and the duplicates it found belonged to no group
      yet: their ids were not visited. */
  lemma ScannedUngrouped(recs: seq<Record>, norms: seq<string>, n: nat, groupOf: seq<int>,
                         toDelete: seq<string>, visited0: set<string>, sc: Scan)
    requires 0 < n <= |recs| && recs[n - 1].id !in visited0
    requires |groupOf| == |recs| && forall p :: 0 <= p < |recs| ==> -1 <= groupOf[p]
    requires Visits(recs, n - 1, groupOf, toDelete, visited0)
    requires Scanned(recs, norms, n - 1, |recs|, visited0, sc)
    ensures groupOf[n - 1] == -1
    ensures forall k :: 0 <= k < |sc.pos| ==> groupOf[sc.pos[k]] == -1
  {
    forall k | 0 <= k < |sc.pos| ensures groupOf[sc.pos[k]] == -1 {
      assert recs[sc.pos[k]].id !in visited0;
    }
  }

  /** Opening a group for the original at position `n - 1` with the
      duplicates found at `sc.pos`, none of which belonged to a group, keeps
      the description of the groups true. */
  lemma AddGroupGrouped(recs: seq<Record>, norms: seq<string>, n: nat, groups: seq<Group>,
                        anchors: seq<nat>, members: seq<seq<nat>>, groupOf: seq<int>, sc: Scan)
    requires 0 < n <= |recs|
    requires Grouped(recs, norms, n - 1, groups, anchors, members, groupOf)
    requires groupOf[n - 1] == -1
    requires |sc.dups| == |sc.pos| > 0 && Increasing(sc.pos)
    requires forall k :: 0 <= k < |sc.pos| ==>
      n - 1 < sc.pos[k] < |recs| && sc.dups[k] == recs[sc.pos[k]] && groupOf[sc.pos[k]] == -1 &&
      IsDuplicate(norms[n - 1], norms[sc.pos[k]])
    ensures Grouped(recs, norms, n, groups + [Group(recs[n - 1], sc.dups)], anchors + [n - 1],
                    members + [sc.pos], Assign(groupOf, sc.pos, |groups|))
  {
    var g := |groups|;
    var groups', anchors', members', groupOf' :=
      groups + [Group(recs[n - 1], sc.dups)], anchors + [n - 1], members + [sc.pos], Assign(groupOf, sc.pos, g);
    forall h, k | 0 <= h < |groups'| && 0 <= k < |members'[h]|
      ensures groupOf'[members'[h][k]] == h
    {
      if h < g {
        forall j | 0 <= j < |sc.pos| ensures sc.pos[j] != members[h][k] {
          assert groupOf[sc.pos[j]] == -1;
        }
      }
    }
    forall p | 0 <= p < |recs| && groupOf'[p] >= 0 ensures p in members'[groupOf'[p]] {
      if p !in sc.pos {
        assert members'[groupOf[p]] == members[groupOf[p]];
      }
    }
  }

  /** The same step keeps the deletion list right: the new ids are appended. */
  lemma AddGroupDeletes(recs: seq<Record>, norms: seq<string>, i: nat, groups: seq<Group>, groupOf: seq<int>,
                        toDelete: seq<string>, delPos: seq<nat>, visited0: set<string>, original: Record,
                        sc: Scan)
    requires DeleteListed(recs, groups, toDelete, delPos, groupOf)
    requires Visits(recs, i, groupOf, toDelete, visited0)
    requires Scanned(recs, norms, i, |recs|, visited0, sc)
    ensures DeleteListed(recs, groups + [Group(original, sc.dups)], toDelete + sc.ids, delPos + sc.pos,
                         Assign(groupOf, sc.pos, |groups|))
  {
    var groupOf' := Assign(groupOf, sc.pos, |groups|);
    DuplicateIdsAppend(groups, Group(original, sc.dups), sc.ids);
    NewIdsAreFresh(toDelete, visited0, sc.ids);
    DistinctAppend(toDelete, sc.ids);
    DeletedPositionsRemoved(recs, groupOf, toDelete, delPos, sc.pos, sc.ids, |groups|);
    RemovedPositionsDeleted(recs, groupOf, toDelete, sc.pos, sc.ids, |groups|);
  }

  lemma NewIdsAreFresh(toDelete: seq<string>, visited0: set<string>, ids: seq<string>)
    requires forall x :: 0 <= x < |toDelete| ==> toDelete[x] in visited0
    requires forall k :: 0 <= k < |ids| ==> ids[k] !in visited0
    ensures forall k, x :: 0 <= k < |ids| && 0 <= x < |toDelete| ==> ids[k] != toDelete[x]
  {
  }

  lemma DeletedPositionsRemoved(recs: seq<Record>, groupOf: seq<int>, toDelete: seq<string>, delPos: seq<nat>,
                                pos: seq<nat>, ids: seq<string>, g: nat)
    requires |groupOf| == |recs| && |delPos| == |toDelete| && |pos| == |ids|
    requires forall x :: 0 <= x < |toDelete| ==>
      delPos[x] < |recs| && toDelete[x] == recs[delPos[x]].id && groupOf[delPos[x]] >= 0
    requires forall k :: 0 <= k < |pos| ==> pos[k] < |recs| && ids[k] == recs[pos[k]].id
    ensures forall x :: 0 <= x < |toDelete + ids| ==>
      (delPos + pos)[x] < |recs| && (toDelete + ids)[x] == recs[(delPos + pos)[x]].id &&
      Assign(groupOf, pos, g)[(delPos + pos)[x]] >= 0
  {
    var groupOf' := Assign(groupOf, pos, g);
    forall x | 0 <= x < |toDelete + ids|
      ensures (delPos + pos)[x] < |recs| && (toDelete + ids)[x] == recs[(delPos + pos)[x]].id
      ensures groupOf'[(delPos + pos)[x]] >= 0
    {
      if x < |toDelete| {
        assert (delPos + pos)[x] == delPos[x] && (toDelete + ids)[x] == toDelete[x];
      } else {
        var k := x - |toDelete|;
        assert (delPos + pos)[x] == pos[k] && (toDelete + ids)[x] == ids[k];
      }
    }
  }

  lemma RemovedPositionsDeleted(recs: seq<Record>, groupOf: seq<int>, toDelete: seq<string>,
                                pos: seq<nat>, ids: seq<string>, g: nat)
    requires |groupOf| == |recs| && |pos| == |ids|
    requires forall p :: 0 <= p < |recs| && groupOf[p] >= 0 ==> recs[p].id in toDelete
    requires forall k :: 0 <= k < |pos| ==> pos[k] < |recs| && ids[k] == recs[pos[k]].id
    ensures forall p :: 0 <= p < |recs| && Assign(groupOf, pos, g)[p] >= 0 ==> recs[p].id in toDelete + ids
  {
    forall p | 0 <= p < |recs| && Assign(groupOf, pos, g)[p] >= 0 ensures recs[p].id in toDelete + ids {
      if p in pos {
        var k :| 0 <= k < |pos| && pos[k] == p;
        assert (toDelete + ids)[|toDelete| + k] == recs[p].id;
      } else {
        assert recs[p].id in toDelete;
      }
    }
  }

  /** The record at position `n - 1` was scanned as an original, the scan
      found the duplicates at `sc.pos` and sent them to group `g` (no group
      is opened when there are none). Both visit facts move on to `n`. */
  lemma AfterScan(recs: seq<Record>, norms: seq<string>, n: nat, groupOf: seq<int>, g: nat,
                  toDelete: seq<string>, visited: set<string>, sc: Scan)
    requires 0 < n <= |recs| && recs[n - 1].id !in visited
    requires Visits(recs, n - 1, groupOf, toDelete, visited) && KeptApart(recs, norms, n - 1, groupOf)
    requires Scanned(recs, norms, n - 1, |recs|, visited, sc)
    ensures Visits(recs, n, Assign(groupOf, sc.pos, g), toDelete + sc.ids, sc.visited + {recs[n - 1].id})
    ensures KeptApart(recs, norms, n, Assign(groupOf, sc.pos, g))
  {
    AfterScanVisits(recs, norms, n, groupOf, g, toDelete, visited, sc);
    AfterScanKeptApart(recs, norms, n, groupOf, g, toDelete, visited, sc);
  }

  lemma AfterScanVisits(recs: seq<Record>, norms: seq<string>, n: nat, groupOf: seq<int>, g: nat,
                        toDelete: seq<string>, visited: set<string>, sc: Scan)
    requires 0 < n <= |recs| && recs[n - 1].id !in visited
    requires Visits(recs, n - 1, groupOf, toDelete, visited)
    requires Scanned(recs, norms, n - 1, |recs|, visited, sc)
    ensures Visits(recs, n, Assign(groupOf, sc.pos, g), toDelete + sc.ids, sc.visited + {recs[n - 1].id})
  {
    var groupOf' := Assign(groupOf, sc.pos, g);
    var visited2 := sc.visited + {recs[n - 1].id};
    forall x | 0 <= x < |toDelete + sc.ids| ensures (toDelete + sc.ids)[x] in visited2 {
      if x >= |toDelete| {
        assert (toDelete + sc.ids)[x] == sc.ids[x - |toDelete|];
      }
    }
    if UniqueIds(recs) {
      forall p | 0 <= p < |recs| && recs[p].id in visited2
        ensures p < n || groupOf'[p] >= 0
      {
        if recs[p].id in visited {
          assert p < n - 1 || groupOf[p] >= 0;
        } else if recs[p].id != recs[n - 1].id {
          var k :| 0 <= k < |sc.ids| && sc.ids[k] == recs[p].id;
          assert recs[sc.pos[k]].id == recs[p].id;
          assert p == sc.pos[k];
        }
      }
    }
  }

  lemma AfterScanKeptApart(recs: seq<Record>, norms: seq<string>, n: nat, groupOf: seq<int>, g: nat,
                           toDelete: seq<string>, visited: set<string>, sc: Scan)
    requires 0 < n <= |recs|
    requires Visits(recs, n - 1, groupOf, toDelete, visited) && KeptApart(recs, norms, n - 1, groupOf)
    requires Scanned(recs, norms, n - 1, |recs|, visited, sc)
    ensures KeptApart(recs, norms, n, Assign(groupOf, sc.pos, g))
  {
    var groupOf' := Assign(groupOf, sc.pos, g);
    if UniqueIds(recs) {
      forall a, b | 0 <= a < n && a < b < |recs| && groupOf'[a] == -1 && groupOf'[b] == -1
        ensures !IsDuplicate(norms[a], norms[b])
      {
        assert b !in sc.pos && groupOf[b] == -1;
        if a == n - 1 {
          forall k | 0 <= k < |sc.ids| ensures sc.ids[k] != recs[b].id {
            assert sc.pos[k] != b;
          }
          assert recs[b].id !in visited by {
            assert !(b < n - 1 || groupOf[b] >= 0);
          }
          assert recs[b].id !in sc.visited;
        } else {
          assert a !in sc.pos;
        }
      }
    }
  }

  /** A visited record is passed over. */
  lemma StepVisited(recs: seq<Record>, norms: seq<string>, n: nat, st: Pass)
    requires 0 < n <= |recs| && recs[n - 1].id in st.visited
    requires PassInv(recs, norms, n - 1, st)
    ensures PassInv(recs, norms, n, st)
  {
  }

  /** A new original whose scan found duplicates opens a group. */
  lemma StepGroup(recs: seq<Record>, norms: seq<string>, n: nat, st: Pass, sc: Scan)
    requires 0 < n <= |recs| && recs[n - 1].id !in st.visited
    requires PassInv(recs, norms, n - 1, st)
    requires Scanned(recs, norms, n - 1, |recs|, st.visited, sc) && |sc.dups| > 0
    ensures PassInv(recs, norms, n,
                    Pass(st.groups + [Group(recs[n - 1], sc.dups)], st.toDelete + sc.ids, sc.visited + {recs[n - 1].id},
                         st.anchors + [n - 1], st.members + [sc.pos], Assign(st.groupOf, sc.pos, |st.groups|),
                         st.delPos + sc.pos))
  {
    AddGroupDeletes(recs, norms, n - 1, st.groups, st.groupOf, st.toDelete, st.delPos, st.visited,
                    recs[n - 1], sc);
    ScannedUngrouped(recs, norms, n, st.groupOf, st.toDelete, st.visited, sc);
    AddGroupGrouped(recs, norms, n, st.groups, st.anchors, st.members, st.groupOf, sc);
    AfterScan(recs, norms, n, st.groupOf, |st.groups|, st.toDelete, st.visited, sc);
  }

  /** A new original whose scan found nothing opens no group. */
  lemma StepAlone(recs: seq<Record>, norms: seq<string>, n: nat, st: Pass, sc: Scan)
    requires 0 < n <= |recs| && recs[n - 1].id !in st.visited
    requires PassInv(recs, norms, n - 1, st)
    requires Scanned(recs, norms, n - 1, |recs|, st.visited, sc) && |sc.dups| == 0
    ensures PassInv(recs, norms, n, st.(visited := sc.visited + {recs[n - 1].id}))
  {
    AfterScan(recs, norms, n, st.groupOf, |st.groups|, st.toDelete, st.visited, sc);
    assert sc.ids == [] && Assign(st.groupOf, sc.pos, |st.groups|) == st.groupOf;
    assert st.toDelete + sc.ids == st.toDelete;
  }

  /** The turn of the outer loop keeps its description true. */
  lemma PassStep(recs: seq<Record>, norms: seq<string>, n: nat, st: Pass)
    requires |norms| == |recs| && 0 < n <= |recs|
    requires PassInv(recs, norms, n - 1, st)
    ensures PassInv(recs, norms, n, PassNext(recs, norms, n - 1, st))
  {
    if recs[n - 1].id in st.visited {
      StepVisited(recs, norms, n, st);
    } else {
      var sc := ScanFrom(recs, norms, n - 1, |recs|, st.visited);
      ScanFromSpec(recs, norms, n - 1, |recs|, st.visited);
      if |sc.dups| > 0 {
        StepGroup(recs, norms, n, st, sc);
      } else {
        StepAlone(recs, norms, n, st, sc);
      }
    }
  }

  /** The outer loop's description holds after every record. */
  lemma {:induction false} PassUpToSpec(recs: seq<Record>, norms: seq<string>, i: nat)
    requires |norms| == |recs| && i <= |recs|
    ensures PassInv(recs, norms, i, PassUpTo(recs, norms, i))
    decreases i
  {
    if i > 0 {
      PassUpToSpec(recs, norms, i - 1);
      PassStep(recs, norms, i, PassUpTo(recs, norms, i - 1));
    }
  }

  /** Each duplicate of a group comes after the group's original in the
      sorted order and passes the test against it. */
  ghost predicate FoundAfterOriginal(recs: seq<Record>, norms: seq<string>, groups: seq<Group>)
    requires |norms| == |recs|
  {
    forall g, k :: 0 <= g < |groups| && 0 <= k < |groups[g].duplicates| ==>
      FoundAfter(recs, norms, groups[g].original, groups[g].duplicates[k])
  }

  /** `dup` sits after `original` in the sorted order and passes the test
      against it. */
  ghost predicate FoundAfter(recs: seq<Record>, norms: seq<string>, original: Record, dup: Record)
    requires |norms| == |recs|
  {
    exists a, b :: 0 <= a < b < |recs| && original == recs[a] && dup == recs[b] && IsDuplicate(norms[a], norms[b])
  }

  /** No two records left out of the deletion list pass the test against
      each other in sorted order. */
  ghost predicate KeptApartAll(recs: seq<Record>, norms: seq<string>, toDelete: seq<string>)
    requires |norms| == |recs|
  {
    forall a, b ::
      0 <= a < b < |recs| && recs[a].id !in toDelete && recs[b].id !in toDelete ==>
      !IsDuplicate(norms[a], norms[b])
  }

  /** What the finished pass promises:
      - every group has a duplicate, and each duplicate was found after its
        original in the sorted order and passes the test against it;
      - the deletion list is the groups' duplicate ids, without repeats;
      - with unique ids: no original is deleted, and no two kept records
        pass the test against each other in sorted order. */
  lemma PassResult(recs: seq<Record>, norms: seq<string>)
    requires |norms| == |recs|
    ensures var st := PassUpTo(recs, norms, |recs|);
      (forall g :: 0 <= g < |st.groups| ==> |st.groups[g].duplicates| > 0) &&
      FoundAfterOriginal(recs, norms, st.groups) &&
      st.toDelete == DuplicateIds(st.groups) && Distinct(st.toDelete) &&
      (UniqueIds(recs) ==> forall g :: 0 <= g < |st.groups| ==> st.groups[g].original.id !in st.toDelete) &&
      (UniqueIds(recs) ==> KeptApartAll(recs, norms, st.toDelete))
  {
    var st := PassUpTo(recs, norms, |recs|);
    PassUpToSpec(recs, norms, |recs|);
    GroupsFound(recs, norms, st.groups, st.anchors, st.members, st.groupOf);
    if UniqueIds(recs) {
      OriginalsKept(recs, norms, st.groups, st.anchors, st.members, st.groupOf, st.toDelete, st.delPos);
      KeptRecordsApart(recs, norms, st.groupOf, st.toDelete);
    }
  }

  lemma GroupsFound(recs: seq<Record>, norms: seq<string>, groups: seq<Group>,
                    anchors: seq<nat>, members: seq<seq<nat>>, groupOf: seq<int>)
    requires Grouped(recs, norms, |recs|, groups, anchors, members, groupOf)
    ensures forall g :: 0 <= g < |groups| ==> |groups[g].duplicates| > 0
    ensures FoundAfterOriginal(recs, norms, groups)
  {
    forall g, k | 0 <= g < |groups| && 0 <= k < |groups[g].duplicates|
      ensures FoundAfter(recs, norms, groups[g].original, groups[g].duplicates[k])
    {
      var a, b := anchors[g], members[g][k];
      assert 0 <= a < b < |recs| && groups[g].original == recs[a] &&
        groups[g].duplicates[k] == recs[b] && IsDuplicate(norms[a], norms[b]);
    }
  }

  lemma OriginalsKept(recs: seq<Record>, norms: seq<string>, groups: seq<Group>,
                      anchors: seq<nat>, members: seq<seq<nat>>, groupOf: seq<int>,
                      toDelete: seq<string>, delPos: seq<nat>)
    requires UniqueIds(recs)
    requires Grouped(recs, norms, |recs|, groups, anchors, members, groupOf)
    requires DeleteListed(recs, groups, toDelete, delPos, groupOf)
    ensures forall g :: 0 <= g < |groups| ==> groups[g].original.id !in toDelete
  {
    forall g, x | 0 <= g < |groups| && 0 <= x < |toDelete|
      ensures toDelete[x] != groups[g].original.id
    {
      assert delPos[x] != anchors[g];
    }
  }

  lemma KeptRecordsApart(recs: seq<Record>, norms: seq<string>, groupOf: seq<int>, toDelete: seq<string>)
    requires UniqueIds(recs) && |norms| == |recs|
    requires KeptApart(recs, norms, |recs|, groupOf)
    requires forall p :: 0 <= p < |recs| ==> -1 <= groupOf[p]
    requires forall p :: 0 <= p < |recs| && groupOf[p] >= 0 ==> recs[p].id in toDelete
    ensures KeptApartAll(recs, norms, toDelete)
  {
  }

  /** The outer loop. It computes the reference pass, so its results have
      every property `PassResult` states. */
  method Cluster(recs: seq<Record>, norms: seq<string>) returns (groups: seq<Group>, toDelete: seq<string>)
    requires |norms| == |recs|
    ensures groups == PassUpTo(recs, norms, |recs|).groups
    ensures toDelete == PassUpTo(recs, norms, |recs|).toDelete
    ensures forall g :: 0 <= g < |groups| ==> |groups[g].duplicates| > 0
    ensures FoundAfterOriginal(recs, norms, groups)
    ensures toDelete == DuplicateIds(groups) && Distinct(toDelete)
    ensures UniqueIds(recs) ==> forall g :: 0 <= g < |groups| ==> groups[g].original.id !in toDelete
    ensures UniqueIds(recs) ==> KeptApartAll(recs, norms, toDelete)
  {
    var visited: set<string> := {};
    groups, toDelete := [], [];
    var i := 0;
    while i < |recs|
      invariant 0 <= i <= |recs|
      invariant var st := PassUpTo(recs, norms, i);
        groups == st.groups && toDelete == st.toDelete && visited == st.visited
    {
      var q1 := recs[i];
      if q1.id !in visited {
        var dups, ids, visited' := ScanAnchor(recs, norms, i, visited);
        if |dups| > 0 {
          groups := groups + [Group(q1, dups)];
          toDelete := toDelete + ids;
        }
        visited := visited' + {q1.id};
      }
      i := i + 1;
    }
    PassResult(recs, norms);
  }
}

=== FILE: dedup.dfy ===
/**
  The near-duplicate question detector (scripts/detect_duplicates.ts):
  the duplicate test on normalised texts, the priority order that decides
  which record of a group survives, the greedy clustering pass with its
  `visited` set, and the DELETE statement built from the ids to remove.
 */
module Dedup {
  import Normalizer
  import Levenshtein
  import opened Seqs
  import opened QuestionTypes

  /** One row of `questions` as the detector selects it; `createdAt` is the
      time stamp in milliseconds. */
  datatype Record = Record(id: string, text: string, createdAt: int, kind: QuestionType)

  /** A record that survives together with the records removed in its favour,
      in the order they were found. */
  datatype Group = Group(original: Record, duplicates: seq<Record>)

  function Abs(x: int): nat
  {
    if x < 0 then -x else x
  }

  /** The comparison text of a record. */
  function Norm(r: Record): string
  {
    Normalizer.Normalize(r.text)
  }

  // ---------------------------------------------------------------------
  // The duplicate test
  // ---------------------------------------------------------------------

  /** Equal texts are duplicates; otherwise, when the first text is longer
      than 10 and the lengths differ by less than 5, texts at edit distance
      at most 3 are duplicates. */
  predicate IsDuplicate(n1: string, n2: string)
  {
    n1 == n2 || (|n1| > 10 && Abs(|n1| - |n2|) < 5 && Levenshtein.Distance(n1, n2) <= 3)
  }

  /** The test as the inner loop runs it: the exact comparison first, the
      table-filling distance only when the length gate lets it through. */
  method DuplicateTest(n1: string, n2: string) returns (isDuplicate: bool)
    ensures isDuplicate <==> IsDuplicate(n1, n2)
    ensures n1 == n2 ==> isDuplicate
    ensures |n1| <= 10 ==> (isDuplicate <==> n1 == n2)
  {
    isDuplicate := n1 == n2;
    if !isDuplicate && |n1| > 10 && Abs(|n1| - |n2|) < 5 {
      var dist := Levenshtein.Levenshtein(n1, n2);
      if dist <= 3 {
        isDuplicate := true;
      }
    }
  }

  /** Two records with the same normalised text are duplicates, also when
      that text is empty: no guard excludes the empty string. */
  lemma EqualTextsAreDuplicates(a: Record, b: Record)
    requires Norm(a) == Norm(b)
    ensures IsDuplicate(Norm(a), Norm(b))
  {
  }

  lemma EmptyTextsAreDuplicates()
    ensures IsDuplicate([], [])
  {
  }

  /** When the first text has at most 10 characters only exact matches count. */
  lemma ShortTextsMatchOnlyExactly(n1: string, n2: string)
    requires |n1| <= 10
    ensures IsDuplicate(n1, n2) <==> n1 == n2
  {
  }

  /** Away from exact matches, the test accepts exactly the pairs that pass
      the length gate and that some edit script of at most three
      single-character edits turns one into the other. */
  lemma FuzzyMatchIsThreeEdits(n1: string, n2: string)
    requires n1 != n2
    ensures IsDuplicate(n1, n2) <==>
      |n1| > 10 && Abs(|n1| - |n2|) < 5 &&
      exists ops :: Levenshtein.Transforms(ops, n1, n2) && Levenshtein.Cost(ops) <= 3
  {
    Levenshtein.DistanceIsLeastEditCost(n1, n2);
  }

  /** The test is not symmetric: the gate looks at the first text only. A
      text of 11 characters matches its 8-character prefix, but not the
      other way round. */
  lemma NotSymmetric()
    ensures IsDuplicate("abcdefghijk", "abcdefgh")
    ensures !IsDuplicate("abcdefgh", "abcdefghijk")
  {
    var long := "abcdefghijk";
    assert long[..8] == "abcdefgh";
    Levenshtein.DistanceToPrefix(long, 8);
  }

  // ---------------------------------------------------------------------
  // The priority order
  // ---------------------------------------------------------------------

  /** The comparator passed to `sort`: a quiz before a non-quiz, otherwise
      the older record first. */
  function Compare(a: Record, b: Record): int
  {
    if a.kind == Quiz && b.kind != Quiz then -1
    else if b.kind == Quiz && a.kind != Quiz then 1
    else a.createdAt - b.createdAt
  }

  /** Sort key: quiz records rank 0, the others 1, then the time stamp. */
  function Rank(r: Record): int
  {
    if r.kind == Quiz then 0 else 1
  }

  /** `a` may come before `b` in the sorted order. */
  predicate KeyLe(a: Record, b: Record)
  {
    Rank(a) < Rank(b) || (Rank(a) == Rank(b) && a.createdAt <= b.createdAt)
  }

  /** The comparator says "not after" exactly when the key says so; it is a
      total preorder. */
  lemma CompareMatchesKey(a: Record, b: Record)
    ensures Compare(a, b) <= 0 <==> KeyLe(a, b)
    ensures Compare(a, b) == 0 <==> KeyLe(a, b) && KeyLe(b, a)
    ensures KeyLe(a, b) || KeyLe(b, a)
  {
  }

  predicate Sorted(s: seq<Record>)
  {
    forall i, j :: 0 <= i < j < |s| ==> KeyLe(s[i], s[j])
  }

  /** Places `x` before the first element it may precede. */
  function Insert(x: Record, t: seq<Record>): (r: seq<Record>)
    requires Sorted(t)
    ensures Sorted(r)
    ensures multiset(r) == multiset(t) + multiset{x}
    ensures forall k :: 0 <= k < |r| ==> r[k] == x || r[k] in t
  {
    if |t| == 0 || Compare(x, t[0]) <= 0 then
      CompareMatchesKey(x, x);
      SortedCons(x, t);
      [x] + t
    else
      var rest := Insert(x, t[1..]);
      assert t == [t[0]] + t[1..];
      CompareMatchesKey(x, t[0]);
      SortedCons(t[0], rest);
      [t[0]] + rest
  }

  /** A record that may precede every element of a sorted sequence can be
      put in front of it. */
  lemma SortedCons(y: Record, r: seq<Record>)
    requires Sorted(r)
    requires forall k :: 0 <= k < |r| ==> KeyLe(y, r[k])
    ensures Sorted([y] + r)
  {
    var s := [y] + r;
    forall i, j | 0 <= i < j < |s|
      ensures KeyLe(s[i], s[j])
    {
      assert s[j] == r[j - 1];
      if i > 0 {
        assert s[i] == r[i - 1];
      }
    }
  }

  /** The order `questions.sort(...)` leaves the records in. `Array.prototype.sort`
      is stable, and so is this insertion sort: a record is placed in front of
      every later record it may precede. */
  function SortByPriority(s: seq<Record>): (r: seq<Record>)
    ensures Sorted(r)
    ensures multiset(r) == multiset(s)
    ensures |r| == |s|
  {
    if |s| == 0 then []
    else
      assert s == [s[0]] + s[1..];
      Insert(s[0], SortByPriority(s[1..]))
  }

  /** After sorting, every quiz record comes before every other record, and
      within each kind the records are oldest first. */
  lemma SortedOrderPolicy(s: seq<Record>)
    ensures forall i, j :: 0 <= i < j < |SortByPriority(s)| && SortByPriority(s)[j].kind == Quiz
              ==> SortByPriority(s)[i].kind == Quiz
    ensures forall i, j :: 0 <= i < j < |SortByPriority(s)| && SortByPriority(s)[i].kind == SortByPriority(s)[j].kind
              ==> SortByPriority(s)[i].createdAt <= SortByPriority(s)[j].createdAt
  {
    var r := SortByPriority(s);
    assert Sorted(r);
  }

  /** The records of `s` that share the sort key of `k`, in order. */
  function SameKey(s: seq<Record>, k: Record): (r: seq<Record>)
  {
    if |s| == 0 then []
    else if KeyLe(s[0], k) && KeyLe(k, s[0]) then [s[0]] + SameKey(s[1..], k)
    else SameKey(s[1..], k)
  }

  lemma {:induction false} InsertStable(x: Record, t: seq<Record>, k: Record)
    requires Sorted(t)
    ensures SameKey(Insert(x, t), k) ==
      if KeyLe(x, k) && KeyLe(k, x) then [x] + SameKey(t, k) else SameKey(t, k)
  {
    if |t| == 0 || Compare(x, t[0]) <= 0 {
      assert ([x] + t)[1..] == t;
    } else {
      assert Sorted(t[1..]);
      InsertStable(x, t[1..], k);
      assert ([t[0]] + Insert(x, t[1..]))[1..] == Insert(x, t[1..]);
    }
  }

  /** Stability: records with equal keys keep their input order. */
  lemma {:induction false} SortIsStable(s: seq<Record>, k: Record)
    ensures SameKey(SortByPriority(s), k) == SameKey(s, k)
  {
    if |s| > 0 {
      SortIsStable(s[1..], k);
      InsertStable(s[0], SortByPriority(s[1..]), k);
    }
  }

  /** No two records share an id (the table's primary key). */
  predicate UniqueIds(recs: seq<Record>)
  {
    forall p, q :: 0 <= p < q < |recs| ==> recs[p].id != recs[q].id
  }

  lemma {:induction false} InsertKeepsUniqueIds(x: Record, t: seq<Record>)
    requires Sorted(t) && UniqueIds([x] + t)
    ensures UniqueIds(Insert(x, t))
  {
    if |t| > 0 && Compare(x, t[0]) > 0 {
      UniqueIdsSkipSecond(x, t);
      assert Sorted(t[1..]);
      InsertKeepsUniqueIds(x, t[1..]);
      FrontKeepsUniqueIds(x, t, Insert(x, t[1..]));
    }
  }

  /** Leaving out the second record keeps the ids unique. */
  lemma UniqueIdsSkipSecond(x: Record, t: seq<Record>)
    requires |t| > 0 && UniqueIds([x] + t)
    ensures UniqueIds([x] + t[1..])
  {
    var w, u := [x] + t, [x] + t[1..];
    forall p, q | 0 <= p < q < |u| ensures u[p].id != u[q].id {
      assert u[q] == w[q + 1];
      if p > 0 {
        assert u[p] == w[p + 1];
      } else {
        assert u[p] == w[0];
      }
    }
  }

  /** Putting `t[0]` in front of unique-id records drawn from `[x] + t[1..]`
      keeps the ids unique. */
  lemma FrontKeepsUniqueIds(x: Record, t: seq<Record>, rest: seq<Record>)
    requires |t| > 0 && UniqueIds([x] + t) && UniqueIds(rest)
    requires forall k :: 0 <= k < |rest| ==> rest[k] == x || rest[k] in t[1..]
    ensures UniqueIds([t[0]] + rest)
  {
    var w, r := [x] + t, [t[0]] + rest;
    forall q | 0 < q < |r| ensures r[0].id != r[q].id {
      assert r[q] == rest[q - 1];
      if rest[q - 1] != x {
        assert rest[q - 1] in t[1..];
        var j :| 0 <= j < |t[1..]| && t[1..][j] == rest[q - 1];
        assert w[1] == t[0] && w[j + 2] == t[j + 1];
      } else {
        assert w[1] == t[0] && w[0] == x;
      }
    }
    forall p, q | 0 < p < q < |r| ensures r[p].id != r[q].id {
      assert r[p] == rest[p - 1] && r[q] == rest[q - 1];
    }
  }

  /** Sorting keeps the ids unique: it only reorders the records. */
  lemma {:induction false} SortKeepsUniqueIds(s: seq<Record>)
    requires UniqueIds(s)
    ensures UniqueIds(SortByPriority(s))
  {
    if |s| > 0 {
      assert UniqueIds(s[1..]) by {
        forall p, q | 0 <= p < q < |s[1..]| ensures s[1..][p].id != s[1..][q].id {
          assert s[1..][p] == s[p + 1] && s[1..][q] == s[q + 1];
        }
      }
      SortKeepsUniqueIds(s[1..]);
      var t := SortByPriority(s[1..]);
      var u := [s[0]] + t;
      forall p, q | 0 <= p < q < |u| ensures u[p].id != u[q].id {
        assert u[q] == t[q - 1];
        if p > 0 {
          assert u[p] == t[p - 1];
        } else {
          assert t[q - 1] in multiset(s[1..]);
          var j :| 0 <= j < |s[1..]| && s[1..][j] == t[q - 1];
          assert s[j + 1] == t[q - 1];
        }
      }
      InsertKeepsUniqueIds(s[0], t);
    }
  }
}

=== FILE: detect.dfy ===
/**
  The whole duplicate-detection run of scripts/detect_duplicates.ts, from
  the fetched rows to the text of the migration file: sort by priority,
  normalise every text, cluster, and write one DELETE statement when there
  is something to delete.
 */
module DuplicateDetector {
  import opened Dedup
  import opened Clustering
  import Text
  import Sql
  import opened Seqs

  /** The normalised text of every record, position by position. */
  function NormsOf(recs: seq<Record>): (norms: seq<string>)
    ensures |norms| == |recs|
  {
    seq(|recs|, p requires 0 <= p < |recs| => Norm(recs[p]))
  }

  const DeletePrefix: string := "DELETE FROM public.questions WHERE id IN ("

  /** `DELETE FROM public.questions WHERE id IN (...);` and its line break. */
  function DeleteStatement(ids: seq<string>): string
  {
    Sql.InStatement(DeletePrefix, ids)
  }

  /** The comment line that opens the file, with the number of ids. */
  function Header(count: nat): string
  {
    "-- Removing " + Text.Decimal(count) + " Duplicate Questions\n"
  }

  /** The migration file: the comment line, then the DELETE statement when,
      and only when, there is an id to delete. */
  function MigrationSql(toDelete: seq<string>): string
  {
    Header(|toDelete|) + (if |toDelete| > 0 then DeleteStatement(toDelete) else "")
  }

  /** The file is the comment line alone exactly when nothing is deleted. */
  lemma DeleteEmittedIffNonEmpty(toDelete: seq<string>)
    ensures MigrationSql(toDelete) == Header(|toDelete|) <==> |toDelete| == 0
  {
    if |toDelete| > 0 {
      assert |MigrationSql(toDelete)| > |Header(|toDelete|)|;
    } else {
      assert MigrationSql(toDelete) == Header(0) + "";
    }
  }

  /** Each duplicate passes the test against its own original on the
      normalised texts, and both are fetched rows. */
  lemma GroupsMatchOnNormalisedTexts(questions: seq<Record>, sorted: seq<Record>, norms: seq<string>,
                                     groups: seq<Group>)
    requires multiset(sorted) == multiset(questions)
    requires norms == NormsOf(sorted)
    requires FoundAfterOriginal(sorted, norms, groups)
    ensures forall g :: 0 <= g < |groups| && |groups[g].duplicates| > 0 ==> groups[g].original in questions
    ensures forall g, k :: 0 <= g < |groups| && 0 <= k < |groups[g].duplicates| ==>
      groups[g].duplicates[k] in questions &&
      IsDuplicate(Norm(groups[g].original), Norm(groups[g].duplicates[k]))
  {
    forall g, k | 0 <= g < |groups| && 0 <= k < |groups[g].duplicates|
      ensures groups[g].original in questions && groups[g].duplicates[k] in questions
      ensures IsDuplicate(Norm(groups[g].original), Norm(groups[g].duplicates[k]))
    {
      assert FoundAfter(sorted, norms, groups[g].original, groups[g].duplicates[k]);
      var a, b :| 0 <= a < b < |sorted| && groups[g].original == sorted[a] &&
        groups[g].duplicates[k] == sorted[b] && IsDuplicate(norms[a], norms[b]);
      assert norms[a] == Norm(sorted[a]) && norms[b] == Norm(sorted[b]);
      assert sorted[a] in multiset(questions) && sorted[b] in multiset(questions);
    }
    forall g | 0 <= g < |groups| && |groups[g].duplicates| > 0
      ensures groups[g].original in questions
    {
      assert groups[g].duplicates[0] in questions;
    }
  }

  /** The kept records, read on the normalised texts. */
  lemma KeptApartOnNormalisedTexts(sorted: seq<Record>, norms: seq<string>, toDelete: seq<string>)
    requires norms == NormsOf(sorted)
    requires KeptApartAll(sorted, norms, toDelete)
    ensures forall a, b ::
      0 <= a < b < |sorted| && sorted[a].id !in toDelete && sorted[b].id !in toDelete ==>
      !IsDuplicate(Norm(sorted[a]), Norm(sorted[b]))
  {
    forall a, b | 0 <= a < b < |sorted| && sorted[a].id !in toDelete && sorted[b].id !in toDelete
      ensures !IsDuplicate(Norm(sorted[a]), Norm(sorted[b]))
    {
      assert norms[a] == Norm(sorted[a]) && norms[b] == Norm(sorted[b]);
    }
  }

  /** The run, from the fetched rows to the migration text. The groups and
      the deletion list are those of the greedy pass over the rows in
      priority order, so each duplicate comes after its original there and
      the earlier record of a matching pair is the one kept. Every group has
      a duplicate, which passes the test against its own original on the
      normalised texts; the deletion list is the groups' duplicate ids in
      order, without repeats; with unique ids no original is deleted and no
      two kept records are duplicates of each other in priority order. */
  method DetectDuplicates(questions: seq<Record>)
    returns (sorted: seq<Record>, groups: seq<Group>, toDelete: seq<string>, sql: string)
    ensures sorted == SortByPriority(questions)
    ensures groups == PassUpTo(sorted, NormsOf(sorted), |sorted|).groups
    ensures toDelete == PassUpTo(sorted, NormsOf(sorted), |sorted|).toDelete
    ensures FoundAfterOriginal(sorted, NormsOf(sorted), groups)
    ensures forall g :: 0 <= g < |groups| ==> |groups[g].duplicates| > 0
    ensures forall g :: 0 <= g < |groups| ==> groups[g].original in questions
    ensures forall g, k :: 0 <= g < |groups| && 0 <= k < |groups[g].duplicates| ==>
      groups[g].duplicates[k] in questions &&
      IsDuplicate(Norm(groups[g].original), Norm(groups[g].duplicates[k]))
    ensures toDelete == DuplicateIds(groups) && Distinct(toDelete)
    ensures UniqueIds(questions) ==> forall g :: 0 <= g < |groups| ==> groups[g].original.id !in toDelete
    ensures UniqueIds(questions) ==> forall a, b ::
      0 <= a < b < |sorted| && sorted[a].id !in toDelete && sorted[b].id !in toDelete ==>
      !IsDuplicate(Norm(sorted[a]), Norm(sorted[b]))
    ensures sql == MigrationSql(toDelete)
  {
    sorted := SortByPriority(questions);
    var norms := NormsOf(sorted);
    groups, toDelete := Cluster(sorted, norms);
    GroupsMatchOnNormalisedTexts(questions, sorted, norms, groups);
    if UniqueIds(questions) {
      SortKeepsUniqueIds(questions);
      KeptApartOnNormalisedTexts(sorted, norms, toDelete);
    }
    sql := MigrationSql(toDelete);
  }
}

=== FILE: difficulty.dfy ===
/**
  The keyword-and-length difficulty classifier of
  scripts/evaluate_difficulty.ts, the loop that collects, per level, the
  ids whose stored difficulty differs from the computed one, and the
  migration text with one UPDATE statement per non-empty level.
 */
module Difficulty {
  import opened Text
  import opened Seqs
  import Sql

  datatype Level = Facile | Moyen | Difficile

  /** The column value of a level. */
  function Label(l: Level): string
  {
    match l
    case Facile => "facile"
    case Moyen => "moyen"
    case Difficile => "difficile"
  }

  lemma LabelInjective(l1: Level, l2: Level)
    ensures Label(l1) == Label(l2) <==> l1 == l2
  {
    if l1 != l2 {
      assert Label(l1)[0] != Label(l2)[0];
    }
  }

  const HardKeywords: seq<string> := [
    "député", "sénateur", "constitution", "promulgue", "investiture",
    "conseil constitutionnel", "suffrage", "laïque", "1905", "1944",
    "république", "parlement", "cohabitation", "49-3", "édit de nantes",
    "guerres de religion", "ordonnance", "villers-cotterêts", "schengen",
    "maastricht", "euro", "européenne", "jurisprudence", "cassation"
  ]

  /** "mariane" is spelt as in the script. */
  const EasyKeywords: seq<string> := [
    "drapeau", "couleurs", "bleu", "blanc", "rouge", "hymne", "marseillaise",
    "devise", "liberté", "égalité", "fraternité", "14 juillet", "fête",
    "paris", "tour eiffel", "coq", "mariane", "président", "macron",
    "hexagone", "langue", "capitale", "loire", "seine", "rhône", "garonne"
  ]

  /** `keywords.some(k => text.includes(k))`. */
  predicate MentionsAny(text: string, keywords: seq<string>)
  {
    exists k :: 0 <= k < |keywords| && Contains(text, keywords[k])
  }

  /** `evaluateDifficulty`: a hard keyword or more than 120 characters makes
      a question hard; otherwise an easy keyword or fewer than 50 characters
      makes it easy; everything else is medium. The keywords are searched in
      the lower-cased text. */
  function Evaluate(question: string): (d: Level)
    ensures |question| > 120 ==> d == Difficile
    ensures |question| < 50 ==> d != Moyen
  {
    var text := Lower(question);
    if MentionsAny(text, HardKeywords) then Difficile
    else if |text| > 120 then Difficile
    else if MentionsAny(text, EasyKeywords) then Facile
    else if |text| < 50 then Facile
    else Moyen
  }

  /** A hard keyword decides the level whatever else the text holds. */
  lemma HardKeywordWins(question: string, k: nat)
    requires k < |HardKeywords| && Contains(Lower(question), HardKeywords[k])
    ensures Evaluate(question) == Difficile
  {
  }

  /** The three levels, each as a condition on the text alone. */
  lemma LevelCharacterisation(question: string)
    ensures Evaluate(question) == Difficile <==>
      MentionsAny(Lower(question), HardKeywords) || |question| > 120
    ensures Evaluate(question) == Facile <==>
      !MentionsAny(Lower(question), HardKeywords) && |question| <= 120 &&
      (MentionsAny(Lower(question), EasyKeywords) || |question| < 50)
    ensures Evaluate(question) == Moyen <==>
      !MentionsAny(Lower(question), HardKeywords) && !MentionsAny(Lower(question), EasyKeywords) &&
      50 <= |question| <= 120
  {
  }

  /** Without any keyword the length alone decides, by the thresholds 50
      and 120. */
  function ByLength(n: nat): Level
  {
    if n > 120 then Difficile else if n < 50 then Facile else Moyen
  }

  lemma NoKeywordMeansByLength(question: string)
    requires !MentionsAny(Lower(question), HardKeywords) && !MentionsAny(Lower(question), EasyKeywords)
    ensures Evaluate(question) == ByLength(|question|)
  {
  }

  /** The level ignores letter case: texts that lower-case alike get the
      same level, and a text gets the level of its lower-cased form. */
  lemma CaseInsensitive(q1: string, q2: string)
    requires Lower(q1) == Lower(q2)
    ensures Evaluate(q1) == Evaluate(q2)
  {
    assert |q1| == |Lower(q1)| == |Lower(q2)| == |q2|;
  }

  lemma LowerKeepsLevel(question: string)
    ensures Evaluate(Lower(question)) == Evaluate(question)
  {
    LowerIsLower(question);
    CaseInsensitive(Lower(question), question);
  }

  // ---------------------------------------------------------------------
  // Collecting the updates
  // ---------------------------------------------------------------------

  /** A fetched row: id, question text and the stored difficulty, `None`
      for a NULL column. */
  datatype Row = Row(id: string, question: string, difficulty: Option<string>)

  /** The row goes into the bucket of `l`: `l` is its computed level and
      the stored value is not that level's label. */
  predicate NeedsUpdate(r: Row, l: Level)
  {
    Evaluate(r.question) == l && r.difficulty != Some(Label(Evaluate(r.question)))
  }

  /** The ids of the bucket of `l`, in row order. */
  function BucketIds(rows: seq<Row>, l: Level): seq<string>
  {
    if |rows| == 0 then []
    else
      var r := rows[|rows| - 1];
      BucketIds(rows[..|rows| - 1], l) + (if NeedsUpdate(r, l) then [r.id] else [])
  }

  /** The loop over the rows: each row whose stored difficulty differs from
      the computed one has its id pushed on the bucket of the computed
      level. */
  method CollectUpdates(rows: seq<Row>) returns (facile: seq<string>, moyen: seq<string>, difficile: seq<string>)
    ensures facile == BucketIds(rows, Facile)
    ensures moyen == BucketIds(rows, Moyen)
    ensures difficile == BucketIds(rows, Difficile)
  {
    facile, moyen, difficile := [], [], [];
    var i := 0;
    while i < |rows|
      invariant i <= |rows|
      invariant facile == BucketIds(rows[..i], Facile)
      invariant moyen == BucketIds(rows[..i], Moyen)
      invariant difficile == BucketIds(rows[..i], Difficile)
    {
      var q := rows[i];
      var newDifficulty := Evaluate(q.question);
      assert rows[..i + 1][..i] == rows[..i] && rows[..i + 1][i] == q;
      if q.difficulty != Some(Label(newDifficulty)) {
        match newDifficulty
        case Facile => facile := facile + [q.id];
        case Moyen => moyen := moyen + [q.id];
        case Difficile => difficile := difficile + [q.id];
      }
      i := i + 1;
    }
    assert rows[..|rows|] == rows;
  }

  /** An id is in the bucket of `l` exactly when some row with that id
      needs the update to `l`. */
  lemma {:induction false} BucketMembership(rows: seq<Row>, l: Level, id: string)
    ensures id in BucketIds(rows, l) <==>
      exists k :: 0 <= k < |rows| && rows[k].id == id && NeedsUpdate(rows[k], l)
  {
    if |rows| > 0 {
      var init := rows[..|rows| - 1];
      BucketMembership(init, l, id);
      if exists k :: 0 <= k < |rows| && rows[k].id == id && NeedsUpdate(rows[k], l) {
        var k :| 0 <= k < |rows| && rows[k].id == id && NeedsUpdate(rows[k], l);
        if k < |init| {
          assert init[k] == rows[k];
        }
      }
      if id in BucketIds(init, l) {
        var k :| 0 <= k < |init| && init[k].id == id && NeedsUpdate(init[k], l);
        assert rows[k] == init[k];
      }
    }
  }

  /** A row whose stored difficulty already is its computed level is in no
      bucket, and a row that changes is in the bucket of its computed level
      only. */
  lemma ChangedRowsOnly(rows: seq<Row>, k: nat, l: Level)
    requires k < |rows|
    requires forall p, q :: 0 <= p < q < |rows| ==> rows[p].id != rows[q].id
    ensures rows[k].id in BucketIds(rows, l) <==> NeedsUpdate(rows[k], l)
  {
    BucketMembership(rows, l, rows[k].id);
  }

  /** Number of rows whose stored difficulty differs from the computed one. */
  function ChangedCount(rows: seq<Row>): nat
  {
    if |rows| == 0 then 0
    else
      var r := rows[|rows| - 1];
      ChangedCount(rows[..|rows| - 1]) + (if r.difficulty != Some(Label(Evaluate(r.question))) then 1 else 0)
  }

  /** Every changed row lands in exactly one bucket. */
  lemma {:induction false} BucketsCountChanges(rows: seq<Row>)
    ensures |BucketIds(rows, Facile)| + |BucketIds(rows, Moyen)| + |BucketIds(rows, Difficile)| == ChangedCount(rows)
  {
    if |rows| > 0 {
      BucketsCountChanges(rows[..|rows| - 1]);
    }
  }

  // ---------------------------------------------------------------------
  // The migration text
  // ---------------------------------------------------------------------

  const Header: string := "-- AI Difficulty Evaluation Updates\n"

  /** The text in front of the id list of the UPDATE for `l`. */
  function UpdatePrefix(l: Level): string
  {
    "UPDATE public.questions SET difficulty = '" + Label(l) + "' WHERE id IN ("
  }

  function UpdateStatement(l: Level, ids: seq<string>): string
  {
    Sql.InStatement(UpdatePrefix(l), ids)
  }

  /** The statement for one bucket, left out when the bucket is empty. */
  function Section(l: Level, ids: seq<string>): string
  {
    if |ids| > 0 then UpdateStatement(l, ids) else ""
  }

  /** The file: the comment line, then the easy, hard and medium buckets in
      that order. */
  function DifficultySql(facile: seq<string>, moyen: seq<string>, difficile: seq<string>): string
  {
    Header + Section(Facile, facile) + Section(Difficile, difficile) + Section(Moyen, moyen)
  }

  /** The file is the comment line alone exactly when no row changes. */
  lemma NothingToUpdate(facile: seq<string>, moyen: seq<string>, difficile: seq<string>)
    ensures DifficultySql(facile, moyen, difficile) == Header <==>
      |facile| == 0 && |moyen| == 0 && |difficile| == 0
  {
    var s1, s2, s3 := Section(Facile, facile), Section(Difficile, difficile), Section(Moyen, moyen);
    assert |DifficultySql(facile, moyen, difficile)| == |Header| + |s1| + |s2| + |s3|;
    if |facile| == 0 && |moyen| == 0 && |difficile| == 0 {
      assert s1 == s2 == s3 == "";
      assert DifficultySql(facile, moyen, difficile) == Header + "" + "" + "";
    }
  }

  /** The run from the fetched rows to the file. */
  method EvaluateAll(rows: seq<Row>) returns (sql: string)
    ensures sql == DifficultySql(BucketIds(rows, Facile), BucketIds(rows, Moyen), BucketIds(rows, Difficile))
    ensures sql == Header <==> ChangedCount(rows) == 0
  {
    var facile, moyen, difficile := CollectUpdates(rows);
    sql := DifficultySql(facile, moyen, difficile);
    NothingToUpdate(facile, moyen, difficile);
    BucketsCountChanges(rows);
  }
}

=== FILE: fix_types.dfy ===
/**
  The type repair of scripts/fix_question_types_v2.ts: the quiz rows with
  fewer than two options (or none, or options that are not an array) are
  collected, and their ids are sent in batches of fifty to an UPDATE that
  turns them into interview questions.
 */
module QuizTypeFix {
  import opened Seqs
  import opened QuestionTypes
  import opened QuestionActions

  /** A row of the table as far as the repair sees it. */
  datatype StoredRow = StoredRow(id: string, kind: QuestionType, options: OptionsField)

  /** `!q.options || !Array.isArray(q.options) || q.options.length < 2`. */
  predicate IsInvalid(q: QuizRow)
  {
    q.options.Missing? || q.options.NotArray? || |q.options.items| < 2
  }

  /** The repair's test is exactly the negation of the quiz page's test. */
  lemma InvalidIsComplement(q: QuizRow)
    ensures IsInvalid(q) <==> !IsValidQuiz(q)
  {
  }

  function InvalidQuestions(quizzes: seq<QuizRow>): (r: seq<QuizRow>)
    ensures forall k :: 0 <= k < |r| ==> IsInvalid(r[k]) && r[k] in quizzes
    ensures forall k :: 0 <= k < |quizzes| && IsInvalid(quizzes[k]) ==> quizzes[k] in r
  {
    Filter(quizzes, IsInvalid)
  }

  /** The invalid rows and the rows the quiz page keeps split the fetched
      rows: every row is in exactly one of the two. */
  lemma ValidAndInvalidPartition(quizzes: seq<QuizRow>)
    ensures multiset(ValidQuestions(Some(quizzes))) + multiset(InvalidQuestions(quizzes)) == multiset(quizzes)
    ensures |ValidQuestions(Some(quizzes))| + |InvalidQuestions(quizzes)| == |quizzes|
  {
    FilterSplit(quizzes, IsValidQuiz, IsInvalid);
  }

  /** The columns the repair reads from a row. */
  function AsQuizRow(r: StoredRow): QuizRow
  {
    QuizRow(r.id, r.options)
  }

  /** The fetch `.eq('type', 'quiz')`: the quiz rows, in table order. */
  function FetchQuizzes(table: seq<StoredRow>): (quizzes: seq<QuizRow>)
    ensures forall k :: 0 <= k < |table| && table[k].kind == Quiz ==> AsQuizRow(table[k]) in quizzes
    ensures forall k :: 0 <= k < |quizzes| ==>
      exists j :: 0 <= j < |table| && table[j].kind == Quiz && quizzes[k] == AsQuizRow(table[j])
  {
    var rows := Filter(table, (r: StoredRow) => r.kind == Quiz);
    var quizzes := seq(|rows|, k requires 0 <= k < |rows| => AsQuizRow(rows[k]));
    assert forall k :: 0 <= k < |table| && table[k].kind == Quiz ==> AsQuizRow(table[k]) in quizzes by {
      forall k | 0 <= k < |table| && table[k].kind == Quiz ensures AsQuizRow(table[k]) in quizzes {
        var i :| 0 <= i < |rows| && rows[i] == table[k];
        assert quizzes[i] == AsQuizRow(table[k]);
      }
    }
    assert forall k :: 0 <= k < |quizzes| ==>
      exists j :: 0 <= j < |table| && table[j].kind == Quiz && quizzes[k] == AsQuizRow(table[j]) by {
      forall k | 0 <= k < |quizzes|
        ensures exists j :: 0 <= j < |table| && table[j].kind == Quiz && quizzes[k] == AsQuizRow(table[j])
      {
        assert rows[k] in table;
      }
    }
    quizzes
  }

  /** `invalidQuestions.map(q => q.id)`. */
  function IdsOf(quizzes: seq<QuizRow>): (ids: seq<string>)
    ensures |ids| == |quizzes|
    ensures forall k :: 0 <= k < |quizzes| ==> ids[k] == quizzes[k].id
  {
    seq(|quizzes|, k requires 0 <= k < |quizzes| => quizzes[k].id)
  }

  const BatchSize: nat := 50

  /** `fixTypes` after the fetch: the ids to convert and the batches they
      are sent in; nothing is sent when every quiz is valid. */
  method FixTypes(quizzes: seq<QuizRow>) returns (ids: seq<string>, batches: seq<seq<string>>)
    ensures ids == IdsOf(InvalidQuestions(quizzes))
    ensures Flatten(batches) == ids
    ensures forall k :: 0 <= k < |batches| ==> 0 < |batches[k]| <= BatchSize
    ensures |batches| == 0 <==> forall k :: 0 <= k < |quizzes| ==> !IsInvalid(quizzes[k])
  {
    var invalid := InvalidQuestions(quizzes);
    if |invalid| > 0 {
      ids := IdsOf(invalid);
      batches := Batches(ids, BatchSize);
    } else {
      ids, batches := [], [];
    }
  }

  // ---------------------------------------------------------------------
  // The effect on the table
  // ---------------------------------------------------------------------

  /** `.update({ type: 'interview' }).in('id', batchIds)`. */
  function ApplyBatch(table: seq<StoredRow>, batch: seq<string>): (r: seq<StoredRow>)
    ensures |r| == |table|
  {
    seq(|table|, k requires 0 <= k < |table| =>
      if table[k].id in batch then table[k].(kind := Interview) else table[k])
  }

  /** The batches applied one after the other. */
  function ApplyAll(table: seq<StoredRow>, batches: seq<seq<string>>): (r: seq<StoredRow>)
    ensures |r| == |table|
  {
    if |batches| == 0 then table
    else ApplyBatch(ApplyAll(table, batches[..|batches| - 1]), batches[|batches| - 1])
  }

  /** Applying the batches in turn converts exactly the rows whose id is in
      one of them. */
  lemma {:induction false} ApplyAllConverts(table: seq<StoredRow>, batches: seq<seq<string>>)
    ensures forall k :: 0 <= k < |table| ==>
      ApplyAll(table, batches)[k] ==
        if table[k].id in Flatten(batches) then table[k].(kind := Interview) else table[k]
  {
    if |batches| > 0 {
      var init := batches[..|batches| - 1];
      ApplyAllConverts(table, init);
    }
  }

  /** After the run no quiz row of the table is invalid, and a row changes
      only when it was an invalid quiz or shares its id with one. */
  lemma NoInvalidQuizLeft(table: seq<StoredRow>, ids: seq<string>, batches: seq<seq<string>>)
    requires ids == IdsOf(InvalidQuestions(FetchQuizzes(table)))
    requires Flatten(batches) == ids
    ensures forall k :: 0 <= k < |table| && ApplyAll(table, batches)[k].kind == Quiz ==>
      !IsInvalid(AsQuizRow(table[k]))
    ensures forall k :: 0 <= k < |table| && table[k].id !in ids ==> ApplyAll(table, batches)[k] == table[k]
    ensures forall k :: 0 <= k < |table| ==>
      ApplyAll(table, batches)[k].id == table[k].id && ApplyAll(table, batches)[k].options == table[k].options
  {
    ApplyAllConverts(table, batches);
    var invalid := InvalidQuestions(FetchQuizzes(table));
    forall k | 0 <= k < |table| && table[k].kind == Quiz && IsInvalid(AsQuizRow(table[k]))
      ensures table[k].id in ids
    {
      var q := AsQuizRow(table[k]);
      assert q in FetchQuizzes(table);
      assert q in invalid;
      var j :| 0 <= j < |invalid| && invalid[j] == q;
      assert ids[j] == q.id;
    }
  }

  /** With unique ids (the table's primary key), a valid quiz stays a quiz. */
  lemma ValidQuizzesStay(table: seq<StoredRow>, ids: seq<string>, batches: seq<seq<string>>, k: nat)
    requires forall a, b :: 0 <= a < b < |table| ==> table[a].id != table[b].id
    requires ids == IdsOf(InvalidQuestions(FetchQuizzes(table)))
    requires Flatten(batches) == ids
    requires k < |table| && table[k].kind == Quiz && !IsInvalid(AsQuizRow(table[k]))
    ensures ApplyAll(table, batches)[k] == table[k]
  {
    NoInvalidQuizLeft(table, ids, batches);
    var fetched := FetchQuizzes(table);
    var invalid := InvalidQuestions(fetched);
    forall j | 0 <= j < |ids| ensures ids[j] != table[k].id {
      var q := invalid[j];
      var i :| 0 <= i < |fetched| && fetched[i] == q;
      var t :| 0 <= t < |table| && table[t].kind == Quiz && fetched[i] == AsQuizRow(table[t]);
      assert IsInvalid(AsQuizRow(table[t]));
      assert t != k;
    }
  }
}

=== FILE: interview.dfy ===
/**
  The interview-to-quiz conversion of scripts/convert_interview_smart.ts:
  each interview question is matched against a fixed knowledge base by
  counting the keywords its cleaned text contains; the first entry with
  the highest positive count supplies the answer and the options, and an
  unmatched question gets a generic answer chosen by its category.
  Placeholder questions are skipped. Every produced statement turns the
  row into a quiz whose answer is among its options.
 */
module InterviewConversion {
  import opened Text
  import opened Seqs
  import opened Statements

  datatype Entry = Entry(keywords: seq<string>, answer: string, options: seq<string>)

  const KnowledgeBase: seq<Entry> := [
    Entry(["capitale", "france"], "Paris", ["Paris", "Lyon", "Marseille"]),
    Entry(["devise", "république"], "Liberté, Égalité, Fraternité",
      ["Liberté, Égalité, Fraternité", "Travail, Famille, Patrie", "Honneur, Patrie, Valeur"]),
    Entry(["couleurs", "drapeau"], "Bleu, Blanc, Rouge",
      ["Bleu, Blanc, Rouge", "Vert, Blanc, Rouge", "Bleu, Blanc, Jaune"]),
    Entry(["hymne", "national"], "La Marseillaise",
      ["La Marseillaise", "Le Chant des Partisans", "L'Ode à la Joie"]),
    Entry(["fête", "nationale", "14 juillet"], "La prise de la Bastille (1789)",
      ["La prise de la Bastille (1789)", "L'Armistice de 1918", "La mort de Louis XVI"]),
    Entry(["président", "actuel"], "Emmanuel Macron",
      ["Emmanuel Macron", "François Hollande", "Nicolas Sarkozy"]),
    Entry(["premier ministre"], "Michel Barnier",
      ["Michel Barnier", "Gabriel Attal", "Élisabeth Borne"]),
    Entry(["siège", "présidence", "elysée"], "Le Palais de l'Élysée",
      ["Le Palais de l'Élysée", "L'Hôtel de Matignon", "Le Palais du Luxembourg"]),
    Entry(["loi", "voter"], "Le Parlement (Assemblée Nationale et Sénat)",
      ["Le Parlement (Assemblée Nationale et Sénat)", "Le Président de la République", "Le Conseil Constitutionnel"]),
    Entry(["mariane", "symbole"], "Une figure allégorique de la République",
      ["Une figure allégorique de la République", "Une reine de France", "Une célèbre actrice"]),
    Entry(["guerres mondiales", "dates"], "1914-1918 et 1939-1945",
      ["1914-1918 et 1939-1945", "1910-1914 et 1940-1944", "1870-1871 et 1914-1918"]),
    Entry(["laïcité", "principe", "definition"], "Séparation de l'Église et de l'État, liberté de conscience",
      ["Séparation de l'Église et de l'État, liberté de conscience", "Interdiction de toute religion", "Obligation d'être athée"]),
    Entry(["pourquoi", "devenir", "français"], "Pour partager les valeurs et le projet républicain",
      ["Pour partager les valeurs et le projet républicain", "Pour avoir un passeport facile", "Pour toucher les aides sociales"]),
    Entry(["droit", "vote", "femmes"], "1944", ["1944", "1789", "1905"]),
    Entry(["abolition", "peine de mort"], "1981", ["1981", "1945", "1968"]),
    Entry(["départements", "nombre"], "101 départements",
      ["101 départements", "96 départements", "120 départements"]),
    Entry(["fleuves", "liste"], "La Seine, La Loire, Le Rhône, La Garonne, Le Rhin",
      ["La Seine, La Loire, Le Rhône, La Garonne, Le Rhin", "La Seine, L'Amazone, Le Nil", "Le Danube, La Volga, La Loire"]),
    Entry(["monuments", "historiques"], "La Tour Eiffel, Le Louvre, L'Arc de Triomphe",
      ["La Tour Eiffel, Le Louvre, L'Arc de Triomphe", "La Statue de la Liberté, Le Colisée", "Big Ben, La Tour de Pise"]),
    Entry(["maire", "rôle"], "Administre la commune et représente l'État",
      ["Administre la commune et représente l'État", "Vote les lois", "Juge les délits"]),
    Entry(["trois couleurs", "signification"], "Bleu et Rouge (Paris), Blanc (Roi)",
      ["Bleu et Rouge (Paris), Blanc (Roi)", "Bleu (Mer), Blanc (Paix), Rouge (Sang)", "Liberté, Égalité, Fraternité"]),
    Entry(["fois", "rentrez", "pays"], "Je garde des liens normaux avec ma famille",
      ["Je garde des liens normaux avec ma famille", "Je ne rentre jamais", "Je vis moitié ici moitié là-bas"]),
    Entry(["associations"], "Oui (participer à la vie sociale)",
      ["Oui (participer à la vie sociale)", "Non, ça ne sert à rien", "Seulement communautaires"]),
    Entry(["langue", "travail"], "Le français",
      ["Le français", "Ma langue maternelle", "L'anglais uniquement"]),
    Entry(["charles de gaulle"], "Chef de la France Libre et père de la Ve République",
      ["Chef de la France Libre et père de la Ve République", "Un empereur français", "Le créateur de la Sécurité Sociale"]),
    Entry(["voltaire"], "Un philosophe des Lumières",
      ["Un philosophe des Lumières", "Un roi de France", "Un général napoléonien"]),
    Entry(["molière"], "Un dramaturge et comédien célèbre",
      ["Un dramaturge et comédien célèbre", "Un peintre impressionniste", "Un navigateur"]),
    Entry(["victor hugo"], "Écrivain célèbre (Les Misérables)",
      ["Écrivain célèbre (Les Misérables)", "Premier ministre", "Inventeur du cinéma"])
  ]

  /** Every entry has a keyword, and offers its own answer first among three
      options. */
  predicate WellFormedEntry(e: Entry)
  {
    |e.keywords| > 0 && |e.options| == 3 && e.options[0] == e.answer
  }

  lemma KnowledgeBaseWellFormed()
    ensures |KnowledgeBase| == 27
    ensures forall k :: 0 <= k < |KnowledgeBase| ==> WellFormedEntry(KnowledgeBase[k])
  {
  }

  // ---------------------------------------------------------------------
  // Matching
  // ---------------------------------------------------------------------

  /** The script's `normalize`: lower-case, then trim. */
  function Clean(s: string): string
  {
    Trim(Lower(s))
  }

  /** Number of the keywords that occur in `text`. */
  function Score(text: string, keywords: seq<string>): nat
  {
    if |keywords| == 0 then 0
    else Score(text, keywords[..|keywords| - 1]) + (if Contains(text, keywords[|keywords| - 1]) then 1 else 0)
  }

  /** The score is zero exactly when no keyword occurs, and full exactly
      when every keyword occurs. */
  lemma {:induction false} ScoreCounts(text: string, keywords: seq<string>)
    ensures Score(text, keywords) <= |keywords|
    ensures Score(text, keywords) == 0 <==> forall k :: 0 <= k < |keywords| ==> !Contains(text, keywords[k])
    ensures Score(text, keywords) == |keywords| <==> forall k :: 0 <= k < |keywords| ==> Contains(text, keywords[k])
  {
    if |keywords| > 0 {
      var init := keywords[..|keywords| - 1];
      ScoreCounts(text, init);
      assert forall k :: 0 <= k < |init| ==> init[k] == keywords[k];
    }
  }

  function EntryScore(text: string, e: Entry): nat
  {
    Score(text, e.keywords)
  }

  /** The match after the first `n` entries have been looked at: an entry
      replaces the current one only with a strictly higher, positive score.
      So the result is the earliest entry of highest score, and there is
      none exactly when no entry scores. */
  function BestUpTo(text: string, kb: seq<Entry>, n: nat): (r: Option<nat>)
    requires n <= |kb|
    ensures r.None? <==> forall k :: 0 <= k < n ==> EntryScore(text, kb[k]) == 0
    ensures r.Some? ==> r.value < n && EntryScore(text, kb[r.value]) >= 1
    ensures r.Some? ==> forall k :: 0 <= k < n ==> EntryScore(text, kb[k]) <= EntryScore(text, kb[r.value])
    ensures r.Some? ==> forall k :: 0 <= k < r.value ==> EntryScore(text, kb[k]) < EntryScore(text, kb[r.value])
  {
    if n == 0 then None
    else
      var b := BestUpTo(text, kb, n - 1);
      var maxScore := if b.None? then 0 else EntryScore(text, kb[b.value]);
      var score := EntryScore(text, kb[n - 1]);
      if score > maxScore && score >= 1 then Some(n - 1) else b
  }

  /** `findBestMatch`: the index of the chosen knowledge-base entry. */
  method FindBestMatch(question: string, kb: seq<Entry>) returns (bestMatch: Option<nat>)
    ensures bestMatch == BestUpTo(Clean(question), kb, |kb|)
  {
    var text := Clean(question);
    bestMatch := None;
    var maxScore := 0;
    var i := 0;
    while i < |kb|
      invariant i <= |kb|
      invariant bestMatch == BestUpTo(text, kb, i)
      invariant maxScore == if bestMatch.None? then 0 else EntryScore(text, kb[bestMatch.value])
    {
      var score := CountKeywords(text, kb[i].keywords);
      if score > maxScore && score >= 1 {
        maxScore := score;
        bestMatch := Some(i);
      }
      i := i + 1;
    }
  }

  /** The inner loop: one point per keyword the text contains. */
  method CountKeywords(text: string, keywords: seq<string>) returns (score: nat)
    ensures score == Score(text, keywords)
  {
    score := 0;
    var j := 0;
    while j < |keywords|
      invariant j <= |keywords|
      invariant score == Score(text, keywords[..j])
    {
      assert keywords[..j + 1][..j] == keywords[..j];
      if Contains(text, keywords[j]) {
        score := score + 1;
      }
      j := j + 1;
    }
    assert keywords[..|keywords|] == keywords;
  }

  // ---------------------------------------------------------------------
  // One question
  // ---------------------------------------------------------------------

  /** An interview question from the dump; `category` is absent for some. */
  datatype Item = Item(id: string, question: string, category: Option<string>)

  /** The placeholder rows the loop skips: the word "question" in any
      letter case, or fewer than five characters. */
  predicate IsPlaceholder(question: string)
  {
    Lower(question) == "question" || |question| < 5
  }

  /** The generic answer and options of an unmatched question, by category. */
  function Fallback(category: Option<string>): (r: (string, seq<string>))
    ensures |r.1| == 3 && r.1[0] == r.0
  {
    if category == Some("Motivation") || category == Some("Intégration") then
      ("Réponse montrant votre intégration et adhésion aux valeurs",
       ["Réponse montrant votre intégration et adhésion aux valeurs",
        "Réponse montrant un détachement de la France",
        "Réponse hors sujet"])
    else if category == Some("Histoire") then
      ("Fait historique majeur", ["Fait historique majeur", "Légende urbaine", "Fait d'un autre pays"])
    else
      ("Réponse précise et correcte", ["Réponse précise et correcte", "Réponse approximative", "Réponse fausse"])
  }

  /** The statement for one question: type quiz, the answer, the options. */
  function QuizStatement(id: string, answer: string, options: seq<string>): Update
  {
    Update(id, [Assignment("type", Text("quiz")), Assignment("answer", Text(answer)),
                Assignment("options", TextArray(options))])
  }

  lemma QuizStatementReads(id: string, answer: string, options: seq<string>)
    ensures ValueOf(QuizStatement(id, answer, options), "type") == Some(Text("quiz"))
    ensures ValueOf(QuizStatement(id, answer, options), "answer") == Some(Text(answer))
    ensures ValueOf(QuizStatement(id, answer, options), "options") == Some(TextArray(options))
  {
    var a := QuizStatement(id, answer, options).assignments;
    assert "answer" != "type" && "options" != "type" && "options" != "answer" by {
      assert "answer"[0] != "type"[0] && "options"[0] != "type"[0] && "options"[0] != "answer"[0];
    }
    assert Lookup(a, "answer") == Lookup(a[1..], "answer");
    assert Lookup(a, "options") == Lookup(a[1..], "options") == Lookup(a[1..][1..], "options");
  }

  /** The answer and options chosen for a question, and whether the
      knowledge base supplied them. */
  datatype Choice = Choice(answer: string, options: seq<string>, matched: bool)

  function Choose(kb: seq<Entry>, item: Item): Choice
  {
    match BestUpTo(Clean(item.question), kb, |kb|)
    case Some(b) => Choice(kb[b].answer, kb[b].options, true)
    case None => Choice(Fallback(item.category).0, Fallback(item.category).1, false)
  }

  predicate AllWellFormed(kb: seq<Entry>)
  {
    forall k :: 0 <= k < |kb| ==> WellFormedEntry(kb[k])
  }

  /** Whichever way it is chosen, the answer is among the options; the
      knowledge base supplies it exactly when some entry scores. */
  lemma ChosenAnswerOffered(kb: seq<Entry>, item: Item)
    requires AllWellFormed(kb)
    ensures Choose(kb, item).answer in Choose(kb, item).options
    ensures Choose(kb, item).matched <==> exists k :: 0 <= k < |kb| && EntryScore(Clean(item.question), kb[k]) > 0
  {
    var b := BestUpTo(Clean(item.question), kb, |kb|);
    if b.Some? {
      assert WellFormedEntry(kb[b.value]);
      assert kb[b.value].options[0] == kb[b.value].answer;
    }
  }

  /** The statement for a question that is not a placeholder. */
  function Converted(kb: seq<Entry>, item: Item): Update
  {
    QuizStatement(item.id, Choose(kb, item).answer, Choose(kb, item).options)
  }

  /** One iteration for a question that is not a placeholder: find the best
      match, take its answer and options or the fallback's. */
  method ConvertOne(kb: seq<Entry>, q: Item) returns (u: Update, matched: bool)
    ensures u == Converted(kb, q) && matched == Choose(kb, q).matched
    ensures u.id == q.id
    ensures AllWellFormed(kb) ==> MakesQuizWithOfferedAnswer(u)
  {
    var bestMatch := FindBestMatch(q.question, kb);
    var answer, options;
    if bestMatch.Some? {
      answer, options := kb[bestMatch.value].answer, kb[bestMatch.value].options;
      matched := true;
    } else {
      answer, options := Fallback(q.category).0, Fallback(q.category).1;
      matched := false;
    }
    if AllWellFormed(kb) {
      ChosenAnswerOffered(kb, q);
    }
    QuizStatementReads(q.id, answer, options);
    u := QuizStatement(q.id, answer, options);
  }

  // ---------------------------------------------------------------------
  // The run
  // ---------------------------------------------------------------------

  /** The statements for the questions that are not placeholders, in order. */
  function Updates(kb: seq<Entry>, items: seq<Item>): seq<Update>
  {
    if |items| == 0 then []
    else
      var item := items[|items| - 1];
      Updates(kb, items[..|items| - 1]) + (if IsPlaceholder(item.question) then [] else [Converted(kb, item)])
  }

  /** How many of the converted questions the knowledge base answered
      (`matched`) or the fallback did (`!matched`). */
  function CountChosen(kb: seq<Entry>, items: seq<Item>, matched: bool): nat
  {
    if |items| == 0 then 0
    else
      var item := items[|items| - 1];
      CountChosen(kb, items[..|items| - 1], matched) +
      (if !IsPlaceholder(item.question) && Choose(kb, item).matched == matched then 1 else 0)
  }

  const Header: string := "-- Smart Interview to Quiz Conversion\n"

  /** `updates.join('\n')`. */
  function JoinStatements(updates: seq<Update>): string
  {
    if |updates| == 0 then ""
    else if |updates| == 1 then RenderUpdate(updates[0])
    else RenderUpdate(updates[0]) + "\n" + JoinStatements(updates[1..])
  }

  /** The loop of `run` over a knowledge base: skip placeholders, match or
      fall back, count, and collect one statement per remaining question. */
  method ConvertAll(kb: seq<Entry>, items: seq<Item>)
    returns (updates: seq<Update>, convertedCount: nat, genericCount: nat)
    ensures updates == Updates(kb, items)
    ensures convertedCount == CountChosen(kb, items, true) && genericCount == CountChosen(kb, items, false)
    ensures convertedCount + genericCount == |updates|
    ensures AllWellFormed(kb) ==> AllMakeQuizzes(updates)
  {
    updates, convertedCount, genericCount := [], 0, 0;
    var i := 0;
    while i < |items|
      invariant i <= |items|
      invariant updates == Updates(kb, items[..i])
      invariant convertedCount == CountChosen(kb, items[..i], true)
      invariant genericCount == CountChosen(kb, items[..i], false)
      invariant convertedCount + genericCount == |updates|
      invariant AllWellFormed(kb) ==> AllMakeQuizzes(updates)
    {
      var q := items[i];
      RunStep(kb, items, i);
      if !IsPlaceholder(q.question) {
        var u, matched := ConvertOne(kb, q);
        if matched {
          convertedCount := convertedCount + 1;
        } else {
          genericCount := genericCount + 1;
        }
        if AllWellFormed(kb) {
          AllMakeQuizzesAppend(updates, u);
        }
        updates := updates + [u];
      }
      i := i + 1;
    }
    assert items[..|items|] == items;
  }

  /** What one more question adds to the statements and the counters. */
  lemma RunStep(kb: seq<Entry>, items: seq<Item>, i: nat)
    requires i < |items|
    ensures Updates(kb, items[..i + 1]) ==
      Updates(kb, items[..i]) + (if IsPlaceholder(items[i].question) then [] else [Converted(kb, items[i])])
    ensures CountChosen(kb, items[..i + 1], true) == CountChosen(kb, items[..i], true) +
      (if !IsPlaceholder(items[i].question) && Choose(kb, items[i]).matched then 1 else 0)
    ensures CountChosen(kb, items[..i + 1], false) == CountChosen(kb, items[..i], false) +
      (if !IsPlaceholder(items[i].question) && !Choose(kb, items[i]).matched then 1 else 0)
  {
    assert items[..i + 1][..i] == items[..i] && items[..i + 1][i] == items[i];
  }

  /** `run`: the conversion over the script's knowledge base and the text
      of the migration file. Every statement makes a quiz whose answer is
      among its options, and the two counters add up to the number of
      statements. */
  method Run(items: seq<Item>)
    returns (updates: seq<Update>, convertedCount: nat, genericCount: nat, sql: string)
    ensures updates == Updates(KnowledgeBase, items)
    ensures convertedCount + genericCount == |updates|
    ensures AllMakeQuizzes(updates)
    ensures sql == Header + JoinStatements(updates)
  {
    KnowledgeBaseWellFormed();
    updates, convertedCount, genericCount := ConvertAll(KnowledgeBase, items);
    sql := Header + JoinStatements(updates);
  }

  /** The statements are exactly those of the non-placeholder questions,
      one each, in input order. */
  lemma {:induction false} UpdatesFollowQuestions(kb: seq<Entry>, items: seq<Item>)
    ensures |Updates(kb, items)| == |Filter(items, (i: Item) => !IsPlaceholder(i.question))|
    ensures forall k :: 0 <= k < |Updates(kb, items)| ==>
      Updates(kb, items)[k].id == Filter(items, (i: Item) => !IsPlaceholder(i.question))[k].id
  {
    var p := (i: Item) => !IsPlaceholder(i.question);
    if |items| > 0 {
      var init, last := items[..|items| - 1], items[|items| - 1];
      assert items == init + [last];
      FilterAppend(init, [last], p);
      assert [last][1..] == [];
      assert Filter([last], p) == if p(last) then [last] else [];
      UpdatesFollowQuestions(kb, init);
    }
  }
}

=== FILE: levenshtein.dfy ===
/**
  Levenshtein distance as used by the duplicate detector
  (scripts/detect_duplicates.ts). `Distance` is the recurrence the
  dynamic-programming table fills in; `Levenshtein` is the table-filling
  loop itself. The lemmas show that the recurrence is the least number of
  single-character insertions, deletions and substitutions over all edit
  scripts, that it is symmetric, zero exactly on equal strings, and equal
  to the other string's length when one side is empty.
 */
module Levenshtein {

  function Min(x: nat, y: nat): nat
  {
    if x <= y then x else y
  }

  function Init(s: string): string
    requires |s| > 0
  {
    s[..|s| - 1]
  }

  function Last(s: string): char
    requires |s| > 0
  {
    s[|s| - 1]
  }

  /** The value the table holds for `a` against `b`. When the last
      characters agree the table copies the diagonal entry; otherwise it
      takes one more than the least of substitution (diagonal), insertion
      (same row) and deletion (same column). */
  function Distance(a: string, b: string): nat
    decreases |a| + |b|
  {
    if |a| == 0 then |b|
    else if |b| == 0 then |a|
    else if Last(a) == Last(b) then Distance(Init(a), Init(b))
    else 1 + Min(Distance(Init(a), Init(b)), Min(Distance(Init(a), b), Distance(a, Init(b))))
  }

  /** The table-filling loop: row `i` of the table holds the distances of
      every prefix of `a` to the first `i` characters of `b`. Only the
      previous row is kept, which is all the recurrence reads. */
  method Levenshtein(a: string, b: string) returns (d: nat)
    ensures d == Distance(a, b)
  {
    var row: seq<nat> := seq(|a| + 1, j requires 0 <= j <= |a| => j);
    var i := 1;
    while i <= |b|
      invariant 1 <= i <= |b| + 1
      invariant IsRow(a, b[..i - 1], row)
    {
      row := NextRow(a, b, i, row);
      i := i + 1;
    }
    assert a[..|a|] == a && b[..|b|] == b;
    d := row[|a|];
  }

  /** `row` holds the distances of every prefix of `a` to `t`. */
  ghost predicate IsRow(a: string, t: string, row: seq<nat>)
  {
    |row| == |a| + 1 && forall j :: 0 <= j <= |a| ==> row[j] == Distance(a[..j], t)
  }

  /** One row of the table from the row above it. */
  method NextRow(a: string, b: string, i: nat, row: seq<nat>) returns (cur: seq<nat>)
    requires 1 <= i <= |b| && IsRow(a, b[..i - 1], row)
    ensures IsRow(a, b[..i], cur)
  {
    cur := [i];
    var j := 1;
    while j <= |a|
      invariant 1 <= j <= |a| + 1
      invariant |cur| == j
      invariant forall k :: 0 <= k < j ==> cur[k] == Distance(a[..k], b[..i])
    {
      var v: nat;
      if b[i - 1] == a[j - 1] {
        v := row[j - 1];
      } else {
        v := Min(row[j - 1] + 1, Min(cur[j - 1] + 1, row[j] + 1));
      }
      TableCell(a, b, i, j);
      cur := cur + [v];
      j := j + 1;
    }
  }

  /** One cell of the table, in terms of its three neighbours. */
  lemma TableCell(a: string, b: string, i: nat, j: nat)
    requires 1 <= i <= |b| && 1 <= j <= |a|
    ensures Distance(a[..j], b[..i]) ==
      if b[i - 1] == a[j - 1] then Distance(a[..j - 1], b[..i - 1])
      else Min(Distance(a[..j - 1], b[..i - 1]) + 1,
               Min(Distance(a[..j - 1], b[..i]) + 1, Distance(a[..j], b[..i - 1]) + 1))
  {
    assert Init(a[..j]) == a[..j - 1];
    assert Init(b[..i]) == b[..i - 1];
  }

  /** Distance to or from the empty string is the other string's length. */
  lemma DistanceToEmpty(s: string)
    ensures Distance(s, []) == |s|
    ensures Distance([], s) == |s|
  {
  }

  lemma {:induction false} Symmetric(a: string, b: string)
    ensures Distance(a, b) == Distance(b, a)
    decreases |a| + |b|
  {
    if |a| > 0 && |b| > 0 {
      Symmetric(Init(a), Init(b));
      Symmetric(Init(a), b);
      Symmetric(a, Init(b));
    }
  }

  lemma {:induction false} ZeroIffEqual(a: string, b: string)
    ensures Distance(a, b) == 0 <==> a == b
    decreases |a| + |b|
  {
    if |a| > 0 && |b| > 0 {
      ZeroIffEqual(Init(a), Init(b));
      assert a == Init(a) + [Last(a)];
      assert b == Init(b) + [Last(b)];
    }
  }

  /** The distance lies between the difference of the lengths and the
      larger length. */
  lemma {:induction false} LengthBounds(a: string, b: string)
    ensures Distance(a, b) >= |a| - |b| && Distance(a, b) >= |b| - |a|
    ensures Distance(a, b) <= if |a| >= |b| then |a| else |b|
    decreases |a| + |b|
  {
    if |a| > 0 && |b| > 0 {
      LengthBounds(Init(a), Init(b));
      LengthBounds(Init(a), b);
      LengthBounds(a, Init(b));
    }
  }

  /** Adding or removing one character at the end of `x` moves the distance
      by at most one. */
  lemma {:induction false} Neighbours(x: string, y: string)
    requires |x| > 0
    ensures Distance(x, y) <= Distance(Init(x), y) + 1
    ensures Distance(Init(x), y) <= Distance(x, y) + 1
    decreases |x| + |y|
  {
    if |y| > 0 {
      var x', y' := Init(x), Init(y);
      Neighbours(y, x');
      Symmetric(y, x');
      Symmetric(y', x');
      if Last(x) != Last(y) {
        Neighbours(x, y');
      }
    }
  }

  /** The same, for the second argument. */
  lemma NeighboursRight(x: string, y: string)
    requires |y| > 0
    ensures Distance(x, y) <= Distance(x, Init(y)) + 1
    ensures Distance(x, Init(y)) <= Distance(x, y) + 1
  {
    Neighbours(y, x);
    Symmetric(x, y);
    Symmetric(x, Init(y));
  }

  /** A string is at distance `k` from its prefix that is `k` shorter. */
  lemma {:induction false} DistanceToPrefix(a: string, k: nat)
    requires k <= |a|
    ensures Distance(a, a[..k]) == |a| - k
    decreases |a| - k
  {
    LengthBounds(a, a[..k]);
    if k == |a| {
      assert a[..k] == a;
      ZeroIffEqual(a, a);
    } else {
      DistanceToPrefix(Init(a), k);
      assert Init(a)[..k] == a[..k];
      Neighbours(a, a[..k]);
    }
  }

  /** One step of an edit script, in the alignment reading of
      Wagner and Fischer: keep a character, replace it, insert a new one
      or delete one. */
  datatype EditOp = Keep | Substitute(c: char) | Insert(c: char) | Delete

  /** Number of real edits in a script; kept characters are free. */
  function Cost(ops: seq<EditOp>): nat
  {
    if |ops| == 0 then 0
    else Cost(ops[..|ops| - 1]) + (if ops[|ops| - 1].Keep? then 0 else 1)
  }

  /** `ops` turns `a` into `b`: its last step accounts for the last
      character of `a`, of `b`, or of both, and the rest of the script
      turns what remains of `a` into what remains of `b`. */
  predicate Transforms(ops: seq<EditOp>, a: string, b: string)
    decreases |ops|
  {
    if |ops| == 0 then |a| == 0 && |b| == 0
    else
      var rest := ops[..|ops| - 1];
      match ops[|ops| - 1]
      case Keep =>
        |a| > 0 && |b| > 0 && Last(a) == Last(b) && Transforms(rest, Init(a), Init(b))
      case Substitute(c) =>
        |a| > 0 && |b| > 0 && Last(b) == c && Transforms(rest, Init(a), Init(b))
      case Insert(c) =>
        |b| > 0 && Last(b) == c && Transforms(rest, a, Init(b))
      case Delete =>
        |a| > 0 && Transforms(rest, Init(a), b)
  }

  /** An edit script that achieves the distance. */
  function OptimalScript(a: string, b: string): (ops: seq<EditOp>)
    ensures Transforms(ops, a, b)
    ensures Cost(ops) == Distance(a, b)
    decreases |a| + |b|
  {
    if |a| == 0 && |b| == 0 then []
    else if |a| == 0 then
      var ops := OptimalScript(a, Init(b)) + [Insert(Last(b))];
      assert ops[..|ops| - 1] == OptimalScript(a, Init(b));
      ops
    else if |b| == 0 then
      var ops := OptimalScript(Init(a), b) + [Delete];
      assert ops[..|ops| - 1] == OptimalScript(Init(a), b);
      ops
    else if Last(a) == Last(b) then
      var ops := OptimalScript(Init(a), Init(b)) + [Keep];
      assert ops[..|ops| - 1] == OptimalScript(Init(a), Init(b));
      ops
    else if Distance(Init(a), Init(b)) <= Distance(Init(a), b)
         && Distance(Init(a), Init(b)) <= Distance(a, Init(b)) then
      var ops := OptimalScript(Init(a), Init(b)) + [Substitute(Last(b))];
      assert ops[..|ops| - 1] == OptimalScript(Init(a), Init(b));
      ops
    else if Distance(Init(a), b) <= Distance(a, Init(b)) then
      var ops := OptimalScript(Init(a), b) + [Delete];
      assert ops[..|ops| - 1] == OptimalScript(Init(a), b);
      ops
    else
      var ops := OptimalScript(a, Init(b)) + [Insert(Last(b))];
      assert ops[..|ops| - 1] == OptimalScript(a, Init(b));
      ops
  }

  /** No edit script is cheaper than the distance. */
  lemma {:induction false} DistanceIsMinimal(ops: seq<EditOp>, a: string, b: string)
    requires Transforms(ops, a, b)
    ensures Distance(a, b) <= Cost(ops)
    decreases |ops|
  {
    if |ops| > 0 {
      var rest := ops[..|ops| - 1];
      match ops[|ops| - 1]
      case Keep =>
        DistanceIsMinimal(rest, Init(a), Init(b));
      case Substitute(c) =>
        DistanceIsMinimal(rest, Init(a), Init(b));
      case Insert(c) =>
        DistanceIsMinimal(rest, a, Init(b));
        NeighboursRight(a, b);
      case Delete =>
        DistanceIsMinimal(rest, Init(a), b);
        Neighbours(a, b);
    }
  }

  /** The distance is the least cost of an edit script from `a` to `b`. */
  lemma DistanceIsLeastEditCost(a: string, b: string)
    ensures exists ops :: Transforms(ops, a, b) && Cost(ops) == Distance(a, b)
    ensures forall ops :: Transforms(ops, a, b) ==> Distance(a, b) <= Cost(ops)
  {
    var best := OptimalScript(a, b);
    assert Transforms(best, a, b) && Cost(best) == Distance(a, b);
    forall ops | Transforms(ops, a, b)
      ensures Distance(a, b) <= Cost(ops)
    {
      DistanceIsMinimal(ops, a, b);
    }
  }
}

=== FILE: migration.dfy ===
/**
  The data half of scripts/force_migration.ts: the two lookup tables that
  fill the `theme` and `info_cards_chapter` columns, the rows built from
  the static quiz and interview lists (quizzes first), and the upsert in
  batches of fifty rows.
 */
module ForceMigration {
  import opened Seqs
  import opened QuestionTypes

  // ---------------------------------------------------------------------
  // Lookup tables
  // ---------------------------------------------------------------------

  /** Quiz theme to learning-card chapter; four themes keep their name. */
  const ThemeChapters: map<string, string> := map[
    "Histoire" := "Histoire",
    "Institutions" := "Institutions",
    "Valeurs" := "Valeurs",
    "Symboles" := "Symboles",
    "Géographie" := "La France dans le monde"
  ]

  /** Interview category (lower-case keys) to theme. */
  const CategoryThemes: map<string, string> := map[
    "histoire" := "Histoire",
    "valeurs" := "Valeurs",
    "geographie" := "Géographie",
    "personnel" := "Entretien & Motivation"
  ]

  const Fallback: string := "Autre"

  /** `mapping[key] || 'Autre'`: the table's value for a key it holds, the
      fallback for any other key. */
  function LookupOr(table: map<string, string>, key: string): (r: string)
    requires forall k :: k in table ==> table[k] != Fallback && |table[k]| > 0
    ensures key in table ==> r == table[key]
    ensures r == Fallback <==> key !in table
    ensures r == Fallback || r in table.Values
  {
    if key in table && |table[key]| > 0 then table[key] else Fallback
  }

  lemma TablesAvoidFallback()
    ensures forall k :: k in ThemeChapters ==> ThemeChapters[k] != Fallback && |ThemeChapters[k]| > 0
    ensures forall k :: k in CategoryThemes ==> CategoryThemes[k] != Fallback && |CategoryThemes[k]| > 0
  {
  }

  function MapThemeToChapter(theme: string): (chapter: string)
  {
    TablesAvoidFallback();
    LookupOr(ThemeChapters, theme)
  }

  function MapCategoryToTheme(category: string): (theme: string)
  {
    TablesAvoidFallback();
    LookupOr(CategoryThemes, category)
  }

  /** The five entries of the theme table. */
  lemma ThemeChapterEntries()
    ensures forall t :: t in ThemeChapters <==>
      t == "Histoire" || t == "Institutions" || t == "Valeurs" || t == "Symboles" || t == "Géographie"
    ensures ThemeChapters["Histoire"] == "Histoire" && ThemeChapters["Institutions"] == "Institutions"
    ensures ThemeChapters["Valeurs"] == "Valeurs" && ThemeChapters["Symboles"] == "Symboles"
    ensures ThemeChapters["Géographie"] == "La France dans le monde"
  {
    assert "Histoire"[0] != "Symboles"[0];
    assert |"Histoire"| != |"Institutions"| && |"Histoire"| != |"Valeurs"| && |"Histoire"| != |"Géographie"|;
    assert |"Institutions"| != |"Valeurs"| && |"Institutions"| != |"Symboles"| && |"Institutions"| != |"Géographie"|;
    assert |"Valeurs"| != |"Symboles"| && |"Valeurs"| != |"Géographie"| && |"Symboles"| != |"Géographie"|;
  }

  /** Four themes are their own chapter, geography becomes "La France dans
      le monde", and every other theme falls back to "Autre"; the chapter
      is one of six names. */
  lemma ChapterTable(theme: string)
    ensures theme == "Histoire" || theme == "Institutions" || theme == "Valeurs" || theme == "Symboles" ==>
      MapThemeToChapter(theme) == theme
    ensures theme == "Géographie" ==> MapThemeToChapter(theme) == "La France dans le monde"
    ensures MapThemeToChapter(theme) == "Autre" <==>
      !(theme == "Histoire" || theme == "Institutions" || theme == "Valeurs" || theme == "Symboles" ||
        theme == "Géographie")
    ensures var c := MapThemeToChapter(theme);
      c == "Histoire" || c == "Institutions" || c == "Valeurs" || c == "Symboles" ||
      c == "La France dans le monde" || c == "Autre"
  {
    TablesAvoidFallback();
    ThemeChapterEntries();
  }

  /** The category lookup is exact on its lower-case keys: "Histoire"
      with a capital is not a key and falls back to "Autre". */
  lemma CategoryTable(category: string)
    ensures category == "histoire" ==> MapCategoryToTheme(category) == "Histoire"
    ensures category == "valeurs" ==> MapCategoryToTheme(category) == "Valeurs"
    ensures category == "geographie" ==> MapCategoryToTheme(category) == "Géographie"
    ensures category == "personnel" ==> MapCategoryToTheme(category) == "Entretien & Motivation"
    ensures MapCategoryToTheme(category) == "Autre" <==>
      category !in {"histoire", "valeurs", "geographie", "personnel"}
    ensures MapCategoryToTheme("Histoire") == "Autre"
  {
    TablesAvoidFallback();
    assert CategoryThemes.Keys == {"histoire", "valeurs", "geographie", "personnel"};
    assert "Histoire" !in CategoryThemes by {
      assert "Histoire"[0] != "histoire"[0];
    }
  }

  // ---------------------------------------------------------------------
  // Rows
  // ---------------------------------------------------------------------

  /** An entry of the static quiz list. */
  datatype QuizSource = QuizSource(id: string, theme: string, question: string, answer: string,
                                   options: seq<string>, explanation: Option<string>,
                                   difficulty: int, importance: int, source: string)

  /** An entry of the static interview list. */
  datatype InterviewSource = InterviewSource(id: string, category: string, question: string,
                                             answerTips: Option<string>, requiredFor: Option<seq<string>>)

  /** The JSON `metadata` column, with the keys each kind of row gets. */
  datatype Metadata =
    | QuizMetadata(difficulty: int, importance: int, source: string)
    | InterviewMetadata(answerTips: Option<string>, requiredFor: seq<string>)

  /** A row of `public.questions` as upserted; `chapter` is
      `info_cards_chapter`, `None` for NULL. */
  datatype Row = Row(id: string, theme: string, kind: QuestionType, question: string, answer: string,
                     options: seq<string>, explanation: string, chapter: Option<string>, metadata: Metadata)

  /** `x || ""` on an optional text. */
  function OrEmpty(s: Option<string>): string
  {
    if s.Some? then s.value else ""
  }

  function QuizRow(q: QuizSource): Row
  {
    Row(q.id, q.theme, Quiz, q.question, q.answer, q.options, OrEmpty(q.explanation),
        Some(MapThemeToChapter(q.theme)), QuizMetadata(q.difficulty, q.importance, q.source))
  }

  function InterviewRow(q: InterviewSource): Row
  {
    Row(q.id, MapCategoryToTheme(q.category), Interview, q.question, "", [], "", None,
        InterviewMetadata(q.answerTips, if q.requiredFor.Some? then q.requiredFor.value else []))
  }

  /** The two loops that fill `rowsToInsert`: every quiz, then every
      interview question, each in list order. */
  method BuildRows(quizzes: seq<QuizSource>, interviews: seq<InterviewSource>) returns (rows: seq<Row>)
    ensures |rows| == |quizzes| + |interviews|
    ensures forall k :: 0 <= k < |quizzes| ==> rows[k] == QuizRow(quizzes[k])
    ensures forall k :: 0 <= k < |interviews| ==> rows[|quizzes| + k] == InterviewRow(interviews[k])
  {
    rows := [];
    for i := 0 to |quizzes|
      invariant |rows| == i
      invariant forall k :: 0 <= k < i ==> rows[k] == QuizRow(quizzes[k])
    {
      rows := rows + [QuizRow(quizzes[i])];
    }
    for i := 0 to |interviews|
      invariant |rows| == |quizzes| + i
      invariant forall k :: 0 <= k < |quizzes| ==> rows[k] == QuizRow(quizzes[k])
      invariant forall k :: 0 <= k < i ==> rows[|quizzes| + k] == InterviewRow(interviews[k])
    {
      rows := rows + [InterviewRow(interviews[i])];
    }
  }

  /** What the built rows hold: quizzes keep their content, default a
      missing explanation to the empty text and get the chapter of their
      theme; interview rows get an empty answer, no options, an empty
      explanation, no chapter and an empty situation list by default; every
      quiz row comes before every interview row. */
  lemma RowsLayout(quizzes: seq<QuizSource>, interviews: seq<InterviewSource>, rows: seq<Row>)
    requires |rows| == |quizzes| + |interviews|
    requires forall k :: 0 <= k < |quizzes| ==> rows[k] == QuizRow(quizzes[k])
    requires forall k :: 0 <= k < |interviews| ==> rows[|quizzes| + k] == InterviewRow(interviews[k])
    ensures forall k :: 0 <= k < |rows| ==> (rows[k].kind == Quiz <==> k < |quizzes|)
    ensures forall a, b :: 0 <= a < b < |rows| && rows[b].kind == Quiz ==> rows[a].kind == Quiz
    ensures forall k :: 0 <= k < |quizzes| ==>
      rows[k].id == quizzes[k].id && rows[k].options == quizzes[k].options &&
      rows[k].answer == quizzes[k].answer && rows[k].chapter == Some(MapThemeToChapter(quizzes[k].theme)) &&
      (quizzes[k].explanation.None? ==> rows[k].explanation == "")
    ensures forall k :: |quizzes| <= k < |rows| ==>
      rows[k].answer == "" && rows[k].options == [] && rows[k].explanation == "" && rows[k].chapter.None? &&
      rows[k].metadata.InterviewMetadata?
    ensures forall k :: 0 <= k < |interviews| && interviews[k].requiredFor.None? ==>
      rows[|quizzes| + k].metadata.requiredFor == []
  {
    forall k | |quizzes| <= k < |rows|
      ensures rows[k] == InterviewRow(interviews[k - |quizzes|])
    {
      assert rows[|quizzes| + (k - |quizzes|)] == InterviewRow(interviews[k - |quizzes|]);
    }
  }

  const BatchSize: nat := 50

  /** `forceMigration` after the schema is rebuilt: the rows and the
      batches they are upserted in. */
  method Migrate(quizzes: seq<QuizSource>, interviews: seq<InterviewSource>)
    returns (rows: seq<Row>, batches: seq<seq<Row>>)
    ensures |rows| == |quizzes| + |interviews|
    ensures forall k :: 0 <= k < |quizzes| ==> rows[k] == QuizRow(quizzes[k])
    ensures forall k :: 0 <= k < |interviews| ==> rows[|quizzes| + k] == InterviewRow(interviews[k])
    ensures Flatten(batches) == rows
    ensures forall k :: 0 <= k < |batches| ==> 0 < |batches[k]| <= BatchSize
    ensures |batches| == 0 <==> |rows| == 0
  {
    rows := BuildRows(quizzes, interviews);
    batches := Batches(rows, BatchSize);
  }
}

=== FILE: normalize.dfy ===
/**
  The text normaliser of the duplicate detector
  (scripts/detect_duplicates.ts): lower-case, delete a fixed set of
  punctuation characters, replace every run of two or more whitespace
  characters by one space, then trim. Its result has no stripped
  character, no two adjacent whitespace characters and no whitespace at
  either end, and normalising twice changes nothing.
 */
module Normalizer {
  import opened Text
  import opened Seqs

  /** The characters of the class `[.,\/#!$%\^&\*;:{}=\-_`~()]`. The question
      mark and the apostrophe are not among them. */
  predicate IsStripped(c: char)
  {
    c in {'.', ',', '/', '#', '!', '$', '%', '^', '&', '*', ';', ':', '{', '}', '=', '-', '_', '`', '~', '(', ')'}
  }

  /** No character of `s` is a stripped one. */
  predicate NoStripped(s: string)
  {
    forall i :: 0 <= i < |s| ==> !IsStripped(s[i])
  }

  /** No two adjacent characters of `s` are both whitespace. */
  predicate NoDoubleWhitespace(s: string)
  {
    forall i :: 0 <= i < |s| - 1 ==> !(IsWhitespace(s[i]) && IsWhitespace(s[i + 1]))
  }

  /** `replace(/[.,\/#!$%\^&\*;:{}=\-_`~()]/g, "")`. */
  function StripPunctuation(s: string): (r: string)
    ensures NoStripped(r)
    ensures |r| <= |s|
    ensures forall i :: 0 <= i < |r| ==> r[i] in s
    ensures NoStripped(s) ==> r == s
    ensures IsLower(s) ==> IsLower(r)
  {
    if |s| == 0 then []
    else if IsStripped(s[0]) then StripPunctuation(s[1..])
    else [s[0]] + StripPunctuation(s[1..])
  }

  /** The deletion works character by character: it distributes over
      concatenation, removes a character of the class and keeps any other. */
  lemma {:induction false} StripPunctuationIsCharwise(a: string, b: string, c: char)
    ensures StripPunctuation(a + b) == StripPunctuation(a) + StripPunctuation(b)
    ensures StripPunctuation([c]) == if IsStripped(c) then [] else [c]
    decreases |a|
  {
    assert [c][1..] == [];
    if |a| == 0 {
      assert a + b == b;
    } else {
      assert (a + b)[0] == a[0] && (a + b)[1..] == a[1..] + b;
      StripPunctuationIsCharwise(a[1..], b, c);
    }
  }

  /** Length of the whitespace run at the start of `s`. */
  function LeadingWhitespace(s: string): (k: nat)
    ensures k <= |s|
    ensures forall i :: 0 <= i < k ==> IsWhitespace(s[i])
    ensures k < |s| ==> !IsWhitespace(s[k])
  {
    if |s| > 0 && IsWhitespace(s[0]) then 1 + LeadingWhitespace(s[1..]) else 0
  }

  /** `replace(/\s{2,}/g, " ")`: scanning from the left, each maximal run of
      at least two whitespace characters becomes one space; a lone
      whitespace character stays as it is. */
  function CollapseWhitespace(s: string): (r: string)
    ensures |r| <= |s|
    ensures |s| == 0 <==> |r| == 0
    ensures |s| > 0 ==> (IsWhitespace(r[0]) <==> IsWhitespace(s[0]))
    ensures |s| > 0 && !IsWhitespace(s[0]) ==> r[0] == s[0]
    ensures |s| > 0 ==> (IsWhitespace(r[|r| - 1]) <==> IsWhitespace(s[|s| - 1]))
    ensures NoDoubleWhitespace(r)
    ensures NoStripped(s) ==> NoStripped(r)
    ensures IsLower(s) ==> IsLower(r)
    decreases |s|
  {
    if |s| == 0 then []
    else
      var k := LeadingWhitespace(s);
      var m := if k >= 2 then k else 1;
      var c, rest := if k >= 2 then ' ' else s[0], s[m..];
      var t := CollapseWhitespace(rest);
      CollapseStep(s, k, m, c, rest, t);
      [c] + t
  }

  /** The length of the leading whitespace run is the only `k` with its
      properties. */
  lemma LeadingWhitespaceUnique(s: string, k: nat)
    requires k <= |s|
    requires forall i :: 0 <= i < k ==> IsWhitespace(s[i])
    requires k < |s| ==> !IsWhitespace(s[k])
    ensures LeadingWhitespace(s) == k
  {
  }

  /** A whitespace run on its own: two or more characters become one space,
      a single one stays. */
  lemma CollapseRun(w: string)
    requires |w| > 0 && AllWhitespace(w)
    ensures CollapseWhitespace(w) == if |w| >= 2 then " " else w
  {
    LeadingWhitespaceUnique(w, |w|);
    assert w[|w|..] == [];
    assert CollapseWhitespace([]) == [];
  }

  /** One unfolding of the collapse, with the leading run named. */
  lemma CollapseUnfold(s: string, k: nat)
    requires |s| > 0 && k == LeadingWhitespace(s)
    ensures CollapseWhitespace(s) ==
      [if k >= 2 then ' ' else s[0]] + CollapseWhitespace(s[if k >= 2 then k else 1..])
  {
  }

  /** A leading run that ends inside `a` is the leading run of `a + b`. */
  lemma LeadingOfPrefix(a: string, b: string)
    requires LeadingWhitespace(a) < |a|
    ensures LeadingWhitespace(a + b) == LeadingWhitespace(a)
  {
    var k := LeadingWhitespace(a);
    assert forall i :: 0 <= i <= k ==> (a + b)[i] == a[i];
    LeadingWhitespaceUnique(a + b, k);
  }

  /** When `a` is all whitespace and `b` does not start with whitespace, the
      leading run of `a + b` is `a`. */
  lemma LeadingOfRun(a: string, b: string)
    requires LeadingWhitespace(a) == |a|
    requires |b| == 0 || !IsWhitespace(b[0])
    ensures LeadingWhitespace(a + b) == |a|
  {
    assert forall i :: 0 <= i < |a| ==> (a + b)[i] == a[i];
    assert |b| > 0 ==> (a + b)[|a|] == b[0];
    LeadingWhitespaceUnique(a + b, |a|);
  }

  /** The collapse works piecewise as long as the cut does not fall inside a
      whitespace run. */
  lemma {:induction false} CollapseAppend(a: string, b: string)
    requires |a| == 0 || |b| == 0 || !IsWhitespace(a[|a| - 1]) || !IsWhitespace(b[0])
    ensures CollapseWhitespace(a + b) == CollapseWhitespace(a) + CollapseWhitespace(b)
    decreases |a|
  {
    if |a| == 0 {
      assert a + b == b;
    } else if |b| == 0 {
      assert a + b == a;
    } else {
      var k := LeadingWhitespace(a);
      if k < |a| {
        var m := if k >= 2 then k else 1;
        assert |a[m..]| > 0 ==> a[m..][|a[m..]| - 1] == a[|a| - 1];
        CollapseAppend(a[m..], b);
        CollapseAppendStep(a, b, k, m);
      } else {
        CollapseAppendRun(a, b);
      }
    }
  }

  /** The inductive step of `CollapseAppend`: the leading run (or first
      character) of `a` ends inside `a`. */
  lemma CollapseAppendStep(a: string, b: string, k: nat, m: nat)
    requires |a| > 0 && k == LeadingWhitespace(a) && k < |a|
    requires m == if k >= 2 then k else 1
    requires CollapseWhitespace(a[m..] + b) == CollapseWhitespace(a[m..]) + CollapseWhitespace(b)
    ensures CollapseWhitespace(a + b) == CollapseWhitespace(a) + CollapseWhitespace(b)
  {
    var c := if k >= 2 then ' ' else a[0];
    SliceOfAppend(a, b, m);
    CollapseUnfold(a, k);
    LeadingOfPrefix(a, b);
    assert (a + b)[0] == a[0];
    CollapseUnfold(a + b, k);
    ConsAppend(c, CollapseWhitespace(a[m..]), CollapseWhitespace(b),
      CollapseWhitespace(a), CollapseWhitespace(a[m..] + b), CollapseWhitespace(a + b));
  }

  /** The base case of `CollapseAppend` in which `a` is one whitespace run. */
  lemma CollapseAppendRun(a: string, b: string)
    requires |a| > 0 && LeadingWhitespace(a) == |a|
    requires |b| == 0 || !IsWhitespace(b[0])
    ensures CollapseWhitespace(a + b) == CollapseWhitespace(a) + CollapseWhitespace(b)
  {
    var k := |a|;
    var m := if k >= 2 then k else 1;
    SliceOfAppend(a, b, m);
    CollapseUnfold(a, k);
    LeadingOfRun(a, b);
    assert (a + b)[0] == a[0];
    var c := if k >= 2 then ' ' else a[0];
    CollapseUnfold(a + b, k);
    assert a[m..] == [] && a[m..] + b == b;
    assert CollapseWhitespace(a[m..]) == [];
    assert CollapseWhitespace(a) == [c];
    assert CollapseWhitespace(a + b) == [c] + CollapseWhitespace(b);
  }

  /** Bookkeeping for the inductive step of `CollapseAppend`. */
  lemma ConsAppend(c: char, x: string, y: string, cx: string, xy: string, cxy: string)
    requires cx == [c] + x && xy == x + y && cxy == [c] + xy
    ensures cxy == cx + y
  {
    SeqAssoc([c], x, y);
  }

  /** Between two non-whitespace characters (or the ends of the text), a
      run of two or more whitespace characters becomes one space and a lone
      whitespace character stays; the text on either side is collapsed on
      its own. */
  lemma CollapseRunBetween(a: string, w: string, b: string)
    requires |w| > 0 && AllWhitespace(w)
    requires |a| == 0 || !IsWhitespace(a[|a| - 1])
    requires |b| == 0 || !IsWhitespace(b[0])
    ensures CollapseWhitespace(a + w + b) ==
      CollapseWhitespace(a) + (if |w| >= 2 then " " else w) + CollapseWhitespace(b)
  {
    SeqAssoc(a, w, b);
    assert (w + b)[0] == w[0];
    CollapseAppend(a, w + b);
    CollapseAppend(w, b);
    CollapseRun(w);
    SeqAssoc(CollapseWhitespace(a), CollapseWhitespace(w), CollapseWhitespace(b));
  }

  /** The collapse changes whitespace only: every other character stays, in
      order. */
  lemma {:induction false} CollapseKeepsVisible(s: string)
    ensures Visible(CollapseWhitespace(s)) == Visible(s)
    decreases |s|
  {
    if |s| > 0 {
      var k := LeadingWhitespace(s);
      var m := if k >= 2 then k else 1;
      var c := if k >= 2 then ' ' else s[0];
      assert CollapseWhitespace(s) == [c] + CollapseWhitespace(s[m..]);
      CollapseKeepsVisible(s[m..]);
      assert s == s[..m] + s[m..];
      VisibleAppend(s[..m], s[m..]);
      VisibleAppend([c], CollapseWhitespace(s[m..]));
      if k >= 2 {
        VisibleOfWhitespace(s[..m]);
        assert Visible([c]) == [] by {
          assert [c][1..] == [];
        }
      } else {
        assert s[..m] == [c];
      }
    }
  }

  /** One step of the collapse: the first character, or one space for a
      leading run of two or more whitespace characters, goes in front of the
      collapsed rest. */
  lemma CollapseStep(s: string, k: nat, m: nat, c: char, rest: string, t: string)
    requires 0 < |s| && k <= |s|
    requires forall i :: 0 <= i < k ==> IsWhitespace(s[i])
    requires k < |s| ==> !IsWhitespace(s[k])
    requires m == (if k >= 2 then k else 1) && c == (if k >= 2 then ' ' else s[0]) && rest == s[m..]
    requires |t| <= |rest| && (|rest| == 0 <==> |t| == 0)
    requires |rest| > 0 ==> (IsWhitespace(t[0]) <==> IsWhitespace(rest[0]))
    requires |rest| > 0 ==> (IsWhitespace(t[|t| - 1]) <==> IsWhitespace(rest[|rest| - 1]))
    requires NoDoubleWhitespace(t)
    requires NoStripped(rest) ==> NoStripped(t)
    requires IsLower(rest) ==> IsLower(t)
    ensures |[c] + t| <= |s|
    ensures IsWhitespace(([c] + t)[0]) <==> IsWhitespace(s[0])
    ensures !IsWhitespace(s[0]) ==> ([c] + t)[0] == s[0]
    ensures IsWhitespace(([c] + t)[|t|]) <==> IsWhitespace(s[|s| - 1])
    ensures NoDoubleWhitespace([c] + t)
    ensures NoStripped(s) ==> NoStripped([c] + t)
    ensures IsLower(s) ==> IsLower([c] + t)
  {
    SuffixKeepsProperties(s, m);
    Cons(c, t);
  }

  /** A suffix keeps the character-wise properties and the last character. */
  lemma SuffixKeepsProperties(s: string, m: nat)
    requires m <= |s|
    ensures m < |s| ==> s[m..][0] == s[m] && s[m..][|s| - m - 1] == s[|s| - 1]
    ensures NoStripped(s) ==> NoStripped(s[m..])
    ensures IsLower(s) ==> IsLower(s[m..])
  {
    forall i | 0 <= i < |s| - m ensures s[m..][i] == s[m + i] {}
  }

  /** Putting a character in front of a string keeps its properties, as long
      as no whitespace pair is created. */
  lemma Cons(c: char, t: string)
    requires !(IsWhitespace(c) && |t| > 0 && IsWhitespace(t[0]))
    requires NoDoubleWhitespace(t)
    ensures NoDoubleWhitespace([c] + t)
    ensures NoStripped(t) && !IsStripped(c) ==> NoStripped([c] + t)
    ensures IsLower(t) && LowerChar(c) == c ==> IsLower([c] + t)
  {
    var r := [c] + t;
    forall i | 1 <= i < |r| ensures r[i] == t[i - 1] {}
  }

  /** A string without adjacent whitespace is left unchanged by the
      collapsing step. */
  lemma {:induction false} CollapseNoop(s: string)
    requires NoDoubleWhitespace(s)
    ensures CollapseWhitespace(s) == s
    decreases |s|
  {
    if |s| > 0 {
      assert LeadingWhitespace(s) <= 1 by {
        if |s| > 1 && IsWhitespace(s[0]) {
          assert !IsWhitespace(s[1]);
        }
      }
      assert NoDoubleWhitespace(s[1..]) by {
        forall i | 0 <= i < |s[1..]| - 1
          ensures !(IsWhitespace(s[1..][i]) && IsWhitespace(s[1..][i + 1]))
        {
          assert s[1..][i] == s[i + 1] && s[1..][i + 1] == s[i + 2];
        }
      }
      CollapseNoop(s[1..]);
    }
  }

  /** The normalised comparison text of a question. */
  function Normalize(s: string): (r: string)
    ensures NoStripped(r)
    ensures NoDoubleWhitespace(r)
    ensures |r| > 0 ==> !IsWhitespace(r[0]) && !IsWhitespace(r[|r| - 1])
    ensures IsLower(r)
    ensures |r| <= |s|
    ensures Visible(r) == Visible(StripPunctuation(Lower(s)))
  {
    LowerIsLower(s);
    var collapsed := CollapseWhitespace(StripPunctuation(Lower(s)));
    TrimKeepsProperties(collapsed);
    CollapseKeepsVisible(StripPunctuation(Lower(s)));
    TrimKeepsVisible(collapsed);
    Trim(collapsed)
  }

  /** Trimming keeps the character-wise properties. */
  lemma TrimKeepsProperties(s: string)
    requires NoStripped(s) && NoDoubleWhitespace(s) && IsLower(s)
    ensures NoStripped(Trim(s)) && NoDoubleWhitespace(Trim(s)) && IsLower(Trim(s))
    ensures |Trim(s)| <= |s|
  {
    var t := TrimStart(s);
    var r := TrimEnd(t);
    TrimParts(s, t, r);
    assert Trim(s) == r;
    InfixKeepsProperties(s, r, |s| - |t|);
  }

  /** An infix of a string keeps the string's character-wise properties. */
  lemma InfixKeepsProperties(s: string, r: string, k: int)
    requires OccursAt(s, r, k)
    requires NoStripped(s) && NoDoubleWhitespace(s) && IsLower(s)
    ensures NoStripped(r) && NoDoubleWhitespace(r) && IsLower(r)
  {
    forall i | 0 <= i < |r|
      ensures r[i] == s[k + i]
    {
      assert r == s[k..k + |r|];
    }
  }

  /** Normalising an already normalised text changes nothing. */
  lemma NormalizeIdempotent(s: string)
    ensures Normalize(Normalize(s)) == Normalize(s)
  {
    var t := Normalize(s);
    LowerOfLower(t);
    CollapseNoop(t);
    TrimNoop(t);
  }
}

=== FILE: questions.dfy ===
/**
  The pure parts of the server actions in lib/actions/questions.ts: the
  page window and page count of `getQuestions`, the situation-first
  ordering of `getInterviewQuestions`, the id selection and the validity
  filter of `getRandomQuizQuestions`.
 */
module QuestionActions {
  import opened Seqs
  import Text

  // ---------------------------------------------------------------------
  // Pagination
  // ---------------------------------------------------------------------

  /** The inclusive row range requested for a page: `from = (page - 1) * limit`
      and `to = from + limit - 1`. */
  datatype Window = Window(from: int, to: int)

  function PageWindow(page: int, limit: int): Window
  {
    var from := (page - 1) * limit;
    Window(from, from + limit - 1)
  }

  /** A window spans `limit` positions, and the next page starts right
      after it. */
  lemma WindowsTile(page: int, limit: int)
    ensures PageWindow(page, limit).to - PageWindow(page, limit).from + 1 == limit
    ensures PageWindow(page + 1, limit).from == PageWindow(page, limit).to + 1
  {
    assert (page + 1 - 1) * limit == (page - 1) * limit + limit;
  }

  /** With a positive limit, every row position lies in the window of
      exactly one page, page `x / limit + 1`. */
  lemma PositionOnOnePage(x: nat, limit: int, page: int)
    requires limit > 0
    ensures PageWindow(x / limit + 1, limit).from <= x <= PageWindow(x / limit + 1, limit).to
    ensures PageWindow(page, limit).from <= x <= PageWindow(page, limit).to ==> page == x / limit + 1
  {
    var p := x / limit + 1;
    assert (p - 1) * limit == (x / limit) * limit;
    if PageWindow(page, limit).from <= x <= PageWindow(page, limit).to && page != p {
      if page < p {
        assert (page - 1) * limit + limit == page * limit;
        MulMonotone(page, p - 1, limit);
      } else {
        assert (p - 1) * limit + limit == p * limit;
        MulMonotone(p, page - 1, limit);
      }
    }
  }

  lemma MulMonotone(a: int, b: int, n: int)
    requires a <= b && n > 0
    ensures a * n <= b * n
  {
    assert b * n - a * n == (b - a) * n;
  }

  /** `count ? Math.ceil(count / limit) : 0`; a NULL count is `None`. */
  function TotalPages(count: Option<nat>, limit: int): (pages: nat)
    requires limit > 0
  {
    if count.None? || count.value == 0 then 0
    else (count.value + limit - 1) / limit
  }

  /** The page count is zero exactly without rows, and otherwise the least
      number of pages of `limit` rows that hold them all. */
  lemma TotalPagesIsCeiling(count: Option<nat>, limit: int)
    requires limit > 0
    ensures TotalPages(count, limit) == 0 <==> count.None? || count.value == 0
    ensures count.Some? && count.value > 0 ==>
      (TotalPages(count, limit) - 1) * limit < count.value <= TotalPages(count, limit) * limit
  {
    if count.Some? && count.value > 0 {
      var c, p := count.value, TotalPages(count, limit);
      assert c + limit - 1 == p * limit + (c + limit - 1) % limit;
      assert (p - 1) * limit == p * limit - limit;
    }
  }

  /** The last page's window holds the last row. */
  lemma LastPageHoldsLastRow(count: nat, limit: int)
    requires limit > 0 && count > 0
    ensures var w := PageWindow(TotalPages(Some(count), limit), limit);
      w.from <= count - 1 <= w.to
  {
    TotalPagesIsCeiling(Some(count), limit);
    var p := TotalPages(Some(count), limit);
    assert (p - 1) * limit + limit == p * limit;
  }

  // ---------------------------------------------------------------------
  // Situation-first ordering
  // ---------------------------------------------------------------------

  /** An interview question; `requiredFor` is `metadata.required_for`,
      absent for some rows. */
  datatype InterviewQuestion = InterviewQuestion(id: string, requiredFor: Option<seq<string>>)

  /** `(a.metadata as any)?.required_for || []`. */
  function RequiredFor(q: InterviewQuestion): seq<string>
  {
    if q.requiredFor.Some? then q.requiredFor.value else []
  }

  /** The question's list names the lower-cased situation. */
  predicate MatchesSituation(q: InterviewQuestion, situation: string)
  {
    Text.Lower(situation) in RequiredFor(q)
  }

  function Matcher(situation: string): InterviewQuestion -> bool
  {
    q => MatchesSituation(q, situation)
  }

  function NonMatcher(situation: string): InterviewQuestion -> bool
  {
    q => !MatchesSituation(q, situation)
  }

  /** The comparator over any yes/no key: an element with the key sorts
      before one without it, ties keep their order. */
  function KeyCompare<T>(a: T, b: T, key: T -> bool): int
  {
    if key(a) && !key(b) then -1
    else if !key(a) && key(b) then 1
    else 0
  }

  /** Stable insertion by the comparator: `x` goes before the first element
      it does not sort after. */
  function InsertBy<T>(x: T, t: seq<T>, key: T -> bool): seq<T>
  {
    if |t| == 0 || KeyCompare(x, t[0], key) <= 0 then [x] + t
    else [t[0]] + InsertBy(x, t[1..], key)
  }

  /** A stable sort by the comparator, as `Array.prototype.sort` is. */
  function SortBy<T>(xs: seq<T>, key: T -> bool): seq<T>
  {
    if |xs| == 0 then [] else InsertBy(xs[0], SortBy(xs[1..], key), key)
  }

  /** `getInterviewQuestions` after the fetch: without a situation (absent
      or empty) the list is returned as fetched; otherwise it is sorted by
      the situation comparator. */
  function Prioritize(qs: seq<InterviewQuestion>, situation: Option<string>): seq<InterviewQuestion>
  {
    if situation.None? || situation.value == "" then qs else SortBy(qs, Matcher(situation.value))
  }

  lemma NoSituationKeepsOrder(qs: seq<InterviewQuestion>, situation: Option<string>)
    requires situation.None? || situation.value == ""
    ensures Prioritize(qs, situation) == qs
  {
  }

  /** Inserting into a list already split into elements with and without
      the key keeps it split: an element with the key goes to the front,
      any other one right after the keyed part. */
  lemma InsertIntoPartition<T>(x: T, m: seq<T>, n: seq<T>, key: T -> bool)
    requires forall k :: 0 <= k < |m| ==> key(m[k])
    requires forall k :: 0 <= k < |n| ==> !key(n[k])
    ensures InsertBy(x, m + n, key) == if key(x) then [x] + m + n else m + [x] + n
  {
    if !key(x) {
      InsertAfterKeyed(x, m, n, key);
    }
  }

  lemma {:induction false} InsertAfterKeyed<T>(x: T, m: seq<T>, n: seq<T>, key: T -> bool)
    requires !key(x)
    requires forall k :: 0 <= k < |m| ==> key(m[k])
    requires forall k :: 0 <= k < |n| ==> !key(n[k])
    ensures InsertBy(x, m + n, key) == m + [x] + n
  {
    if |m| > 0 {
      var rest := m[1..];
      assert (m + n)[0] == m[0] && (m + n)[1..] == rest + n;
      InsertAfterKeyed(x, rest, n, key);
      assert [m[0]] + (rest + [x] + n) == m + [x] + n by {
        assert m == [m[0]] + rest;
      }
    } else {
      assert m + n == n;
      assert m + [x] + n == [x] + n;
    }
  }

  /** The sorted list is the elements with the key followed by the others,
      each part in input order; so it is a permutation of the input. */
  lemma {:induction false} SortIsStablePartition<T>(xs: seq<T>, key: T -> bool, other: T -> bool)
    requires forall x :: other(x) <==> !key(x)
    ensures SortBy(xs, key) == Filter(xs, key) + Filter(xs, other)
    ensures multiset(SortBy(xs, key)) == multiset(xs)
  {
    if |xs| > 0 {
      SortIsStablePartition(xs[1..], key, other);
      PartitionStep(xs, key, other);
    }
    FilterSplit(xs, key, other);
  }

  /** One step of the induction above: sorting the tail splits it, so
      inserting the head splits the whole list. */
  lemma PartitionStep<T>(xs: seq<T>, key: T -> bool, other: T -> bool)
    requires |xs| > 0
    requires forall x :: other(x) <==> !key(x)
    requires SortBy(xs[1..], key) == Filter(xs[1..], key) + Filter(xs[1..], other)
    ensures SortBy(xs, key) == Filter(xs, key) + Filter(xs, other)
  {
    var x, tail := xs[0], xs[1..];
    var m, n := Filter(tail, key), Filter(tail, other);
    InsertIntoPartition(x, m, n, key);
    var sorted := InsertBy(x, m + n, key);
    assert SortBy(xs, key) == sorted;
    if key(x) {
      assert Filter(xs, key) == [x] + m && Filter(xs, other) == n;
      assert sorted == ([x] + m) + n;
    } else {
      assert Filter(xs, key) == m && Filter(xs, other) == [x] + n;
      assert sorted == m + [x] + n;
      assert m + [x] + n == m + ([x] + n) by {
        SeqAssoc(m, [x], n);
      }
    }
  }

  /** With a situation, the questions that name it come first and the rest
      after, each part in fetched order; nothing is lost or added. */
  lemma PrioritizeIsStablePartition(qs: seq<InterviewQuestion>, situation: string)
    requires situation != ""
    ensures Prioritize(qs, Some(situation)) ==
      Filter(qs, Matcher(situation)) + Filter(qs, NonMatcher(situation))
    ensures multiset(Prioritize(qs, Some(situation))) == multiset(qs)
  {
    SortIsStablePartition(qs, Matcher(situation), NonMatcher(situation));
  }

  // ---------------------------------------------------------------------
  // Random quiz
  // ---------------------------------------------------------------------

  /** `Array.prototype.slice(0, end)`: a negative end counts from the back. */
  function SliceTo<T>(xs: seq<T>, end: int): (r: seq<T>)
    ensures var e := if end < 0 then (if |xs| + end < 0 then 0 else |xs| + end)
                     else (if end > |xs| then |xs| else end);
      r == xs[..e]
  {
    var e := if end < 0 then (if |xs| + end < 0 then 0 else |xs| + end)
             else (if end > |xs| then |xs| else end);
    xs[..e]
  }

  /** The ids asked for: a prefix of the shuffled ids of at most `limit`
      elements when `limit` is not negative. */
  function SelectIds(shuffledIds: seq<string>, limit: int): (ids: seq<string>)
  {
    SliceTo(shuffledIds, limit)
  }

  lemma SelectIdsBound(shuffledIds: seq<string>, limit: int)
    ensures limit >= 0 ==> |SelectIds(shuffledIds, limit)| <= limit
    ensures |SelectIds(shuffledIds, limit)| <= |shuffledIds|
    ensures forall k :: 0 <= k < |SelectIds(shuffledIds, limit)| ==> SelectIds(shuffledIds, limit)[k] == shuffledIds[k]
    ensures 0 <= limit <= |shuffledIds| ==> |SelectIds(shuffledIds, limit)| == limit
  {
  }

  /** The `options` column as fetched: absent or NULL, some non-array
      value, or an array of texts. */
  datatype OptionsField = Missing | NotArray | Array(items: seq<string>)

  datatype QuizRow = QuizRow(id: string, options: OptionsField)

  /** `q.options && Array.isArray(q.options) && q.options.length >= 2`. */
  predicate IsValidQuiz(q: QuizRow)
  {
    q.options.Array? && |q.options.items| >= 2
  }

  /** `(data || []).filter(...)`: the rows with at least two options, in
      fetched order. */
  function ValidQuestions(data: Option<seq<QuizRow>>): (r: seq<QuizRow>)
    ensures data.None? ==> r == []
    ensures forall k :: 0 <= k < |r| ==> r[k].options.Array? && |r[k].options.items| >= 2
    ensures data.Some? ==> forall k :: 0 <= k < |data.value| && IsValidQuiz(data.value[k]) ==> data.value[k] in r
    ensures data.Some? ==> multiset(r) <= multiset(data.value)
  {
    if data.None? then [] else Filter(data.value, IsValidQuiz)
  }
}

=== FILE: recycle.dfy ===
/**
  The junk-question recycler of scripts/recycle_junk.ts: every selected
  placeholder interview row is rewritten into a quiz taken from a fixed
  list of spare questions, used in order and cycled through again once the
  list is exhausted.
 */
module JunkRecycling {
  import opened Seqs
  import opened Statements

  datatype Spare = Spare(question: string, answer: string, options: seq<string>, theme: string)

  const SpareQuestions: seq<Spare> := [
    Spare("Quelle est la date de la fête nationale ?", "14 juillet",
      ["14 juillet", "1 mai", "11 novembre"], "Histoire"),
    Spare("Qui a écrit Les Misérables ?", "Victor Hugo",
      ["Victor Hugo", "Émile Zola", "Molière"], "Culture"),
    Spare("Quel est le plus haut sommet de France ?", "Le Mont Blanc",
      ["Le Mont Blanc", "Le Pic du Midi", "Le Puy de Dôme"], "Géographie"),
    Spare("En quelle année l'euro a-t-il remplacé le franc ?", "2002",
      ["2002", "2000", "1998"], "Histoire"),
    Spare("Combien de régions compte la France métropolitaine ?", "13",
      ["13", "22", "96"], "Géographie"),
    Spare("Qui habite au Palais de l'Élysée ?", "Le Président de la République",
      ["Le Président de la République", "Le Premier Ministre", "Le roi"], "Institutions"),
    Spare("Quelle est la devise de Paris ?", "Fluctuat nec mergitur",
      ["Fluctuat nec mergitur", "Liberté, Égalité, Fraternité", "Droit et devoir"], "Culture"),
    Spare("Quel monument se trouve au centre de la place de l'Étoile ?", "L'Arc de Triomphe",
      ["L'Arc de Triomphe", "La Tour Eiffel", "Le Panthéon"], "Culture"),
    Spare("Comment s'appelle l'hymne national ?", "La Marseillaise",
      ["La Marseillaise", "Le Chant du Départ", "L'Internationale"], "Symboles"),
    Spare("Qui a le pouvoir législatif ?", "Le Parlement",
      ["Le Parlement", "Le Gouvernement", "Le Président"], "Institutions"),
    Spare("Quelle est la monnaie de la France ?", "L'Euro",
      ["L'Euro", "Le Franc", "Le Dollar"], "Europe"),
    Spare("Où siège le Parlement européen ?", "Strasbourg",
      ["Strasbourg", "Bruxelles", "Paris"], "Europe"),
    Spare("Qui est le chef des armées ?", "Le Président de la République",
      ["Le Président de la République", "Le Ministre de la Défense", "Le Chef d'État-Major"], "Institutions"),
    Spare("En quelle année a été signée la Déclaration des Droits de l'Homme ?", "1789",
      ["1789", "1948", "1958"], "Histoire"),
    Spare("Quel fleuve traverse Paris ?", "La Seine",
      ["La Seine", "La Loire", "Le Rhône"], "Géographie")
  ]

  /** Each spare offers its own answer first among three options. */
  predicate WellFormedSpare(s: Spare)
  {
    |s.options| == 3 && s.options[0] == s.answer
  }

  lemma SpareQuestionsWellFormed()
    ensures |SpareQuestions| == 15
    ensures forall k :: 0 <= k < |SpareQuestions| ==> WellFormedSpare(SpareQuestions[k])
  {
  }

  /** A fetched row: id, question text and type. */
  datatype Row = Row(id: string, question: string, kind: string)

  /** The query's filter: the text is one of the three placeholder
      spellings and the row is an interview question. */
  predicate IsJunk(r: Row)
  {
    (r.question == "question" || r.question == "Question" || r.question == "jestion") && r.kind == "interview"
  }

  /** The rows the query returns, in table order. */
  function JunkQuery(rows: seq<Row>): (junk: seq<Row>)
    ensures forall k :: 0 <= k < |junk| ==> IsJunk(junk[k]) && junk[k] in rows
    ensures forall k :: 0 <= k < |rows| && IsJunk(rows[k]) ==> rows[k] in junk
  {
    Filter(rows, IsJunk)
  }

  /** The statement that turns one row into a spare quiz. */
  function SpareStatement(id: string, s: Spare): Update
  {
    Update(id, [
      Assignment("type", Text("quiz")),
      Assignment("question", Text(s.question)),
      Assignment("answer", Text(s.answer)),
      Assignment("options", TextArray(s.options)),
      Assignment("theme", Text(s.theme))])
  }

  /** The statement keeps the row's id and writes the spare's fields. */
  lemma SpareStatementReads(id: string, s: Spare)
    ensures SpareStatement(id, s).id == id
    ensures ValueOf(SpareStatement(id, s), "type") == Some(Text("quiz"))
    ensures ValueOf(SpareStatement(id, s), "question") == Some(Text(s.question))
    ensures ValueOf(SpareStatement(id, s), "answer") == Some(Text(s.answer))
    ensures ValueOf(SpareStatement(id, s), "options") == Some(TextArray(s.options))
    ensures ValueOf(SpareStatement(id, s), "theme") == Some(Text(s.theme))
  {
    var a := SpareStatement(id, s).assignments;
    assert "question"[0] != "type"[0] && "answer"[0] != "type"[0] && "options"[0] != "type"[0];
    assert "theme"[1] != "type"[1] && "answer"[0] != "question"[0] && "options"[0] != "question"[0];
    assert "theme"[0] != "question"[0] && "options"[0] != "answer"[0] && "theme"[0] != "answer"[0];
    assert "theme"[0] != "options"[0];
    assert Lookup(a, "question") == Lookup(a[1..], "question");
    assert Lookup(a, "answer") == Lookup(a[1..], "answer") == Lookup(a[2..], "answer");
    assert a[2..][1..] == a[3..] && a[1..][1..] == a[2..] && a[3..][1..] == a[4..];
    assert Lookup(a, "options") == Lookup(a[1..], "options") == Lookup(a[2..], "options") == Lookup(a[3..], "options");
    assert Lookup(a, "theme") == Lookup(a[1..], "theme") == Lookup(a[2..], "theme") == Lookup(a[3..], "theme")
      == Lookup(a[4..], "theme");
  }

  lemma SpareStatementMakesQuiz(id: string, s: Spare)
    requires WellFormedSpare(s)
    ensures MakesQuizWithOfferedAnswer(SpareStatement(id, s))
  {
    SpareStatementReads(id, s);
  }

  /** The `k`-th junk row gets spare number `k % |spares|`. */
  function Recycled(spares: seq<Spare>, junk: seq<Row>): (updates: seq<Update>)
    requires |spares| > 0
    ensures |updates| == |junk|
  {
    seq(|junk|, k requires 0 <= k < |junk| => SpareStatement(junk[k].id, spares[k % |spares|]))
  }

  /** Where the spare counter stands after `i` rows: it counts up and is
      reset to zero only when the next row needs a spare past the end. */
  lemma CounterWraps(i: nat, n: nat)
    requires n > 0
    ensures var used := if i == 0 then 0 else (i - 1) % n + 1;
      0 <= used <= n && (if used >= n then 0 else used) == i % n
  {
    if i > 0 {
      var q, r := (i - 1) / n, (i - 1) % n;
      assert i == q * n + r + 1;
      if r + 1 == n {
        assert i == (q + 1) * n;
        ModOfMultiple(q + 1, n);
      } else {
        ModOfSum(q, r + 1, n);
      }
    }
  }

  lemma ModOfMultiple(q: nat, n: nat)
    requires n > 0
    ensures (q * n) % n == 0
  {
    ModOfSum(q, 0, n);
  }

  /** `q * n + r` leaves the remainder `r` when `r < n`. */
  lemma ModOfSum(q: nat, r: nat, n: nat)
    requires r < n
    ensures (q * n + r) % n == r
  {
    var x := q * n + r;
    var q', r' := x / n, x % n;
    assert x == q' * n + r';
    assert (q - q') * n == r' - r;
    if q > q' {
      MulAtLeast(q - q', n);
    } else if q < q' {
      MulAtLeast(q' - q, n);
    }
  }

  lemma MulAtLeast(d: int, n: nat)
    requires d >= 1
    ensures d * n >= n
  {
  }

  /** The loop of `run`: before each row the counter is reset once it has
      run past the last spare, the row gets the spare under the counter,
      and the counter moves on. */
  method Recycle(spares: seq<Spare>, junk: seq<Row>) returns (updates: seq<Update>)
    requires |spares| > 0
    ensures updates == Recycled(spares, junk)
  {
    updates := [];
    var usedSpareIndex := 0;
    var i := 0;
    while i < |junk|
      invariant i <= |junk|
      invariant usedSpareIndex == if i == 0 then 0 else (i - 1) % |spares| + 1
      invariant |updates| == i
      invariant forall k :: 0 <= k < i ==> updates[k] == SpareStatement(junk[k].id, spares[k % |spares|])
    {
      CounterWraps(i, |spares|);
      if usedSpareIndex >= |spares| {
        usedSpareIndex := 0;
      }
      var spare := spares[usedSpareIndex];
      updates := updates + [SpareStatement(junk[i].id, spare)];
      usedSpareIndex := usedSpareIndex + 1;
      assert usedSpareIndex == i % |spares| + 1;
      i := i + 1;
    }
  }

  /** Rows `k` and `k + |spares|` get the same spare: the list is cycled. */
  lemma CycleRepeats(spares: seq<Spare>, junk: seq<Row>, k: nat)
    requires |spares| > 0 && k + |spares| < |junk|
    ensures ValueOf(Recycled(spares, junk)[k], "question") == ValueOf(Recycled(spares, junk)[k + |spares|], "question")
    ensures Recycled(spares, junk)[k].assignments == Recycled(spares, junk)[k + |spares|].assignments
  {
    var n := |spares|;
    assert k + n == (k / n + 1) * n + k % n;
    ModOfSum(k / n + 1, k % n, n);
  }

  /** With at least as many junk rows as spares, every spare is used. */
  lemma EverySpareUsed(spares: seq<Spare>, junk: seq<Row>, s: nat)
    requires |spares| > 0 && |spares| <= |junk| && s < |spares|
    ensures exists k :: 0 <= k < |junk| && Recycled(spares, junk)[k] == SpareStatement(junk[k].id, spares[s])
  {
    ModOfSum(0, s, |spares|);
    assert Recycled(spares, junk)[s] == SpareStatement(junk[s].id, spares[s]);
  }

  /** Every statement makes a quiz whose answer is among its options. */
  lemma RecycledMakeQuizzes(spares: seq<Spare>, junk: seq<Row>)
    requires |spares| > 0 && forall k :: 0 <= k < |spares| ==> WellFormedSpare(spares[k])
    ensures AllMakeQuizzes(Recycled(spares, junk))
  {
    var updates := Recycled(spares, junk);
    forall k | 0 <= k < |updates| ensures MakesQuizWithOfferedAnswer(updates[k]) {
      SpareStatementMakesQuiz(junk[k].id, spares[k % |spares|]);
    }
  }

  const Header: string := "-- Recycling Junk Questions into Valid Quizzes\n"

  /** The statements one after the other, each opening with its own line
      break. */
  function Concat(updates: seq<Update>): string
  {
    if |updates| == 0 then "" else RenderUpdate(updates[0]) + Concat(updates[1..])
  }

  /** `run` over the rows the query returned, with the script's spares. */
  method Run(junk: seq<Row>) returns (updates: seq<Update>, sql: string)
    ensures updates == Recycled(SpareQuestions, junk)
    ensures |updates| == |junk|
    ensures forall k :: 0 <= k < |junk| ==> updates[k].id == junk[k].id
    ensures AllMakeQuizzes(updates)
    ensures sql == Header + Concat(updates)
  {
    SpareQuestionsWellFormed();
    updates := Recycle(SpareQuestions, junk);
    RecycledMakeQuizzes(SpareQuestions, junk);
    sql := Header + Concat(updates);
  }
}

=== FILE: reformat_ids.dfy ===
/**
  The id rewrite of scripts/reformat_ids_v2.ts: every question gets a fresh
  random eight-digit id, redrawn until it is unused; the rows are copied
  with the new id and a new `updated_at`; the saved user progress is
  re-pointed at the new ids; the new rows are inserted in batches of one
  hundred.

  `Math.random()` is a draw `k / 2^53` with `0 <= k < 2^53`; the run takes
  the successive `k`s as an input sequence.
 */
module IdReformat {
  import opened Seqs
  import Text

  // ---------------------------------------------------------------------
  // Random ids
  // ---------------------------------------------------------------------

  /** The denominator of a `Math.random()` draw. */
  const RandomScale: nat := 0x20_0000_0000_0000

  const LowestId: nat := 10000000
  const IdSpan: nat := 90000000

  /** `Math.floor(10000000 + Math.random() * 90000000)` for the draw
      `k / RandomScale`. */
  function IdNumber(k: nat): (n: nat)
    requires k < RandomScale
    ensures LowestId <= n < LowestId + IdSpan
  {
    assert k * IdSpan < RandomScale * IdSpan;
    LowestId + k * IdSpan / RandomScale
  }

  /** `generateId()`: the numeral of the drawn number. */
  function GenerateId(k: nat): (id: string)
    requires k < RandomScale
  {
    Text.Decimal(IdNumber(k))
  }

  /** What an id made by `generateId` looks like: eight digits, the first
      not zero, denoting a number from 10000000 to 99999999. */
  predicate IsGeneratedId(id: string)
  {
    |id| == 8 && (forall i :: 0 <= i < |id| ==> Text.IsDigit(id[i])) &&
    LowestId <= Text.DecimalValue(id) <= 99999999
  }

  lemma GeneratedIdShape(k: nat)
    requires k < RandomScale
    ensures IsGeneratedId(GenerateId(k))
    ensures Text.DecimalValue(GenerateId(k)) == IdNumber(k)
  {
    var n := IdNumber(k);
    assert Text.Pow10(7) == LowestId && Text.Pow10(8) == 100000000 by {
      assert Text.Pow10(1) == 10 && Text.Pow10(2) == 100 && Text.Pow10(3) == 1000 && Text.Pow10(4) == 10000;
      assert Text.Pow10(5) == 100000 && Text.Pow10(6) == 1000000;
    }
    Text.DecimalLength(n, 7);
    Text.DecimalRoundTrip(n);
  }

  /** Both ends of the range are reached: the smallest draw gives 10000000
      and the largest 99999999. */
  lemma IdRangeEnds()
    ensures IdNumber(0) == LowestId
    ensures IdNumber(RandomScale - 1) == 99999999
  {
  }

  // ---------------------------------------------------------------------
  // The renumbering loop
  // ---------------------------------------------------------------------

  /** A fetched row: its id, its `updated_at`, and the other columns, which
      the script copies unchanged. */
  datatype Question = Question(id: string, updatedAt: string, columns: map<string, string>)

  /** Different keys map to different values. */
  predicate Injective(m: map<string, string>)
  {
    forall a, b :: a in m && b in m && a != b ==> m[a] != m[b]
  }

  predicate AllGenerated(ids: seq<string>)
  {
    forall k :: 0 <= k < |ids| ==> IsGeneratedId(ids[k])
  }

  /** The old ids, in row order. */
  function OldIds(questions: seq<Question>): (ids: seq<string>)
    ensures |ids| == |questions|
    ensures forall k :: 0 <= k < |questions| ==> ids[k] == questions[k].id
  {
    seq(|questions|, k requires 0 <= k < |questions| => questions[k].id)
  }

  /** Row `k` is the last of the first `i` rows with its old id. */
  predicate LastWithId(questions: seq<Question>, k: nat, i: nat)
    requires k < i <= |questions|
  {
    forall j :: k < j < i ==> questions[j].id != questions[k].id
  }

  /** The entry of an old id is the new id of its last occurrence among
      the first `i` rows. */
  predicate LastOccurrenceWins(questions: seq<Question>, newIds: seq<string>, idMap: map<string, string>, i: nat)
    requires i <= |questions| && i <= |newIds|
  {
    forall k :: 0 <= k < i && LastWithId(questions, k, i) ==>
      questions[k].id in idMap && idMap[questions[k].id] == newIds[k]
  }

  /** What holds after the first `i` rows: the set of used ids is the set
      of new ids, the new ids are distinct and all generated, the map has
      the old ids of those rows as keys and used ids as values, is
      injective, and the last occurrence of an old id wins. */
  ghost predicate LoopState(questions: seq<Question>, i: nat, newIds: seq<string>,
                      idMap: map<string, string>, usedIds: set<string>)
  {
    i <= |questions| && |newIds| == i &&
    (forall x :: x in usedIds <==> x in newIds) &&
    Distinct(newIds) && AllGenerated(newIds) &&
    (forall key :: key in idMap <==> key in OldIds(questions)[..i]) &&
    (forall key :: key in idMap ==> idMap[key] in usedIds) &&
    Injective(idMap) &&
    LastOccurrenceWins(questions, newIds, idMap, i)
  }

  lemma StepDistinct(newIds: seq<string>, newId: string)
    requires Distinct(newIds) && newId !in newIds
    ensures Distinct(newIds + [newId])
  {
    var ids := newIds + [newId];
    forall a, b | 0 <= a < b < |ids| ensures ids[a] != ids[b] {
      if b == |newIds| {
        assert ids[a] == newIds[a];
      } else {
        assert ids[a] == newIds[a] && ids[b] == newIds[b];
      }
    }
  }

  lemma StepGenerated(newIds: seq<string>, newId: string)
    requires AllGenerated(newIds) && IsGeneratedId(newId)
    ensures AllGenerated(newIds + [newId])
  {
    var ids := newIds + [newId];
    forall k | 0 <= k < |ids| ensures IsGeneratedId(ids[k]) {
      if k < |newIds| {
        assert ids[k] == newIds[k];
      }
    }
  }

  lemma StepInjective(idMap: map<string, string>, usedIds: set<string>, key: string, newId: string,
                      m: map<string, string>)
    requires Injective(idMap) && newId !in usedIds
    requires forall k :: k in idMap ==> idMap[k] in usedIds
    requires m == idMap[key := newId]
    ensures Injective(m)
    ensures forall k :: k in m ==> m[k] in usedIds + {newId}
  {
  }

  lemma StepLast(questions: seq<Question>, newIds: seq<string>, idMap: map<string, string>, i: nat, newId: string)
    requires i < |questions| && |newIds| == i
    requires LastOccurrenceWins(questions, newIds, idMap, i)
    ensures LastOccurrenceWins(questions, newIds + [newId], idMap[questions[i].id := newId], i + 1)
  {
    var ids, m := newIds + [newId], idMap[questions[i].id := newId];
    forall k | 0 <= k < i + 1 && LastWithId(questions, k, i + 1)
      ensures questions[k].id in m && m[questions[k].id] == ids[k]
    {
      if k < i {
        assert questions[i].id != questions[k].id;
        assert LastWithId(questions, k, i);
        assert ids[k] == newIds[k];
      }
    }
  }

  lemma StepKeys(questions: seq<Question>, idMap: map<string, string>, i: nat, newId: string,
                 m: map<string, string>)
    requires i < |questions|
    requires forall key :: key in idMap <==> key in OldIds(questions)[..i]
    requires m == idMap[questions[i].id := newId]
    ensures forall key :: key in m <==> key in OldIds(questions)[..i + 1]
  {
    assert OldIds(questions)[..i + 1] == OldIds(questions)[..i] + [questions[i].id];
  }

  /** One pass of the outer loop with an unused id keeps the loop's facts. */
  lemma Step(questions: seq<Question>, i: nat, newIds: seq<string>,
             idMap: map<string, string>, usedIds: set<string>, newId: string)
    requires LoopState(questions, i, newIds, idMap, usedIds) && i < |questions|
    requires newId !in usedIds && IsGeneratedId(newId)
    ensures LoopState(questions, i + 1, newIds + [newId], idMap[questions[i].id := newId], usedIds + {newId})
  {
    StepDistinct(newIds, newId);
    StepGenerated(newIds, newId);
    var m := idMap[questions[i].id := newId];
    StepInjective(idMap, usedIds, questions[i].id, newId, m);
    StepLast(questions, newIds, idMap, i, newId);
    StepKeys(questions, idMap, i, newId, m);
  }

  /** The result of the loop, or `OutOfDraws` when the supplied draws end
      while the loop still needs one. */
  datatype Outcome =
    | Renumbered(newQuestions: seq<Question>, newIds: seq<string>, idMap: map<string, string>, drawsUsed: nat)
    | OutOfDraws

  /** The copy of a row under its new id: `{...q, id: newId, updated_at: stamp}`. */
  function Copy(q: Question, newId: string, stamp: string): Question
  {
    q.(id := newId, updatedAt := stamp)
  }

  /** The first draw and the redraw `while (usedIds.has(newId))` loop:
      draws from position `start` on until one gives an id not used yet.
      `found` is false when the draws run out first; every draw passed over
      gave a used id. */
  method DrawUnused(draws: seq<nat>, start: nat, used: set<string>)
    returns (newId: string, next: nat, found: bool)
    requires start <= |draws|
    requires forall k :: 0 <= k < |draws| ==> draws[k] < RandomScale
    ensures start <= next <= |draws|
    ensures found ==> start < next && newId == GenerateId(draws[next - 1]) && newId !in used
    ensures found ==> IsGeneratedId(newId)
    ensures !found ==> next == |draws|
    ensures forall k :: start <= k < next - 1 ==> GenerateId(draws[k]) in used
    ensures !found ==> forall k :: start <= k < |draws| ==> GenerateId(draws[k]) in used
  {
    next := start;
    while next < |draws|
      invariant start <= next <= |draws|
      invariant forall k :: start <= k < next ==> GenerateId(draws[k]) in used
    {
      newId := GenerateId(draws[next]);
      next := next + 1;
      if newId !in used {
        GeneratedIdShape(draws[next - 1]);
        return newId, next, true;
      }
    }
    return "", next, false;
  }

  /** Each new question is the copy of the question at its position, under
      the new id and with the time stamp at that position. */
  ghost predicate Copies(questions: seq<Question>, newIds: seq<string>, newQuestions: seq<Question>, stamps: seq<string>)
  {
    |newQuestions| <= |questions| && |newQuestions| <= |newIds| && |newQuestions| <= |stamps| &&
    forall k :: 0 <= k < |newQuestions| ==> newQuestions[k] == Copy(questions[k], newIds[k], stamps[k])
  }

  lemma CopyStep(questions: seq<Question>, newIds: seq<string>, newQuestions: seq<Question>, stamps: seq<string>,
                 newId: string)
    requires Copies(questions, newIds, newQuestions, stamps)
    requires |newQuestions| == |newIds| < |questions| == |stamps|
    ensures Copies(questions, newIds + [newId],
                   newQuestions + [Copy(questions[|newQuestions|], newId, stamps[|newQuestions|])], stamps)
  {
  }

  /** The loop over the questions with its inner redraw loop. `stamps[k]`
      is the clock reading `new Date().toISOString()` taken for row `k`. */
  method Renumber(questions: seq<Question>, draws: seq<nat>, stamps: seq<string>) returns (outcome: Outcome)
    requires forall k :: 0 <= k < |draws| ==> draws[k] < RandomScale
    requires |stamps| == |questions|
    ensures outcome.Renumbered? ==>
      |outcome.newQuestions| == |questions| && |outcome.newIds| == |questions| &&
      (forall k :: 0 <= k < |questions| ==>
         outcome.newQuestions[k] == Copy(questions[k], outcome.newIds[k], stamps[k])) &&
      AllGenerated(outcome.newIds) && Distinct(outcome.newIds) && Injective(outcome.idMap) &&
      (forall key :: key in outcome.idMap <==> key in OldIds(questions)) &&
      (forall key :: key in outcome.idMap ==> outcome.idMap[key] in outcome.newIds) &&
      LastOccurrenceWins(questions, outcome.newIds, outcome.idMap, |questions|) &&
      |questions| <= outcome.drawsUsed <= |draws|
  {
    var newQuestions: seq<Question> := [];
    var newIds: seq<string> := [];
    var idMap: map<string, string> := map[];
    var usedIds: set<string> := {};
    var pos := 0;
    for i := 0 to |questions|
      invariant i <= pos <= |draws|
      invariant LoopState(questions, i, newIds, idMap, usedIds)
      invariant |newQuestions| == i && Copies(questions, newIds, newQuestions, stamps)
    {
      var newId, next, found := DrawUnused(draws, pos, usedIds);
      if !found {
        return OutOfDraws;
      }
      pos := next;
      Step(questions, i, newIds, idMap, usedIds, newId);
      CopyStep(questions, newIds, newQuestions, stamps, newId);
      usedIds := usedIds + {newId};
      idMap := idMap[questions[i].id := newId];
      newQuestions := newQuestions + [Copy(questions[i], newId, stamps[i])];
      newIds := newIds + [newId];
    }
    assert OldIds(questions)[..|questions|] == OldIds(questions);
    return Renumbered(newQuestions, newIds, idMap, pos);
  }

  // ---------------------------------------------------------------------
  // User progress
  // ---------------------------------------------------------------------

  /** A saved progress entry: its own id, the question it refers to, and
      the other columns. */
  datatype Progress = Progress(id: string, moduleId: string, columns: map<string, string>)

  /** The loop over the saved entries: an entry whose module id maps to a
      new id (a non-empty one, as `if (newModuleId)` asks) is kept under
      that id, the others are dropped. */
  function Remapped(progress: seq<Progress>, idMap: map<string, string>): (r: seq<Progress>)
    ensures |r| <= |progress|
  {
    if |progress| == 0 then []
    else
      var p := progress[|progress| - 1];
      Remapped(progress[..|progress| - 1], idMap) +
      (if p.moduleId in idMap && |idMap[p.moduleId]| > 0 then [p.(moduleId := idMap[p.moduleId])] else [])
  }

  /** The entries the map knows. */
  function Mapped(idMap: map<string, string>): Progress -> bool
  {
    (p: Progress) => p.moduleId in idMap
  }

  /** The entries with their module id looked up in the map. */
  function Relabel(progress: seq<Progress>, idMap: map<string, string>): (r: seq<Progress>)
    requires forall k :: 0 <= k < |progress| ==> progress[k].moduleId in idMap
    ensures |r| == |progress|
  {
    seq(|progress|, k requires 0 <= k < |progress| => progress[k].(moduleId := idMap[progress[k].moduleId]))
  }

  /** With non-empty new ids, the kept entries are exactly those whose
      module id is an old id, in their order, each changed only in its
      module id, which becomes the mapped new id. */
  lemma {:induction false} RemappedIsRelabelledFilter(progress: seq<Progress>, idMap: map<string, string>)
    requires forall key :: key in idMap ==> |idMap[key]| > 0
    ensures Remapped(progress, idMap) == Relabel(Filter(progress, Mapped(idMap)), idMap)
  {
    if |progress| > 0 {
      var init, p := progress[..|progress| - 1], progress[|progress| - 1];
      RemappedIsRelabelledFilter(init, idMap);
      var f, last := Filter(init, Mapped(idMap)), Filter([p], Mapped(idMap));
      assert Filter(progress, Mapped(idMap)) == f + last by {
        assert progress == init + [p];
        FilterAppend(init, [p], Mapped(idMap));
      }
      RelabelAppend(f, last, idMap);
      assert Relabel(last, idMap) ==
        if p.moduleId in idMap then [p.(moduleId := idMap[p.moduleId])] else [];
    }
  }

  lemma RelabelAppend(a: seq<Progress>, b: seq<Progress>, idMap: map<string, string>)
    requires forall k :: 0 <= k < |a| ==> a[k].moduleId in idMap
    requires forall k :: 0 <= k < |b| ==> b[k].moduleId in idMap
    ensures Relabel(a + b, idMap) == Relabel(a, idMap) + Relabel(b, idMap)
  {
  }

  /** The progress table after the run: `None` when it is left alone
      (nothing was saved, or the saved list is empty), otherwise the
      remapped entries. The saved entries are taken to be deleted first; the
      delete's filter that spares an entry whose id is the all-zero UUID is
      not modelled. */
  function ProgressAfter(saved: Option<seq<Progress>>, idMap: map<string, string>): (table: Option<seq<Progress>>)
    ensures table.None? <==> saved.None? || |saved.value| == 0
  {
    if saved.Some? && |saved.value| > 0 then Some(Remapped(saved.value, idMap)) else None
  }

  // ---------------------------------------------------------------------
  // The run
  // ---------------------------------------------------------------------

  const BatchSize: nat := 100

  /** `reformatIdsV2` after the fetches: the renumbering, the insert
      batches and the new progress table. */
  method Reformat(questions: seq<Question>, draws: seq<nat>, stamps: seq<string>, saved: Option<seq<Progress>>)
    returns (outcome: Outcome, batches: seq<seq<Question>>, progress: Option<seq<Progress>>)
    requires forall k :: 0 <= k < |draws| ==> draws[k] < RandomScale
    requires |stamps| == |questions|
    ensures outcome.Renumbered? ==>
      Flatten(batches) == outcome.newQuestions &&
      |Flatten(batches)| == |questions| && |outcome.newIds| == |questions| &&
      (forall k :: 0 <= k < |questions| ==>
         Flatten(batches)[k] == Copy(questions[k], outcome.newIds[k], stamps[k])) &&
      (forall k :: 0 <= k < |batches| ==> 0 < |batches[k]| <= BatchSize) &&
      progress == ProgressAfter(saved, outcome.idMap)
    ensures outcome.Renumbered? && saved.Some? && |saved.value| > 0 ==>
      progress == Some(Relabel(Filter(saved.value, Mapped(outcome.idMap)), outcome.idMap))
    ensures outcome.OutOfDraws? ==> batches == [] && progress.None?
  {
    outcome := Renumber(questions, draws, stamps);
    if outcome.OutOfDraws? {
      return outcome, [], None;
    }
    batches := Batches(outcome.newQuestions, BatchSize);
    progress := ProgressAfter(saved, outcome.idMap);
    forall key | key in outcome.idMap ensures |outcome.idMap[key]| > 0 {
      var k :| 0 <= k < |outcome.newIds| && outcome.newIds[k] == outcome.idMap[key];
      assert IsGeneratedId(outcome.newIds[k]);
    }
    if saved.Some? && |saved.value| > 0 {
      RemappedIsRelabelledFilter(saved.value, outcome.idMap);
    }
  }
}

=== FILE: seqs.dfy ===
/**
  Sequence helpers shared by the scripts: an optional value, concatenation
  of a sequence of sequences, and the fixed-size batching loop
  `for (i = 0; i < xs.length; i += size) batch = xs.slice(i, i + size)`
  that several scripts use before sending rows or ids to the database.
 */
module Seqs {

  datatype Option<T> = None | Some(value: T)

  /** Concatenation of all parts, in order. */
  function Flatten<T>(parts: seq<seq<T>>): seq<T>
  {
    if |parts| == 0 then [] else Flatten(parts[..|parts| - 1]) + parts[|parts| - 1]
  }

  lemma FlattenAppend<T>(parts: seq<seq<T>>, last: seq<T>)
    ensures Flatten(parts + [last]) == Flatten(parts) + last
  {
    assert (parts + [last])[..|parts|] == parts;
  }

  lemma SeqAssoc<T>(a: seq<T>, b: seq<T>, c: seq<T>)
    ensures a + b + c == a + (b + c)
  {
  }

  /** No element occurs twice. */
  predicate Distinct<T(==)>(xs: seq<T>)
  {
    forall i, j :: 0 <= i < j < |xs| ==> xs[i] != xs[j]
  }

  lemma SliceOfAppend<T>(a: seq<T>, b: seq<T>, m: nat)
    requires m <= |a|
    ensures (a + b)[m..] == a[m..] + b
  {
  }

  /** The batching loop. Every batch is non-empty and holds at most `size`
      elements, all but the last hold exactly `size`, there are as few
      batches as that allows, and the batches put back together give the
      input in order. */
  method Batches<T>(xs: seq<T>, size: nat) returns (batches: seq<seq<T>>)
    requires size > 0
    ensures Flatten(batches) == xs
    ensures forall k :: 0 <= k < |batches| ==> 0 < |batches[k]| <= size
    ensures forall k :: 0 <= k < |batches| - 1 ==> |batches[k]| == size
    ensures (|batches| - 1) * size < |xs| <= |batches| * size
  {
    batches := [];
    var i := 0;
    while i < |xs|
      invariant i == Times(|batches|, size)
      invariant |batches| > 0 ==> i - size < |xs|
      invariant Flatten(batches) == xs[..if i <= |xs| then i else |xs|]
      invariant forall k :: 0 <= k < |batches| ==> 0 < |batches[k]| <= size
      invariant forall k :: 0 <= k < |batches| ==> |batches[k]| == size || i >= |xs|
      invariant forall k :: 0 <= k < |batches| - 1 ==> |batches[k]| == size
      decreases |xs| - i
    {
      var end := if i + size <= |xs| then i + size else |xs|;
      var batch := xs[i..end];
      FlattenAppend(batches, batch);
      assert xs[..i] + batch == xs[..end];
      batches := batches + [batch];
      i := i + size;
    }
    TimesIsProduct(|batches|, size);
    assert xs[..|xs|] == xs;
  }

  /** `n * size`, written as repeated addition for the loop above. */
  function Times(n: nat, size: nat): (r: nat)
  {
    if n == 0 then 0 else Times(n - 1, size) + size
  }

  lemma {:induction false} TimesIsProduct(n: nat, size: nat)
    ensures Times(n, size) == n * size
    ensures (n - 1) * size == Times(n, size) - size
  {
    if n > 0 {
      TimesIsProduct(n - 1, size);
    }
  }


  /** The elements of `xs` satisfying `p`, in their original order
      (`Array.prototype.filter`). */
  function Filter<T>(xs: seq<T>, p: T -> bool): (r: seq<T>)
    ensures |r| <= |xs|
    ensures forall i :: 0 <= i < |r| ==> p(r[i]) && r[i] in xs
    ensures forall i :: 0 <= i < |xs| && p(xs[i]) ==> xs[i] in r
    ensures multiset(r) <= multiset(xs)
  {
    if |xs| == 0 then []
    else
      assert xs == [xs[0]] + xs[1..];
      if p(xs[0]) then [xs[0]] + Filter(xs[1..], p)
      else Filter(xs[1..], p)
  }

  lemma {:induction false} FilterAppend<T>(xs: seq<T>, ys: seq<T>, p: T -> bool)
    ensures Filter(xs + ys, p) == Filter(xs, p) + Filter(ys, p)
  {
    if |xs| > 0 {
      assert (xs + ys)[1..] == xs[1..] + ys;
      FilterAppend(xs[1..], ys, p);
    } else {
      assert xs + ys == ys;
    }
  }

  /** A filter and the filter by the opposite predicate split the input:
      together they hold every element exactly as often as the input does. */
  lemma {:induction false} FilterSplit<T>(xs: seq<T>, p: T -> bool, q: T -> bool)
    requires forall x :: q(x) <==> !p(x)
    ensures multiset(Filter(xs, p)) + multiset(Filter(xs, q)) == multiset(xs)
    ensures |Filter(xs, p)| + |Filter(xs, q)| == |xs|
  {
    if |xs| > 0 {
      FilterSplit(xs[1..], p, q);
      assert xs == [xs[0]] + xs[1..];
    }
  }
}

=== FILE: sql.dfy ===
/**
  Quoting of text values in generated SQL. The conversion scripts put every
  text value between single quotes after `s.replace(/'/g, "''")`, so that a
  quote inside the value is written twice and the first lone quote ends the
  literal. `ReadLiteral` is the reading a SQL lexer makes of such a literal;
  the lemmas show it recovers exactly the original value.
 */
module Sql {

  import opened Seqs

  const Quote: char := '\''

  /** Number of single quotes in `s`. */
  function CountQuotes(s: string): nat
  {
    if |s| == 0 then 0 else (if s[0] == Quote then 1 else 0) + CountQuotes(s[1..])
  }

  /** `s.replace(/'/g, "''")`: every single quote written twice. */
  function Escape(s: string): (r: string)
    ensures |r| == |s| + CountQuotes(s)
    ensures CountQuotes(r) == 2 * CountQuotes(s)
    ensures NoLoneQuote(r)
  {
    if |s| == 0 then []
    else if s[0] == Quote then [Quote, Quote] + Escape(s[1..])
    else [s[0]] + Escape(s[1..])
  }

  /** Quotes only ever occur in adjacent pairs, read from the left. */
  predicate NoLoneQuote(t: string)
  {
    if |t| == 0 then true
    else if t[0] == Quote then |t| >= 2 && t[1] == Quote && NoLoneQuote(t[2..])
    else NoLoneQuote(t[1..])
  }

  /** `t.replace(/''/g, "'")`: collapses each doubled quote, left to right. */
  function Unescape(t: string): (r: string)
    ensures |r| <= |t|
  {
    if |t| >= 2 && t[0] == Quote && t[1] == Quote then [Quote] + Unescape(t[2..])
    else if |t| == 0 then []
    else [t[0]] + Unescape(t[1..])
  }

  /** Collapsing the doubled quotes of an escaped value gives the value back. */
  lemma {:induction false} UnescapeEscape(s: string)
    ensures Unescape(Escape(s)) == s
  {
    if |s| > 0 {
      UnescapeEscape(s[1..]);
      if s[0] == Quote {
        assert Escape(s)[2..] == Escape(s[1..]);
      } else {
        assert Escape(s)[1..] == Escape(s[1..]);
      }
    }
  }

  /** Escaping is a bijection onto the strings without a lone quote. */
  lemma {:induction false} EscapeUnescape(t: string)
    requires NoLoneQuote(t)
    ensures Escape(Unescape(t)) == t
  {
    if |t| >= 2 && t[0] == Quote && t[1] == Quote {
      EscapeUnescape(t[2..]);
      assert t == [Quote, Quote] + t[2..];
    } else if |t| > 0 {
      EscapeUnescape(t[1..]);
      assert t == [t[0]] + t[1..];
    }
  }

  /** A text value as it appears in the generated SQL. */
  function Literal(s: string): (r: string)
    ensures |r| == |s| + CountQuotes(s) + 2
    ensures r[0] == Quote && r[|r| - 1] == Quote
  {
    [Quote] + Escape(s) + [Quote]
  }

  /** Reads the body of a literal whose opening quote has been consumed:
      a doubled quote stands for one quote, the first lone quote closes the
      literal. Returns the value and the text after the closing quote, or
      None when the input ends first. */
  function ReadLiteral(t: string): Option<(string, string)>
  {
    if |t| == 0 then None
    else if t[0] == Quote then
      if |t| >= 2 && t[1] == Quote then
        match ReadLiteral(t[2..])
        case None => None
        case Some(p) => Some(([Quote] + p.0, p.1))
      else Some(([], t[1..]))
    else
      match ReadLiteral(t[1..])
      case None => None
      case Some(p) => Some(([t[0]] + p.0, p.1))
  }

  /** A quoted value is read back exactly, and reading stops right after its
      closing quote, whatever follows it (unless the next character is itself
      a quote, which the generated SQL never places there). */
  lemma {:induction false} ReadLiteralOfEscape(s: string, rest: string)
    requires |rest| == 0 || rest[0] != Quote
    ensures ReadLiteral(Escape(s) + [Quote] + rest) == Some((s, rest))
  {
    var t := Escape(s) + [Quote] + rest;
    if |s| == 0 {
      assert t == [Quote] + rest;
    } else if s[0] == Quote {
      ReadLiteralOfEscape(s[1..], rest);
      assert t[2..] == Escape(s[1..]) + [Quote] + rest;
      assert s == [Quote] + s[1..];
    } else {
      ReadLiteralOfEscape(s[1..], rest);
      assert t[1..] == Escape(s[1..]) + [Quote] + rest;
      assert s == [s[0]] + s[1..];
    }
  }

  /** Two values whose quoted forms are equal are equal: quoting loses nothing. */
  lemma LiteralInjective(s1: string, s2: string)
    requires Literal(s1) == Literal(s2)
    ensures s1 == s2
  {
    assert Escape(s1) == Literal(s1)[1..|Literal(s1)| - 1];
    assert Escape(s2) == Literal(s2)[1..|Literal(s2)| - 1];
    UnescapeEscape(s1);
    UnescapeEscape(s2);
  }

  /** Comma-separated quoted values, as in `options.map(o => `'${escape(o)}'`).join(',')`. */
  function JoinLiterals(values: seq<string>): string
  {
    if |values| == 0 then []
    else if |values| == 1 then Literal(values[0])
    else Literal(values[0]) + [','] + JoinLiterals(values[1..])
  }

  /** `ARRAY[...]` around the quoted values. */
  function ArrayLiteral(values: seq<string>): string
  {
    "ARRAY[" + JoinLiterals(values) + "]"
  }

  /** Reads a non-empty list of quoted values separated by commas and closed
      by `close`, returning the values and the text after the bracket. */
  function ReadItems(t: string, close: char): Option<(seq<string>, string)>
    requires close != ','
    decreases |t|
  {
    if |t| == 0 || t[0] != Quote then None
    else
      match ReadLiteral(t[1..])
      case None => None
      case Some(p) =>
        var rest := p.1;
        if |rest| > 0 && rest[0] == close then Some(([p.0], rest[1..]))
        else if |rest| > 0 && rest[0] == ',' && |rest| < |t| then
          match ReadItems(rest[1..], close)
          case None => None
          case Some(q) => Some(([p.0] + q.0, q.1))
        else None
  }

  /** Reads an `ARRAY[...]` of quoted values. */
  function ReadArray(t: string): Option<(seq<string>, string)>
  {
    if !(|t| >= 6 && t[..6] == "ARRAY[") then None
    else if |t| >= 7 && t[6] == ']' then Some(([], t[7..]))
    else ReadItems(t[6..], ']')
  }

  /** A comma-separated list of quoted values followed by its closing
      bracket is read back as the same values. */
  lemma {:induction false} ReadItemsOfJoin(values: seq<string>, close: char, rest: string)
    requires |values| > 0 && close != ',' && close != Quote
    ensures ReadItems(JoinLiterals(values) + [close] + rest, close) == Some((values, rest))
  {
    if |values| == 1 {
      ReadOneItem(values[0], close, rest);
      assert values == [values[0]];
    } else {
      var v := values[0];
      var tail := JoinLiterals(values[1..]) + [close] + rest;
      assert JoinLiterals(values) + [close] + rest == Literal(v) + [','] + tail;
      ReadItemCons(v, close, tail);
      ReadItemsOfJoin(values[1..], close, rest);
      assert values == [v] + values[1..];
    }
  }

  lemma ReadItemCons(v: string, close: char, tail: string)
    requires close != ',' && close != Quote
    ensures ReadItems(Literal(v) + [','] + tail, close) ==
      match ReadItems(tail, close)
      case None => None
      case Some(q) => Some(([v] + q.0, q.1))
  {
    var t := Literal(v) + [','] + tail;
    assert t[1..] == Escape(v) + [Quote] + ([','] + tail);
    ReadLiteralOfEscape(v, [','] + tail);
    assert ([','] + tail)[1..] == tail;
  }

  lemma ReadOneItem(v: string, close: char, rest: string)
    requires close != ',' && close != Quote
    ensures ReadItems(Literal(v) + [close] + rest, close) == Some(([v], rest))
  {
    var t := Literal(v) + [close] + rest;
    assert t[1..] == Escape(v) + [Quote] + ([close] + rest);
    ReadLiteralOfEscape(v, [close] + rest);
    assert ([close] + rest)[1..] == rest;
  }

  /** The quoted array of a script's options is read back as the same options. */
  lemma ReadArrayOfArrayLiteral(values: seq<string>, rest: string)
    ensures ReadArray(ArrayLiteral(values) + rest) == Some((values, rest))
  {
    var t := ArrayLiteral(values) + rest;
    assert t[..6] == "ARRAY[";
    if |values| == 0 {
      assert t == "ARRAY[]" + rest;
    } else {
      assert t[6..] == JoinLiterals(values) + "]" + rest;
      assert t[6] == Quote;
      ReadItemsOfJoin(values, ']', rest);
    }
  }

  /** An id between single quotes, as in `ids.map(id => `'${id}'`)`: the id is
      not escaped. */
  function RawQuoted(id: string): string
  {
    [Quote] + id + [Quote]
  }

  /** `ids.map(id => `'${id}'`).join(',')`, the list inside `IN (...)`. */
  function InList(ids: seq<string>): string
  {
    if |ids| == 0 then []
    else if |ids| == 1 then RawQuoted(ids[0])
    else RawQuoted(ids[0]) + [','] + InList(ids[1..])
  }

  /** A value without a quote is its own escape. */
  lemma {:induction false} EscapeNoQuote(s: string)
    requires CountQuotes(s) == 0
    ensures Escape(s) == s
  {
    if |s| > 0 {
      EscapeNoQuote(s[1..]);
      assert s == [s[0]] + s[1..];
    }
  }

  /** When no id contains a quote, the unescaped list is exactly the escaped
      one, so it is read back as the same ids. An id with a quote would end
      its literal early. */
  lemma {:induction false} InListReadsBack(ids: seq<string>, rest: string)
    requires |ids| > 0
    requires forall k :: 0 <= k < |ids| ==> CountQuotes(ids[k]) == 0
    ensures InList(ids) == JoinLiterals(ids)
    ensures ReadItems(InList(ids) + ")" + rest, ')') == Some((ids, rest))
  {
    EscapeNoQuote(ids[0]);
    if |ids| > 1 {
      InListReadsBack(ids[1..], rest);
    }
    ReadItemsOfJoin(ids, ')', rest);
  }

  /** A statement ending in `IN (<ids>);` and a line break, such as
      `DELETE FROM public.questions WHERE id IN ('a','b');`. */
  function InStatement(prefix: string, ids: seq<string>): string
  {
    prefix + InList(ids) + ");\n"
  }

  /** Whatever the text in front of it, the id list of such a statement
      reads back as the ids, in order, up to the closing parenthesis. */
  lemma InStatementReadsBack(prefix: string, ids: seq<string>)
    requires |ids| > 0
    requires forall k :: 0 <= k < |ids| ==> CountQuotes(ids[k]) == 0
    ensures InStatement(prefix, ids)[..|prefix|] == prefix
    ensures ReadItems(InStatement(prefix, ids)[|prefix|..], ')') == Some((ids, ";\n"))
  {
    InListReadsBack(ids, ";\n");
    assert InStatement(prefix, ids)[|prefix|..] == InList(ids) + ")" + ";\n";
  }
}

=== FILE: statements.dfy ===
/**
  The multi-column UPDATE statements written by
  scripts/convert_interview_smart.ts and scripts/recycle_junk.ts: a row id
  and a list of column assignments, each value a quoted text or an
  `ARRAY[...]` of quoted texts, rendered with the scripts' own layout.
 */
module Statements {
  import opened Seqs
  import Sql

  /** A value on the right of `column = ...`. */
  datatype Value = Text(s: string) | TextArray(items: seq<string>)

  datatype Assignment = Assignment(column: string, value: Value)

  /** `UPDATE public.questions SET ... WHERE id = '<id>';`. */
  datatype Update = Update(id: string, assignments: seq<Assignment>)

  function RenderValue(v: Value): (r: string)
    ensures |r| > 0
    ensures v.Text? <==> r[0] == Sql.Quote
  {
    match v
    case Text(s) => Sql.Literal(s)
    case TextArray(items) => Sql.ArrayLiteral(items)
  }

  /** Reads a rendered value back from the front of a text: a quoted text
      or an array of quoted texts. */
  function ReadValue(t: string): Option<(Value, string)>
  {
    if |t| > 0 && t[0] == Sql.Quote then
      match Sql.ReadLiteral(t[1..])
      case None => None
      case Some(p) => Some((Text(p.0), p.1))
    else
      match Sql.ReadArray(t)
      case None => None
      case Some(p) => Some((TextArray(p.0), p.1))
  }

  /** A rendered value is read back as itself, and reading stops right
      after it, whatever follows (unless a quote follows, which no layout
      of the scripts places there). */
  lemma ValueRoundTrip(v: Value, rest: string)
    requires |rest| == 0 || rest[0] != Sql.Quote
    ensures ReadValue(RenderValue(v) + rest) == Some((v, rest))
  {
    match v
    case Text(s) =>
      var t := RenderValue(v) + rest;
      assert t[1..] == Sql.Escape(s) + [Sql.Quote] + rest;
      Sql.ReadLiteralOfEscape(s, rest);
    case TextArray(items) =>
      Sql.ReadArrayOfArrayLiteral(items, rest);
  }

  /** Rendering loses nothing: different values render differently. */
  lemma RenderValueInjective(v1: Value, v2: Value)
    requires RenderValue(v1) == RenderValue(v2)
    ensures v1 == v2
  {
    ValueRoundTrip(v1, "");
    ValueRoundTrip(v2, "");
    assert RenderValue(v1) + "" == RenderValue(v2) + "";
  }

  /** One line of the SET list, indented by twelve spaces. */
  function RenderAssignment(a: Assignment): string
  {
    "            " + a.column + " = " + RenderValue(a.value)
  }

  /** The SET list, one assignment per line, separated by commas. */
  function RenderAssignments(assigns: seq<Assignment>): string
  {
    if |assigns| == 0 then ""
    else if |assigns| == 1 then RenderAssignment(assigns[0])
    else RenderAssignment(assigns[0]) + ",\n" + RenderAssignments(assigns[1..])
  }

  /** The statement with the template's line breaks and indentation; the
      id is placed between quotes without escaping. */
  function RenderUpdate(u: Update): string
  {
    "\n        UPDATE public.questions \n        SET \n" + RenderAssignments(u.assignments) +
    "\n        WHERE id = " + Sql.RawQuoted(u.id) + ";\n        "
  }

  /** The value assigned to `column`, if the statement assigns it. */
  function ValueOf(u: Update, column: string): Option<Value>
  {
    Lookup(u.assignments, column)
  }

  /** The first value assigned to `column` in the list. */
  function Lookup(assigns: seq<Assignment>, column: string): Option<Value>
  {
    if |assigns| == 0 then None
    else if assigns[0].column == column then Some(assigns[0].value)
    else Lookup(assigns[1..], column)
  }

  /** Lookup finds a value exactly when some assignment names the column,
      and the value it finds is that of the first assignment naming it. */
  lemma {:induction false} LookupFinds(assigns: seq<Assignment>, column: string)
    ensures Lookup(assigns, column).Some? <==> exists k :: 0 <= k < |assigns| && assigns[k].column == column
    ensures Lookup(assigns, column).Some? ==>
      exists k :: 0 <= k < |assigns| && assigns[k] == Assignment(column, Lookup(assigns, column).value) &&
        forall j :: 0 <= j < k ==> assigns[j].column != column
  {
    if |assigns| > 0 && assigns[0].column != column {
      var tail := assigns[1..];
      LookupFinds(tail, column);
      if Lookup(tail, column).Some? {
        var k :| 0 <= k < |tail| && tail[k] == Assignment(column, Lookup(tail, column).value) &&
          forall j :: 0 <= j < k ==> tail[j].column != column;
        assert assigns[k + 1] == tail[k];
        forall j | 0 <= j < k + 1 ensures assigns[j].column != column {
          if j > 0 {
            assert assigns[j] == tail[j - 1];
          }
        }
      }
      if exists k :: 0 <= k < |assigns| && assigns[k].column == column {
        var k :| 0 <= k < |assigns| && assigns[k].column == column;
        assert tail[k - 1] == assigns[k];
      }
    } else if |assigns| > 0 {
      assert assigns[0] == Assignment(column, Lookup(assigns, column).value);
    }
  }

  /** The statement turns the row into a quiz whose answer is one of its
      options. */
  predicate MakesQuizWithOfferedAnswer(u: Update)
  {
    ValueOf(u, "type") == Some(Text("quiz")) &&
    match ValueOf(u, "answer")
    case Some(Text(answer)) =>
      (match ValueOf(u, "options")
       case Some(TextArray(options)) => answer in options
       case _ => false)
    case _ => false
  }

  /** Every statement of the list makes a quiz with an offered answer. */
  predicate AllMakeQuizzes(updates: seq<Update>)
  {
    forall k :: 0 <= k < |updates| ==> MakesQuizWithOfferedAnswer(updates[k])
  }

  lemma AllMakeQuizzesAppend(updates: seq<Update>, u: Update)
    requires AllMakeQuizzes(updates) && MakesQuizWithOfferedAnswer(u)
    ensures AllMakeQuizzes(updates + [u])
  {
    var r := updates + [u];
    forall k | 0 <= k < |r| ensures MakesQuizWithOfferedAnswer(r[k]) {
      if k < |updates| {
        assert r[k] == updates[k];
      }
    }
  }
}

=== FILE: text.dfy ===
/**
  Character and string primitives shared by every script: per-character
  lower-casing, the JavaScript whitespace class (the set matched by `\s`
  and removed by `String.prototype.trim`), trimming, and the substring
  test behind `String.prototype.includes`.
 */
module Text {

  /** Lower-cases one character. ASCII capitals and the Latin-1 capitals
      U+00C0..U+00DE (except the multiplication sign U+00D7) are mapped to
      their small forms; every other character is left as it is. */
  function LowerChar(c: char): (r: char)
    ensures IsWhitespace(r) <==> IsWhitespace(c)
    ensures 'A' <= c <= 'Z' ==> 'a' <= r <= 'z'
    ensures c < 'A' || ('Z' < c < 'À') ==> r == c
  {
    if 'A' <= c <= 'Z' then (c as int + 32) as char
    else if 'À' <= c <= 'Þ' && c != '×' then (c as int + 32) as char
    else c
  }

  /** Lower-casing a character twice is the same as doing it once. */
  lemma LowerCharIdempotent(c: char)
    ensures LowerChar(LowerChar(c)) == LowerChar(c)
  {
  }

  /** `String.prototype.toLowerCase`, one character at a time. */
  function Lower(s: string): (r: string)
    ensures |r| == |s|
    ensures forall i :: 0 <= i < |s| ==> r[i] == LowerChar(s[i])
  {
    seq(|s|, i requires 0 <= i < |s| => LowerChar(s[i]))
  }

  /** A string is lower-case when lower-casing leaves every character alone. */
  predicate IsLower(s: string)
  {
    forall i :: 0 <= i < |s| ==> LowerChar(s[i]) == s[i]
  }

  lemma LowerIsLower(s: string)
    ensures IsLower(Lower(s))
    ensures Lower(Lower(s)) == Lower(s)
  {
    forall i | 0 <= i < |s|
      ensures LowerChar(Lower(s)[i]) == Lower(s)[i]
    {
      LowerCharIdempotent(s[i]);
    }
  }

  lemma LowerOfLower(s: string)
    requires IsLower(s)
    ensures Lower(s) == s
  {
  }

  /** The characters of the JavaScript `WhiteSpace` and `LineTerminator`
      productions: exactly what the regular-expression class `\s` matches
      and what `trim` removes. */
  predicate IsWhitespace(c: char)
  {
    var n := c as int;
    || 0x09 <= n <= 0x0D || n == 0x20 || n == 0xA0 || n == 0x1680
    || 0x2000 <= n <= 0x200A || n == 0x2028 || n == 0x2029 || n == 0x202F
    || n == 0x205F || n == 0x3000 || n == 0xFEFF
  }

  /** Every character of `s` is whitespace. */
  predicate AllWhitespace(s: string)
  {
    forall i :: 0 <= i < |s| ==> IsWhitespace(s[i])
  }

  /** Drops the leading whitespace. */
  function TrimStart(s: string): (r: string)
    ensures |r| <= |s| && r == s[|s| - |r|..]
    ensures |r| > 0 ==> !IsWhitespace(r[0])
    ensures AllWhitespace(s[..|s| - |r|])
  {
    if |s| > 0 && IsWhitespace(s[0]) then TrimStart(s[1..]) else s
  }

  /** Drops the trailing whitespace. */
  function TrimEnd(s: string): (r: string)
    ensures |r| <= |s| && r == s[..|r|]
    ensures |r| > 0 ==> !IsWhitespace(r[|r| - 1])
    ensures AllWhitespace(s[|r|..])
  {
    if |s| > 0 && IsWhitespace(s[|s| - 1]) then TrimEnd(s[..|s| - 1]) else s
  }

  /** `String.prototype.trim`: an infix of `s` that neither starts nor ends
      with whitespace, obtained by removing only whitespace around it. */
  function Trim(s: string): (r: string)
    ensures |r| > 0 ==> !IsWhitespace(r[0]) && !IsWhitespace(r[|r| - 1])
    ensures exists k :: OccursAt(s, r, k) && AllWhitespace(s[..k]) && AllWhitespace(s[k + |r|..])
  {
    var t := TrimStart(s);
    var r := TrimEnd(t);
    TrimParts(s, t, r);
    r
  }

  /** A whitespace-free-ended infix `r` of a suffix `t` of `s`, with only
      whitespace cut off around it, sits in `s` after that whitespace. */
  lemma TrimParts(s: string, t: string, r: string)
    requires |t| <= |s| && t == s[|s| - |t|..] && AllWhitespace(s[..|s| - |t|])
    requires |t| > 0 ==> !IsWhitespace(t[0])
    requires |r| <= |t| && r == t[..|r|] && AllWhitespace(t[|r|..])
    requires |r| > 0 ==> !IsWhitespace(r[|r| - 1])
    ensures OccursAt(s, r, |s| - |t|)
    ensures AllWhitespace(s[..|s| - |t|]) && AllWhitespace(s[|s| - |t| + |r|..])
    ensures |r| > 0 ==> !IsWhitespace(r[0]) && !IsWhitespace(r[|r| - 1])
  {
    var k := |s| - |t|;
    assert t == s[k..];
    assert r == t[..|r|];
    SliceOfSuffix(s, k, |r|);
    assert s[k..k + |r|] == r;
    assert s[k + |r|..] == t[|r|..];
    assert |r| > 0 ==> r[0] == t[0];
  }

  /** The characters of `s` that are not whitespace, in order. */
  function Visible(s: string): string
  {
    if |s| == 0 then [] else (if IsWhitespace(s[0]) then [] else [s[0]]) + Visible(s[1..])
  }

  lemma {:induction false} VisibleAppend(a: string, b: string)
    ensures Visible(a + b) == Visible(a) + Visible(b)
  {
    if |a| == 0 {
      assert a + b == b;
    } else {
      assert (a + b)[0] == a[0] && (a + b)[1..] == a[1..] + b;
      VisibleAppend(a[1..], b);
    }
  }

  lemma {:induction false} VisibleOfWhitespace(s: string)
    requires AllWhitespace(s)
    ensures Visible(s) == []
  {
    if |s| > 0 {
      assert AllWhitespace(s[1..]) by {
        forall i | 0 <= i < |s| - 1 ensures IsWhitespace(s[1..][i]) {
          assert s[1..][i] == s[i + 1];
        }
      }
      VisibleOfWhitespace(s[1..]);
    }
  }

  /** Trimming removes whitespace only: every other character stays, in order. */
  lemma TrimKeepsVisible(s: string)
    ensures Visible(Trim(s)) == Visible(s)
  {
    var t := TrimStart(s);
    TrimStartKeepsVisible(s);
    TrimEndKeepsVisible(t);
    assert Trim(s) == TrimEnd(t);
  }

  lemma TrimStartKeepsVisible(s: string)
    ensures Visible(TrimStart(s)) == Visible(s)
  {
    var t := TrimStart(s);
    var head := s[..|s| - |t|];
    assert s == head + t;
    VisibleAppend(head, t);
    VisibleOfWhitespace(head);
  }

  lemma TrimEndKeepsVisible(t: string)
    ensures Visible(TrimEnd(t)) == Visible(t)
  {
    var r := TrimEnd(t);
    var tail := t[|r|..];
    assert t == r + tail;
    VisibleAppend(r, tail);
    VisibleOfWhitespace(tail);
  }

  /** Slicing a suffix is slicing the string. */
  lemma SliceOfSuffix(s: string, k: nat, n: nat)
    requires k + n <= |s|
    ensures s[k..][..n] == s[k..k + n]
    ensures s[k..][n..] == s[k + n..]
  {
  }

  /** Trimming a string that has no whitespace at either end changes nothing. */
  lemma TrimNoop(s: string)
    requires |s| > 0 ==> !IsWhitespace(s[0]) && !IsWhitespace(s[|s| - 1])
    ensures Trim(s) == s
  {
  }

  /** True when `p` is a prefix of `s`. */
  predicate IsPrefix(p: string, s: string)
  {
    |p| <= |s| && s[..|p|] == p
  }

  /** `sub` sits in `s` at position `i`. */
  predicate OccursAt(s: string, sub: string, i: int)
  {
    0 <= i <= |s| - |sub| && s[i..i + |sub|] == sub
  }

  /** `s.includes(sub)`: some window of `s` equals `sub`. */
  predicate Contains(s: string, sub: string)
    decreases |s|
  {
    IsPrefix(sub, s) || (|s| > 0 && Contains(s[1..], sub))
  }

  /** The recursive substring test agrees with its positional reading. */
  lemma {:induction false} ContainsIff(s: string, sub: string)
    ensures Contains(s, sub) <==> exists i :: OccursAt(s, sub, i)
    decreases |s|
  {
    if IsPrefix(sub, s) {
      assert OccursAt(s, sub, 0);
    } else if |s| > 0 {
      ContainsIff(s[1..], sub);
      if Contains(s[1..], sub) {
        var i :| OccursAt(s[1..], sub, i);
        assert OccursAt(s, sub, i + 1);
      }
      if exists i :: OccursAt(s, sub, i) {
        var i :| OccursAt(s, sub, i);
        assert i != 0;
        assert OccursAt(s[1..], sub, i - 1);
      }
    }
  }

  // ---------------------------------------------------------------------
  // Decimal numerals (`n.toString()`, `${n}`)
  // ---------------------------------------------------------------------

  predicate IsDigit(c: char)
  {
    48 <= c as int <= 57
  }

  function DigitChar(d: nat): (c: char)
    requires d < 10
    ensures IsDigit(c)
  {
    (48 + d) as char
  }

  function Pow10(k: nat): (r: nat)
    ensures r >= 1
  {
    if k == 0 then 1 else 10 * Pow10(k - 1)
  }

  /** The decimal numeral of `n`, without leading zeros. */
  function Decimal(n: nat): (r: string)
    ensures |r| > 0
    ensures forall i :: 0 <= i < |r| ==> IsDigit(r[i])
    ensures |r| > 1 ==> r[0] != '0'
    decreases n
  {
    if n < 10 then [DigitChar(n)] else Decimal(n / 10) + [DigitChar(n % 10)]
  }

  /** The number a string of digits denotes. */
  function DecimalValue(s: string): nat
    requires forall i :: 0 <= i < |s| ==> IsDigit(s[i])
  {
    if |s| == 0 then 0
    else
      assert IsDigit(s[|s| - 1]);
      DecimalValue(s[..|s| - 1]) * 10 + (s[|s| - 1] as int - 48)
  }

  /** Reading a numeral back gives the number. */
  lemma {:induction false} DecimalRoundTrip(n: nat)
    ensures DecimalValue(Decimal(n)) == n
    decreases n
  {
    if n >= 10 {
      DecimalRoundTrip(n / 10);
      var r := Decimal(n);
      assert r[..|r| - 1] == Decimal(n / 10);
    }
  }

  /** Different numbers have different numerals. */
  lemma DecimalInjective(m: nat, n: nat)
    requires Decimal(m) == Decimal(n)
    ensures m == n
  {
    DecimalRoundTrip(m);
    DecimalRoundTrip(n);
  }

  /** A number with `k + 1` digits has a numeral of length `k + 1`. */
  lemma {:induction false} DecimalLength(n: nat, k: nat)
    requires Pow10(k) <= n < Pow10(k + 1)
    ensures |Decimal(n)| == k + 1
    decreases k
  {
    if k > 0 {
      DecimalLength(n / 10, k - 1);
    }
  }
}

=== FILE: types.dfy ===
/**
  The question kinds of lib/data/types.ts: a row of `public.questions` is
  either a multiple-choice quiz or an open interview question.
 */
module QuestionTypes {
  import opened Seqs

  datatype QuestionType = Quiz | Interview

  /** The value stored in the `type` column. */
  function TypeName(t: QuestionType): (name: string)
    ensures name == "quiz" || name == "interview"
  {
    match t
    case Quiz => "quiz"
    case Interview => "interview"
  }

  /** The stored value names the kind back. */
  function ParseType(name: string): (t: Option<QuestionType>)
  {
    if name == "quiz" then Some(Quiz)
    else if name == "interview" then Some(Interview)
    else None
  }

  lemma TypeNameRoundTrip(t: QuestionType)
    ensures ParseType(TypeName(t)) == Some(t)
  {
    if t == Interview {
      assert TypeName(t)[0] != "quiz"[0];
    }
  }
}
